=== FILE: README.md ===
# Jakarta Pasti Sehat backend: a Dafny model of the service layer

This project models the service layer of the Jakarta Pasti Sehat backend in Dafny. The backend is a NestJS application that stores its rows through Prisma and its files in an object store. It covers:

- the string helpers and the constant tables;
- the paginated listings with their public filters;
- the life cycle of image-backed records, where every row carries an uploaded file;
- the child rows of teams and pillars, which are created, upserted, toggled and cascade-deleted;
- the role and access-key decisions of the admin, key and guard code.

Each service is a module over an immutable `State`. A state holds one `map` per table and one `set<Key>` of the object keys present in the store. Every mutation is a pure function that returns `Reply(state, result)`. That way a file uploaded or deleted before an error stays visible in the state that follows the error. The result is `Ok(v)` or `Err(e)`, where `e` is one of:

- `NotFound`, `Forbidden`, `Unauthorized`: the HTTP exceptions the services throw;
- `StoreFailure`: a rejected upload or a rejected delete in the object store;
- `DbFailure`: a rejected write, such as a primary-key collision or a missing parent row;
- `TypeError`: a JavaScript runtime error, such as reading a field of `undefined`.

Everything the code takes from outside becomes a parameter:

- the outcome of an upload (`Uploaded(url)` or `UploadFailed`);
- the outcome of each delete, as the set `rejects` of the keys whose delete rejects during the call;
- the order in which a relation lists the children a delete loop visits;
- `Date.now()`;
- every draw of `random(lo, hi)`;
- the bcrypt hash and the AES helpers;
- the JWT verifier;
- the configured access key.

The model assumes the following Prisma semantics:

- `contains: undefined` places no condition;
- a filter through a relation that is null does not match;
- `create` with an existing primary key is rejected;
- deleting a parent deletes its child rows through the schema's cascades;
- a team's required `position_id` is a foreign key with the default rule (restrict), so deleting a position a team holds is rejected;
- a delete of an absent object key that resolves does nothing.

Lists are taken in store order. The `orderBy` clauses built from `getOrderBy` are not modelled. Two sorts are: the pillar listings sort by name, under code-point order (`Order.SortBy`), and a team's educations and social links sort by `order` descending (`Order.SortDescBy`). Both are functional insertion sorts.

Modules:

- `Common`: `Option`, `Result`, `Reply`, `Keep` (the `field ?? current` patch rule) and the batch insert.
- `Text`: JavaScript string primitives (trim, split, join, ASCII case, decimal rendering).
- `StringUtil`: `slug`, `capitalize`, `getInitials`, `getReadingTimeFromHTML`.
- `Constants`: `PREFIX`, `EDUCATIONORDER`, `SOCIALMEDIAORDER`, and `${prefix}${random(lo, hi)}` identifiers.
- `Listing`: `page`/`skip`/`take`/`total_pages`, the pillar and subpillar name resolution, and the public filter with its sentinels `asc`, `desc`, `other` and `Lainnya`.
- `Blobs`: object keys and the store's upload and delete.
- `Upsert`: the upsert-per-child step that `updateTeams` and `updatePillar` use.
- `Order`: name order, sorting by name and sorting by a descending number.
- One module per service: `Volunteers`, `Careers`, `Articles`, `Docs`, `Teams`, `Pillars`, `Partners`, `Banners`, `Positions`, `Admins`, `Keys`, `PublicGuard`. Partners and banners share the image-record life cycle in `ImageRecords`.

## Model

| member | source | states |
|---|---|---|
| Text.TrimStart | src/utils/string.util.ts:4 | the result is a suffix of the input; everything dropped is JavaScript whitespace; the result does not start with whitespace |
| Text.TrimEnd | src/utils/string.util.ts:4 | the result is a prefix of the input; everything dropped is whitespace; the result does not end with whitespace |
| Text.Trim | src/utils/string.util.ts:4 | the trimmed string neither starts nor ends with whitespace and is no longer than the input |
| Text.Split | src/utils/string.util.ts:10-12 | `split(sep)` yields at least one part, and no part contains the separator |
| Text.JoinSplit | src/utils/string.util.ts:10-13 | `split` then `join` on the same character gives back the original string |
| Text.SplitJoin | src/utils/string.util.ts:17-20 | `join` then `split` gives back the parts when no part contains the separator |
| Text.JoinLength | src/utils/string.util.ts:17-20 | a join is as long as its parts plus one separator between each pair |
| Text.ToLower | src/utils/string.util.ts:25 | `toLowerCase` keeps the length and maps each character through the ASCII lower-casing |
| Text.NatToString | src/teams/teams.service.ts:151 | the decimal rendering used in identifiers is non-empty and all digits |
| Text.DecimalRoundTrip | src/teams/teams.service.ts:151 | the decimal rendering of `n` reads back as `n` |
| Text.NatToStringInjective | src/teams/teams.service.ts:151 | distinct numbers render to distinct strings |
| Text.NatToStringLength | src/teams/teams.service.ts:151 | a number in `[10^(k-1), 10^k)` renders to exactly `k` digits |
| StringUtil.DropDisallowed | src/utils/string.util.ts:27 | removing `[^a-z0-9\s-]` leaves only allowed characters and leaves an already clean string unchanged |
| StringUtil.HyphenateSpaces | src/utils/string.util.ts:28 | replacing whitespace runs with `-` leaves no whitespace and keeps a string without whitespace unchanged |
| StringUtil.Slug | src/utils/string.util.ts:23-29 | a slug contains only `a-z`, `0-9` and `-` and is no longer than the text |
| StringUtil.SlugIdempotent | src/utils/string.util.ts:23-29 | slugging a slug changes nothing |
| StringUtil.JoinCapitalized | src/utils/string.util.ts:16-21 | capitalising word by word and joining equals capitalising the first character after every space of the joined text |
| StringUtil.Capitalize | src/utils/string.util.ts:16-21 | each character is upper-cased exactly when it starts the text or follows a space; every other character is kept |
| StringUtil.CapitalizeKeepsSpaces | src/utils/string.util.ts:16-21 | the result has a space exactly where the input has one |
| StringUtil.CapitalizeIdempotent | src/utils/string.util.ts:16-21 | capitalising twice equals capitalising once |
| StringUtil.InitialsOfNonEmpty | src/utils/string.util.ts:9-14 | `charAt(0)` of an empty part contributes nothing, so the initials are the first characters of the non-empty parts |
| StringUtil.GetInitials | src/utils/string.util.ts:9-14 | the initials have one character per non-empty space-separated word, and that character is the word's first |
| StringUtil.StripTags | src/utils/string.util.ts:3 | removing tags never lengthens the text and leaves text without `<` unchanged |
| StringUtil.SplitOnSpaceRunsLength | src/utils/string.util.ts:4 | `split(/\s+/)` yields one part more than there are whitespace runs |
| StringUtil.SpaceRunsOfTrimmed | src/utils/string.util.ts:4 | on trimmed text, the number of parts of `split(/\s+/)` is the word count, or 1 for empty text |
| StringUtil.ReadingWordsAreWords | src/utils/string.util.ts:2-4 | the `length` the code computes is the number of words of the tag-free text, at least 1 |
| StringUtil.MinutesFor | src/utils/string.util.ts:2-5 | `Math.ceil(words / 200)`: the least `m` with `200 * m >= words`, and at least 1 for one word or more |
| StringUtil.ReadingMinutes | src/utils/string.util.ts:1-5 | the minutes are at least 1 and are the ceiling of the tag-free word count over 200 |
| StringUtil.GetReadingTimeFromHTML | src/utils/string.util.ts:1-7 | the text is the decimal minute count followed by ` menit waktu baca`, and that count reads back as at least 1 |
| StringUtil.MinutesMonotone | src/utils/string.util.ts:5 | more words never give fewer minutes |
| StringUtil.MinutesBoundary | src/utils/string.util.ts:2-5 | 200 words take 1 minute; 201 and 400 words take 2 minutes |
| StringUtil.PlainTextMinutes | src/utils/string.util.ts:1-5 | for text without tags the minutes depend only on its word count |
| Constants.PrefixTextIsLookup | src/utils/constant.util.ts:1-15 | the prefix used for a kind is its `PREFIX` entry; EDUCATION, SOCIAL_MEDIA and DOCUMENTATIONIMAGE have no entry and render as `undefined` |
| Constants.KindOfPrefixInverts | src/utils/constant.util.ts:1-15 | every prefix maps back to its own kind |
| Constants.PrefixesDistinct | src/utils/constant.util.ts:1-15 | the thirteen prefixes are pairwise distinct |
| Constants.EducationOrder | src/utils/constant.util.ts:17-30 | each level's order is its 1-based position in TK … S3, within 1..12 |
| Constants.EducationOrderStrictlyIncreasing | src/utils/constant.util.ts:17-30 | a higher level always has a larger order, so the table is injective |
| Constants.EducationOrderOnto | src/utils/constant.util.ts:17-30 | every order in 1..12 belongs to some level |
| Constants.SocialMediaOrder | src/utils/constant.util.ts:32-37 | the order of TIKTOK, YOUTUBE, INSTAGRAM and LINKEDIN is 1..4 in that sequence |
| Constants.SocialMediaOrderOnto | src/utils/constant.util.ts:32-37 | every order in 1..4 belongs to some platform |
| Constants.MintId | src/teams/teams.service.ts:151 | `${prefix}${random(lo, hi)}` is the prefix followed by exactly `digits` digits that read back as the draw |
| Constants.MintIdInjective | src/teams/teams.service.ts:151 | two identifiers under one prefix are equal only for equal draws |
| Listing.RequestedPage | src/volunteers/volunteers.service.ts:26-28 | an absent page is page 1 and a page from 1 up is taken as given; a page of 0 or below makes `skip` negative and is a DbFailure |
| Listing.Filter | src/volunteers/volunteers.service.ts:31-58 | the selected rows are exactly the rows that match, taken as a sub-multiset of the table |
| Listing.FilterAppend | src/volunteers/volunteers.service.ts:31-58 | selecting from two tables laid end to end gives the two selections in the same order, end to end |
| Listing.FilterOne | src/volunteers/volunteers.service.ts:31-58 | a single row is selected exactly when it matches |
| Listing.FilterCardinality | src/volunteers/volunteers.service.ts:31-58 | on a duplicate-free table, `count` with a `where` clause equals the size of the set of matching rows |
| Listing.PageBound | src/volunteers/volunteers.service.ts:115-117 | `skip` falls inside the table exactly when the page is at most `total_pages` |
| Listing.Paginate | src/volunteers/volunteers.service.ts:22-119 | items are the rows from `skip` on, at most `take` of them; `page` is 0 exactly when there are no items; `total_pages` is the ceiling of the total over `take` |
| Listing.List | src/volunteers/volunteers.service.ts:22-119 | a page below 1 is a DbFailure and any other page is served; the `$transaction` of `count` and `findMany` on one snapshot: the total counts the matches; `total_pages` is the ceiling of the total over `take`, from both sides; a page inside the table is full or runs to the end; item `i` is the matching row at offset `skip + i` |
| Listing.PageMap | src/volunteers/volunteers.service.ts:109-119 | a page below 1 is a DbFailure; otherwise an unfiltered page: the total is the table size, `page` is the requested page or 0 for an empty page, and item `i` renders row `skip + i` |
| Listing.ListMap | src/volunteers/volunteers.service.ts:22-119 | a page below 1 is a DbFailure; otherwise a filtered page: everything `PageMap` states about the matching rows, and every row rendered is a matching row of the table |
| Listing.ListTotalIsMatchingSet | src/volunteers/volunteers.service.ts:31-58 | the reported total is the number of distinct matching rows |
| Listing.MapPage | src/volunteers/volunteers.service.ts:109-118 | mapping the rows for the response keeps `page`, the total and `total_pages` |
| Listing.FirstPagesArePrefix | src/volunteers/volunteers.service.ts:26-28 | pages 1..k together are the first `k * take` rows |
| Listing.PagesCoverAll | src/volunteers/volunteers.service.ts:115-117 | walking pages 1 to `total_pages` returns the whole table, in order, exactly once |
| Listing.PastLastPage | src/volunteers/volunteers.service.ts:115 | a page beyond `total_pages` has no items and reports page 0 |
| Listing.Resolve | src/volunteers/volunteers.service.ts:111-112 | a relation resolves exactly when the reference is set and the target row exists |
| Listing.DisplayName | src/volunteers/volunteers.service.ts:111-112 | the displayed pillar name is the related row's name, or `Lainnya` without one |
| Listing.RefOf | src/volunteers/volunteers.service.ts:153-164 | the admin listing shows the related id and name exactly when the relation resolves |
| Listing.SortFiltersIgnored | src/volunteers/volunteers.service.ts:34-35 | a filter of `asc` or `desc` places no condition beyond the caller's |
| Listing.OtherMeansUncategorised | src/volunteers/volunteers.service.ts:36-37 | the filter `other` selects exactly the rows with neither a pillar nor a subpillar |
| Listing.TitleHitSelects | src/volunteers/volunteers.service.ts:38-54 | any other filter selects a row whose title contains it |
| Listing.FilterExt | src/volunteers/volunteers.service.ts:31-58 | two `where` clauses that agree on every row select the same rows |
| Listing.FilterAll | src/volunteers/volunteers.service.ts:130-136 | a clause that every row meets selects the whole table |
| Blobs.ObjectKey | src/teams/teams.service.ts:139 | `${folder}/${Date.now()}-${name}` starts with the folder and a slash and ends with the file name |
| Blobs.FoldersSeparateKeys | src/banners/banners.service.ts:67 | keys in different folders never collide |
| Blobs.Upload | src/teams/teams.service.ts:141-146 | a successful upload adds the key and yields the URL; a failed one changes nothing and rejects |
| Blobs.Delete | src/teams/teams.service.ts:195-198 | the effect of a delete that resolves: the key is absent afterwards and every other key is kept |
| Blobs.TryDelete | src/articles/articles.service.ts:375-378 | an awaited delete: a rejected one leaves the bucket as it was and is a StoreFailure; otherwise the key is removed |
| Blobs.TryDeleteAll | src/docs/docs.service.ts:373-389 | `Promise.all` of deletes: it resolves exactly when no key rejects; every key that does not reject is removed, and every other key stays |
| Blobs.FirstRejected | src/volunteers/volunteers.service.ts:353-364 | the loop stops at the first batch holding a rejected key: every earlier batch is free of rejected keys |
| Blobs.DeleteBatches | src/volunteers/volunteers.service.ts:353-364 | awaited batches in sequence: it resolves exactly when no batch rejects; the batches before the first rejecting one are gone, that batch loses its non-rejected keys, and everything else stays |
| Blobs.CheckedDelete | src/banners/banners.service.ts:104-114 | the existence check: a present key whose delete rejects is a StoreFailure with nothing changed; otherwise the key is absent afterwards |
| Blobs.CheckedDeleteIsDelete | src/banners/banners.service.ts:104-114 | the existence check behaves like a plain awaited delete for a present key or a delete that resolves; for an absent key it never rejects |
| Upsert.Step | src/teams/teams.service.ts:224-240 | an item whose `create` lacks a required column is rejected with nothing changed, even when its row exists; otherwise an upsert updates the row with the given id, or creates a row under the fresh id, and fails when that fresh id is taken |
| Upsert.UpsertAll | src/teams/teams.service.ts:221-267 | upserting a list never drops a row; any incomplete item makes the batch fail; a failure implies some item was incomplete or named an absent row; complete items naming stored rows succeed and add no row |
| Upsert.UntouchedRows | src/pillars/pillars.service.ts:145-172 | rows no upsert names come out unchanged |
| Upsert.UpdatedRow | src/pillars/pillars.service.ts:151-159 | a listed id that exists gets the update applied to it when its item is complete, and is left as it was otherwise |
| Upsert.NewRows | src/pillars/pillars.service.ts:160-167 | every new row has a fresh id drawn for a listed upsert whose id was absent |
| Upsert.KeepsInvariant | src/teams/teams.service.ts:221-267 | an invariant that updates and creates keep holds for every row after the whole upsert |
| Order.StrLeTotal | src/pillars/pillars.service.ts:27-29 | any two names are comparable |
| Order.StrLeTrans | src/pillars/pillars.service.ts:27-29 | name order is transitive |
| Order.StrLeAntisymmetric | src/pillars/pillars.service.ts:27-29 | names ordered both ways are equal |
| Order.InsertPermutes | src/pillars/pillars.service.ts:22-24 | inserting into a sorted list adds exactly one occurrence |
| Order.SortBy | src/pillars/pillars.service.ts:22-29 | `orderBy: { name: 'asc' }` returns a sorted permutation of the rows |
| Order.SortKeepsMembers | src/pillars/pillars.service.ts:22-29 | sorting keeps the length and the members |
| Order.MultisetRemove | src/pillars/pillars.service.ts:22-29 | removing the same element from two permutations of each other leaves permutations |
| Order.MapSeqAppend | src/pillars/pillars.service.ts:27-39 | mapping two lists end to end maps each in turn |
| Order.MapSeqPermutes | src/pillars/pillars.service.ts:27-39 | mapping a permutation of a list gives a permutation of the results; the public pillars are this map of `Publish` |
| Order.InsertDescPermutes | src/teams/teams.service.ts:110-111 | inserting into a list sorted by descending order adds exactly one occurrence |
| Order.SortDescBy | src/teams/teams.service.ts:110-111 | `orderBy: { order: 'desc' }` returns a permutation of the rows with the orders descending |
| Common.CeilDiv | src/volunteers/volunteers.service.ts:117 | `Math.ceil(a / b)` is the least `q` with `q * b >= a` |
| Common.Keep | src/volunteers/volunteers.service.ts:320-328 | an absent patch field keeps the current value, and a present one replaces it |
| Common.InsertRows | src/pillars/pillars.service.ts:116-128 | a nested `createMany` adds the new ids and keeps every other row |
| Common.InsertBatch | src/teams/teams.service.ts:160-188 | a `createMany` fails exactly when an id repeats or exists; otherwise every row is stored under its id and the old rows are kept |
| Common.InsertBatchKeeps | src/teams/teams.service.ts:160-188 | a property of the old rows and of the new rows holds for the whole table after the batch |
| Volunteers.GetPublicVols | src/volunteers/volunteers.service.ts:22-119 | eight per page; the total counts the active openings that match the filter; `page` is the requested page, or 0 when it is empty; item `i` renders the matching opening at offset `skip + i`, with its pillar names; a page below 1 is a DbFailure |
| Volunteers.PublicUnfilteredCountsActive | src/volunteers/volunteers.service.ts:31-58 | with no filter or a sort filter, the total is the number of active openings |
| Volunteers.GetVols | src/volunteers/volunteers.service.ts:121-187 | eight per page; the admin total counts openings whose title contains `q`; `page` is the requested page, or 0 when it is empty; item `i` renders the matching opening at offset `skip + i`, with its applicant count; a page below 1 is a DbFailure |
| Volunteers.AdminUnfilteredCountsAll | src/volunteers/volunteers.service.ts:130-136 | without `q`, the admin total is the whole table |
| Volunteers.UpdateVol | src/volunteers/volunteers.service.ts:309-334 | an unknown id is NotFound; otherwise only that opening changes, patched field by field, and the slug follows a new title |
| Volunteers.UpdateVolIdempotent | src/volunteers/volunteers.service.ts:309-334 | applying the same update twice equals applying it once |
| Volunteers.UpdateVolEmptyTouchesOnlyUpdater | src/volunteers/volunteers.service.ts:318-329 | an update with no fields changes only `updated_by` |
| Volunteers.DeleteVol | src/volunteers/volunteers.service.ts:336-372 | an unknown id is NotFound; the delete succeeds exactly when none of its applicants' files rejects, and then the opening and its applicants are gone with every CV and follow file; a rejection is a StoreFailure that keeps every row, while the files of the applicants visited before it are gone; other files stay |
| Volunteers.FileBatchesCleared | src/volunteers/volunteers.service.ts:353-364 | the per-applicant loop resolves exactly when none of the opening's files rejects, and then all of them are gone |
| Volunteers.DeleteVolPreservesConsistency | src/volunteers/volunteers.service.ts:336-372 | a delete that does not end in StoreFailure keeps every applicant pointing to an opening and every referenced file present; file ownership stays exclusive on every path |
| Volunteers.DeleteVolRejectedLeavesDangling | src/volunteers/volunteers.service.ts:353-364 | with two applicants, a rejected delete of the second one's CV is a StoreFailure that leaves the first applicant's row naming deleted files |
| Volunteers.CreateVolApplAsWritten | src/volunteers/volunteers.service.ts:374-436 | as written: a missing file is a TypeError; a failed upload deletes both keys; a rejected insert keeps the applicants and leaves both uploaded files in the store, because the unawaited `create` skips the `catch` |
| Volunteers.CreateVolApplAsWrittenLeaksFiles | src/volunteers/volunteers.service.ts:403-433 | an application for a missing opening is rejected while both uploaded files stay in the store |
| Volunteers.CreateVolAppl | src/volunteers/volunteers.service.ts:374-436 | with the compensation in effect: a rejected insert deletes both files again; on success the new applicant references both uploaded files |
| Volunteers.CreateVolApplPreservesConsistency | src/volunteers/volunteers.service.ts:374-436 | the corrected create keeps applicants consistent with openings and files |
| Volunteers.UpdateVolAppl | src/volunteers/volunteers.service.ts:438-460 | the approval flag of that applicant flips, `approved_by` records the actor, and nothing else changes |
| Volunteers.ToggleTwiceRestores | src/volunteers/volunteers.service.ts:438-460 | toggling twice restores the applicant, with only the approver changed |
| Careers.GetPublicCareers | src/careers/careers.service.ts:22-119 | six per page; the total counts the active careers that match the filter; `page` is the requested page, or 0 when it is empty; item `i` renders the matching career at offset `skip + i` with the fields the public select names, and no id; a page below 1 is a DbFailure |
| Careers.PublicUnfilteredCountsActive | src/careers/careers.service.ts:31-58 | with no filter or a sort filter, the total is the number of active careers |
| Careers.GetCareers | src/careers/careers.service.ts:121-186 | eight per page; the admin total counts careers whose title contains `q`; `page` is the requested page, or 0 when it is empty; item `i` renders the matching career at offset `skip + i`, with its applicant count; a page below 1 is a DbFailure |
| Careers.AdminCountsApplicants | src/careers/careers.service.ts:121-186 | the applicant count of an item is the number of applicants for that career |
| Careers.NullIfFalsy | src/careers/careers.service.ts:315-342 | `x ? x : null`: an empty or absent reference becomes null |
| Careers.UpdateCareer | src/careers/careers.service.ts:315-342 | an unknown id is NotFound; otherwise only that career changes, and its pillar references are nulled when falsy |
| Careers.UpdateCareerClearsTaxonomy | src/careers/careers.service.ts:315-342 | an update without pillar references leaves the career uncategorised (`Lainnya`) in the public list |
| Careers.UpdateCareerIdempotent | src/careers/careers.service.ts:315-342 | applying the same update twice equals applying it once |
| Careers.DeleteCareer | src/careers/careers.service.ts:344-373 | an unknown id is NotFound; the delete succeeds exactly when none of its applicants' CVs rejects, and then the career and its applicants are gone with their CVs; a rejection is a StoreFailure that keeps every row, while the CVs visited before it are gone; other files stay |
| Careers.CvBatchesCleared | src/careers/careers.service.ts:360-365 | the per-applicant loop resolves exactly when none of the career's CVs rejects, and then all of them are gone |
| Careers.DeleteCareerPreservesConsistency | src/careers/careers.service.ts:344-373 | a delete that does not end in StoreFailure keeps applicants consistent with careers and files; CV ownership stays exclusive on every path |
| Careers.DeleteCareerRejectedLeavesDangling | src/careers/careers.service.ts:360-365 | with two applicants, a rejected delete of the second CV is a StoreFailure that leaves the first applicant's row naming a deleted CV |
| Careers.CvKey | src/careers/careers.service.ts:376 | the CV is stored under `career_cvs/` |
| Careers.CreateCarApplAsWritten | src/careers/careers.service.ts:375-411 | as written: a missing file is a TypeError; a failed upload deletes the key; a rejected insert keeps the applicants and leaves the CV in the store, because the unawaited `create` skips the `catch` |
| Careers.CreateCarApplAsWrittenLeaksCv | src/careers/careers.service.ts:386-408 | an application for a missing career is rejected while its CV stays in the store |
| Careers.CreateCarAppl | src/careers/careers.service.ts:375-411 | corrected: a rejected insert removes the CV again; on success the applicant is new and references the stored CV |
| Careers.CreateCarApplPreservesConsistency | src/careers/careers.service.ts:375-411 | the corrected create keeps applicants consistent with careers and files |
| Careers.UpdateCarAppl | src/careers/careers.service.ts:413-435 | the approval flag of that applicant flips, `approved_by` records the actor, and nothing else changes |
| Careers.ToggleTwiceRestores | src/careers/careers.service.ts:413-435 | toggling twice restores the applicant, with only the approver changed |
| Articles.GetPublicArticles | src/articles/articles.service.ts:20-144 | eight per page; the total counts the active articles that match the filter; `page` is the requested page, or 0 when it is empty; item `i` renders the matching article at offset `skip + i`, with its pillar names and `getReadingTimeFromHTML` of its content; a page below 1 is a DbFailure |
| Articles.AnyTaxonomyMatches | src/articles/articles.service.ts:52-63 | with a filter other than empty or `Lainnya`, any active article with a pillar or subpillar matches, whatever its title |
| Articles.UncategorisedMatches | src/articles/articles.service.ts:52-63 | with no filter or `Lainnya`, any active article missing a pillar or a subpillar matches |
| Articles.FalsyFilterSelectsActive | src/articles/articles.service.ts:30-65 | without a filter, the public list is exactly the active articles |
| Articles.PublicExcludes | src/articles/articles.service.ts:30-65 | with a filter other than empty or `Lainnya`, only an uncategorised article whose title does not contain it is left out, or an inactive one |
| Articles.GetArticles | src/articles/articles.service.ts:146-208 | eight per page; the admin total counts articles whose title contains `q`; `page` is the requested page, or 0 when it is empty; item `i` renders the matching article at offset `skip + i`; a page below 1 is a DbFailure |
| Articles.CreateArticle | src/articles/articles.service.ts:252-280 | a missing file is a TypeError and a failed upload rejects with no change; on success the new id is `JPSARC` plus six digits and the row references the uploaded image |
| Articles.ParseActive | src/articles/articles.service.ts:282-359 | `is_active` is true for `"true"`, false for any other non-empty text, and unchanged when absent |
| Articles.UpdateArticle | src/articles/articles.service.ts:282-359 | an unknown id is NotFound; a new image replaces the old one in the store; a failed upload changes nothing; a rejected delete of the old image is a StoreFailure that leaves the row unchanged and the new image stored but unreferenced |
| Articles.UpdateArticlePreservesConsistency | src/articles/articles.service.ts:282-359 | on every path, including a rejected delete, every article's image stays in the store and no two articles share an image |
| Articles.DeleteArticle | src/articles/articles.service.ts:361-388 | an unknown id is NotFound; a rejected image delete is a StoreFailure that changes nothing; otherwise the article and its image are gone and every other file stays |
| Articles.DeleteArticlePreservesConsistency | src/articles/articles.service.ts:361-388 | every path of a delete keeps the image invariants |
| Articles.CreateThenDeleteRestores | src/articles/articles.service.ts:252-388 | creating an article and deleting it, with the image delete resolving, restores the original state |
| Docs.GetPublicDocs | src/docs/docs.service.ts:15-110 | nine per page; the total counts the documents that match the filter; `page` is the requested page, or 0 when it is empty; item `i` renders the matching document at offset `skip + i`, with its images; a page below 1 is a DbFailure |
| Docs.UnfilteredNeedsTaxonomy | src/docs/docs.service.ts:24-43 | without a filter, a document is listed exactly when its pillar or subpillar exists |
| Docs.TitleIrrelevant | src/docs/docs.service.ts:24-43 | the title never decides whether a document is listed |
| Docs.GetDocs | src/docs/docs.service.ts:112-170 | the admin list pages over all documents: the total is the table size, `page` is the requested page or 0 when empty, and item `i` renders the document at offset `skip + i`; a page below 1 is a DbFailure |
| Docs.ImageUrl | src/docs/docs.service.ts:340 | an image URL ends with its object key |
| Docs.ImageRows | src/docs/docs.service.ts:321-350 | one row per uploaded image, with its key, URL and document |
| Docs.ImageIdsStartUndefined | src/docs/docs.service.ts:338 | `PREFIX['DOCUMENTATIONIMAGE']` is missing, so every image id starts with `undefined` |
| Docs.UploadAll | src/docs/docs.service.ts:324-335 | the store gains exactly the keys whose upload succeeded |
| Docs.UploadDocImages | src/docs/docs.service.ts:310-352 | adding images to a missing document is NotFound; a missing file list is a TypeError; success stores every row; the documents are never changed |
| Docs.InsertImages | src/docs/docs.service.ts:344-351 | the image batch fails exactly when an id repeats or exists; otherwise it stores each row and keeps the old ones |
| Docs.FailedImageUploadLeavesRow | src/docs/docs.service.ts:324-351 | a failed upload still gets a row, whose key is not in the store |
| Docs.CreateDoc | src/docs/docs.service.ts:211-249 | a missing thumbnail is a TypeError; on success the id is `JPSDOC` plus six digits, every listed image has a row for that document, earlier image rows are kept, and no other row is added |
| Docs.FreshDocImages | src/docs/docs.service.ts:211-249 | adding a batch of rows for a new documentation to a table whose rows belong to stored documentations makes that batch exactly the new documentation's images |
| Docs.CreateDocThenImages | src/docs/docs.service.ts:211-249 | a created documentation renders exactly the images submitted with it |
| Docs.UpdateDoc | src/docs/docs.service.ts:251-308 | an unknown id is NotFound; with a file, the old thumbnail is deleted first, and a rejected delete is a StoreFailure that changes nothing; the images are untouched |
| Docs.UpdateDocFailedUploadDangles | src/docs/docs.service.ts:261-274 | when the upload fails after the old thumbnail's delete resolved, the row points to a missing file |
| Docs.DeleteDoc | src/docs/docs.service.ts:354-395 | an unknown id is NotFound; the delete succeeds exactly when none of the thumbnail and image deletes rejects, and then the document, its image rows and all those files are gone; a rejection is a StoreFailure that keeps the rows while the files whose delete resolved are gone; other files stay |
| Docs.OthersFilesOutside | src/docs/docs.service.ts:354-395 | with exclusive keys, no other row's file is among a documentation's files |
| Docs.DeleteDocPreservesConsistency | src/docs/docs.service.ts:354-395 | a delete that does not end in StoreFailure keeps images consistent with documents and files; exclusivity holds on every path |
| Docs.DeleteDocRejectedLeavesDangling | src/docs/docs.service.ts:373-389 | when one image's delete rejects, the documentation survives but its thumbnail is gone |
| Docs.DeleteDocImage | src/docs/docs.service.ts:397-420 | an unknown id is NotFound; a rejected file delete is a StoreFailure that changes nothing; otherwise the image row and its file are gone and nothing else changes |
| Docs.DeleteDocImagePreservesConsistency | src/docs/docs.service.ts:397-420 | every path of an image delete keeps the invariants |
| Teams.PositionName | src/teams/teams.service.ts:19-63 | a team shows the name of its position when that position exists |
| Teams.GetTeams | src/teams/teams.service.ts:19-63 | five per page over all teams: the total is the table size, `page` is the requested page or 0 when empty, and item `i` renders the team at offset `skip + i` with its position name; a page below 1 is a DbFailure |
| Teams.GetPublicTeams | src/teams/teams.service.ts:65-87 | one item per team, in table order, with its id, name, photo and the name of its position |
| Teams.GetTeam | src/teams/teams.service.ts:89-136 | a missing team is a TypeError; otherwise the detail carries the team's fields and position name, and its educations and social links are a permutation of that team's child rows, ordered by `order` descending |
| Teams.GetTeamChildren | src/teams/teams.service.ts:104-123 | each relation holds a child row exactly when it belongs to the team |
| Teams.EducationRows | src/teams/teams.service.ts:159-173 | one education row per input, with its order from `EDUCATIONORDER` |
| Teams.SocialRows | src/teams/teams.service.ts:174-188 | one social row per input, with its order from `SOCIALMEDIAORDER` |
| Teams.BuildDraft | src/teams/teams.service.ts:149-188 | `with_education` without educations, or `with_social_links` without links, is a TypeError; otherwise the team and its children are drafted, each child carrying its table order |
| Teams.CreateTeamsAsWritten | src/teams/teams.service.ts:138-202 | as written: the unawaited `create` skips the compensating delete when the insert is rejected |
| Teams.CreateTeamsAsWrittenLeaksPhoto | src/teams/teams.service.ts:149-200 | a rejected team insert leaves the uploaded photo in the store |
| Teams.CreateTeams | src/teams/teams.service.ts:138-202 | corrected: any error after the upload deletes the photo again; success stores the team under `JPSTM` plus six digits |
| Teams.CreateTeamsWritesChildren | src/teams/teams.service.ts:160-188 | the requested educations and social links are stored under the new team; with a flag off, that table is unchanged |
| Teams.CreateTeamsKeepsOrders | src/teams/teams.service.ts:160-188 | every stored child's order agrees with the constant tables |
| Teams.UpdateTeams | src/teams/teams.service.ts:204-320 | an unknown id is NotFound; a rejected delete of the old photo is a StoreFailure before any upsert, leaving the new photo stored and the rows unchanged; otherwise only that team changes, a new photo replaces the old file, and the other teams are untouched |
| Teams.UpdateTeamsUpsertsEducations | src/teams/teams.service.ts:221-243 | a listed education that exists and carries a name and a level takes both, with the order of that level; an unlisted education is unchanged |
| Teams.UpdateTeamsIncompleteEducationFails | src/teams/teams.service.ts:221-243 | an education item without a name or a level fails the whole update with DbFailure, even for a stored row, and the team is unchanged |
| Teams.UpdateTeamsUpsertsSocials | src/teams/teams.service.ts:245-267 | a listed social link that exists and carries a platform and a url takes both, with the order of that platform; an unlisted link is unchanged |
| Teams.UpdateTeamsIncompleteSocialFails | src/teams/teams.service.ts:245-267 | a social-link item without a platform or a url fails the whole update with DbFailure, even for a stored row, and the team is unchanged |
| Teams.UpdateTeamsNewEducations | src/teams/teams.service.ts:235 | a new education row belongs to the updated team and its id starts with `undefined` |
| Teams.UpdateTeamsKeepsOrders | src/teams/teams.service.ts:221-267 | the upserts keep every child's order in agreement with the constant tables |
| Teams.UpdateTeamsRejectedUpsertDangles | src/teams/teams.service.ts:269-301 | when the upserts are rejected after the photo was replaced, the team points to a deleted file |
| Teams.DeleteTeam | src/teams/teams.service.ts:322-345 | an unknown id is NotFound; a rejected photo delete is a StoreFailure that changes nothing; otherwise the team, its photo and its children are gone and the other rows stay as they were |
| Teams.DeleteTeamPreservesConsistency | src/teams/teams.service.ts:322-345 | every path of a delete keeps children attached to teams and photos present |
| Teams.DeleteChildAsWritten | src/teams/teams.service.ts:347-375 | as written: the existence check counts the whole table, so a missing id in a non-empty table reaches the delete and is rejected |
| Teams.DeleteChild | src/teams/teams.service.ts:347-375 | corrected: a missing id is NotFound; otherwise exactly that row is removed |
| Teams.ChildGuardsDiffer | src/teams/teams.service.ts:347-375 | the two agree exactly when the id exists or the table is empty; otherwise as written gives DbFailure where NotFound was intended |
| Teams.DeleteEducation | src/teams/teams.service.ts:347-360 | as written: NotFound only when the education table is empty; a missing id next to other educations is a DbFailure; a stored one is removed alone |
| Teams.DeleteSocial | src/teams/teams.service.ts:362-375 | as written: NotFound only when the social table is empty; a missing id next to other links is a DbFailure; a stored one is removed alone |
| Teams.DeleteEducationCorrected | src/teams/teams.service.ts:347-360 | corrected: a missing education is NotFound; otherwise only it is removed |
| Teams.DeleteSocialCorrected | src/teams/teams.service.ts:362-375 | corrected: a missing social link is NotFound; otherwise only it is removed |
| Teams.DeleteEducationDiffers | src/teams/teams.service.ts:347-360 | the written and the corrected delete agree exactly when the id is stored or the table is empty; otherwise DbFailure replaces NotFound |
| Pillars.NameSlugsSorted | src/pillars/pillars.service.ts:17-25 | projecting sorted subpillars onto name and slug keeps them sorted |
| Pillars.Publish | src/pillars/pillars.service.ts:32-39 | a public pillar shows its name and slug, its subpillars sorted by name, and only subpillars that belong to it |
| Pillars.PublishAllSorted | src/pillars/pillars.service.ts:27-29 | the public pillars come out sorted by name |
| Pillars.GetPublicPillars | src/pillars/pillars.service.ts:12-40 | one entry per pillar, sorted by name, and a permutation of the published pillars |
| Pillars.GetPillars | src/pillars/pillars.service.ts:42-72 | five per page over the pillars sorted by name: the total is the table size, `page` is the requested page or 0 when empty, item `i` is the sorted pillar at offset `skip + i`, and every item is a stored pillar; a page below 1 is a DbFailure |
| Pillars.GetPillar | src/pillars/pillars.service.ts:74-106 | a missing pillar gives nothing; otherwise exactly its subpillars, sorted by name |
| Pillars.SubPillarRows | src/pillars/pillars.service.ts:116-128 | one subpillar row per name, slugged, under the new pillar |
| Pillars.CreatePillar | src/pillars/pillars.service.ts:108-134 | an id collision rejects with no change; otherwise the pillar and its subpillars are stored and the old rows kept |
| Pillars.CreatePillarPreservesInvariants | src/pillars/pillars.service.ts:108-134 | every subpillar references an existing pillar, and every slug follows its name |
| Pillars.PatchPillar | src/pillars/pillars.service.ts:190-202 | a new name also replaces the slug; an absent one keeps both |
| Pillars.UpdatePillar | src/pillars/pillars.service.ts:136-203 | an unknown id is NotFound; the pillar is patched, and the listed subpillars are upserted |
| Pillars.UpdatePillarRenamesListed | src/pillars/pillars.service.ts:149-159 | a listed subpillar that exists takes the new name and slug |
| Pillars.UpdatePillarKeepsUnlisted | src/pillars/pillars.service.ts:145-187 | subpillars the update does not list stay unchanged |
| Pillars.UpdatePillarPreservesInvariants | src/pillars/pillars.service.ts:136-203 | the update keeps subpillars attached and slugs following names |
| Pillars.DeletePillar | src/pillars/pillars.service.ts:205-218 | the pillar and exactly its subpillars are gone |
| Pillars.DeletePillarPreservesConsistency | src/pillars/pillars.service.ts:205-218 | deleting keeps every subpillar attached to a pillar |
| ImageRecords.GetRecords | src/banners/banners.service.ts:15-48 | five per page over all rows: at most five items, the total is the table size, `page` is the requested page or 0 when empty, and item `i` is the view of the row at offset `skip + i`; a page below 1 is a DbFailure |
| ImageRecords.GetRecord | src/banners/banners.service.ts:50-64 | a row is found exactly when it exists, with its id, alt text, description, link and image URL |
| ImageRecords.Create | src/banners/banners.service.ts:66-91 | a failed upload rejects with no change; success stores a new row whose image is the uploaded file |
| ImageRecords.CreateThenGet | src/banners/banners.service.ts:66-91 | a created record reads back with the given fields |
| ImageRecords.CreatePreservesInvariants | src/banners/banners.service.ts:66-91 | creating keeps every row's image present and unshared |
| ImageRecords.Update | src/banners/banners.service.ts:93-153 | an unknown id is NotFound; a new file deletes the old one first and then uploads; a present old image whose delete rejects is a StoreFailure that changes nothing |
| ImageRecords.UpdateThenGet | src/banners/banners.service.ts:93-153 | an updated record reads back with the patched fields |
| ImageRecords.UpdatePreservesInvariants | src/banners/banners.service.ts:93-153 | a successful update keeps the image invariants |
| ImageRecords.FailedUploadDangles | src/banners/banners.service.ts:103-123 | when the upload fails after the old image was deleted, the row points to a missing file |
| ImageRecords.Delete | src/banners/banners.service.ts:155-185 | an unknown id is NotFound; a present image whose delete rejects is a StoreFailure that changes nothing; otherwise the row and its image are gone |
| ImageRecords.DeletePreservesInvariants | src/banners/banners.service.ts:155-185 | a failed delete leaves the store as it was; otherwise the record is not found afterwards; the invariants hold on every path |
| Partners.GetPublicPartners | src/partners/partners.service.ts:19-29 | every partner, unpaginated, in table order |
| Partners.GetPartners | src/partners/partners.service.ts:31-63 | five per page: at most five items, the total is the table size, `page` is the requested page or 0 when empty, and item `i` is the view of the partner at offset `skip + i`; a page below 1 is a DbFailure |
| Partners.CreatePartner | src/partners/partners.service.ts:79-103 | the id is `JPSPTR` plus five digits, the image is under `partners/`, and partners never get a link |
| Partners.UpdatePartner | src/partners/partners.service.ts:105-163 | an unknown id is NotFound; a rejected delete of the old image changes nothing; the link is never written |
| Partners.DeletePartner | src/partners/partners.service.ts:165-191 | the delete succeeds exactly when the partner exists and its image's delete does not reject, and then the partner and its image are gone; a rejection changes nothing |
| Banners.GetBanners | src/banners/banners.service.ts:15-48 | five per page: at most five items, the total is the table size, `page` is the requested page or 0 when empty, and item `i` is the view of the banner at offset `skip + i`; a page below 1 is a DbFailure |
| Banners.GetBanner | src/banners/banners.service.ts:50-64 | a banner is found exactly when it exists, with its link and alt text |
| Banners.CreateBanner | src/banners/banners.service.ts:66-91 | the id is `JPSBNR` plus five digits, the image is under `banners/`, and the link is stored |
| Banners.UpdateBanner | src/banners/banners.service.ts:93-153 | an unknown id is NotFound; a rejected delete of the old image changes nothing; a new image goes under `banners/` |
| Banners.DeleteBanner | src/banners/banners.service.ts:155-185 | the delete succeeds exactly when the banner exists and its image's delete does not reject, and then the banner and its image are gone; a rejection changes nothing |
| Banners.BannersAndPartnersDisjoint | src/banners/banners.service.ts:67-78 | banner and partner ids and image keys never collide |
| Positions.TeamCount | src/positions/positions.service.ts:17-33 | the count is zero exactly when no team holds the position |
| Positions.GetPositions | src/positions/positions.service.ts:11-36 | one item per position, deletable exactly when no team holds it |
| Positions.CreatePosition | src/positions/positions.service.ts:38-50 | the id is `JPSPOS` plus four digits; a collision rejects with no change |
| Positions.NewPositionIsDeletable | src/positions/positions.service.ts:38-50 | a new position is listed as deletable |
| Positions.UpdatePosition | src/positions/positions.service.ts:52-69 | an unknown id is NotFound; otherwise only the name and updater change |
| Positions.UpdatePositionIdempotent | src/positions/positions.service.ts:52-69 | applying the same update twice equals applying it once |
| Positions.DeletePosition | src/positions/positions.service.ts:71-80 | an unknown id is NotFound; a position some team holds is rejected by the foreign key and nothing changes; otherwise the position is removed |
| Positions.DeleteKeepsConsistent | src/positions/positions.service.ts:11-80 | every delete keeps each team holding a stored position, and a stored position is deleted exactly when the listing shows `can_delete` |
| Positions.CreateThenDeleteRestores | src/positions/positions.service.ts:38-80 | in a consistent store, deleting the position just created succeeds and restores the original state |
| Admins.NormalizeName | src/admin/admin.service.ts:48 | `capitalize(toLowerCase())` keeps the spaces and leaves no upper case except at word starts |
| Admins.NormalizeNameIdempotent | src/admin/admin.service.ts:48 | normalising twice equals normalising once |
| Admins.AdminId | src/admin/admin.service.ts:40-43 | a super admin gets `JPSSA` plus four digits, an admin `JPSA` plus five |
| Admins.AdminIdsSeparateRoles | src/admin/admin.service.ts:18-43 | two minted ids are equal exactly when their roles and draws are, and none is the protected `JPSSA1` |
| Admins.GetAdmins | src/admin/admin.service.ts:16-33 | every account except `JPSSA1` is listed, and nothing else |
| Admins.GetAdmin | src/admin/admin.service.ts:104-115 | an account is found exactly when it exists |
| Admins.CreateAdmin | src/admin/admin.service.ts:35-58 | a wrong access key is Forbidden; success stores the account with a normalised name and a hashed password |
| Admins.CreatedAdminIsListed | src/admin/admin.service.ts:16-58 | a created account appears in the admin list |
| Admins.UpdateAdminAsWritten | src/admin/admin.service.ts:60-86 | as written: a patch without `fullname` crashes in `toLowerCase` |
| Admins.PasswordOnlyUpdateFails | src/admin/admin.service.ts:76-77 | a password-only update fails with a TypeError |
| Admins.UpdateAdmin | src/admin/admin.service.ts:60-86 | corrected: any patch to an existing account succeeds and keeps absent fields |
| Admins.UpdateAdminRefinesAsWritten | src/admin/admin.service.ts:60-86 | the corrected update agrees with the written one whenever a `fullname` is given |
| Admins.DeleteAdmin | src/admin/admin.service.ts:88-102 | an unknown id is NotFound; otherwise the account is gone |
| Admins.CreateThenDeleteRestores | src/admin/admin.service.ts:35-102 | deleting the account just created succeeds and restores the original state |
| Keys.GetKeys | src/keys/keys.service.ts:16-35 | one item per key, with its value decrypted |
| Keys.CreateKey | src/keys/keys.service.ts:37-53 | a wrong access key is Forbidden; success stores the encrypted value under `JPSKEY` plus four digits |
| Keys.CreatedKeyReadsBack | src/keys/keys.service.ts:16-53 | with matching encrypt and decrypt, a created key lists its original value |
| Keys.DeleteKey | src/keys/keys.service.ts:55-78 | a wrong access key is Forbidden; an unknown id is NotFound; otherwise the key is removed |
| Keys.WrongKeyRevealsNothing | src/keys/keys.service.ts:55-78 | with a wrong access key the reply is the same for any state and id, and nothing changes |
| PublicGuard.ExtractToken | src/utils/guards/public.guard.ts:41-44 | a token is returned only for `Bearer ` headers, and it contains no space |
| PublicGuard.BearerRoundTrip | src/utils/guards/public.guard.ts:41-44 | `Bearer <token>` yields the token, even with further space-separated parts |
| PublicGuard.LowerCaseSchemeRejected | src/utils/guards/public.guard.ts:43 | the scheme comparison is case-sensitive |
| PublicGuard.CanActivate | src/utils/guards/public.guard.ts:14-39 | without `x-role: admin` the request is public; otherwise a valid admin or superadmin token allows it, another valid token denies it, and a failed verification is Unauthorized |
| PublicGuard.AdminAccessIff | src/utils/guards/public.guard.ts:14-39 | a request is allowed exactly when it is not an admin request or carries a valid admin or superadmin token |

## Left out

- The `x-role` header is modelled as one optional string. Node's array form of a repeated header is not modelled.
- The controllers and the zod DTOs are not modelled. Their parsing, such as trimming and collapsing `fullname`, happens before the services run.
- Bcrypt, AES, JWT signing and verification, the S3 client and `Date.now()` are parameters.
- Concurrent requests are not modelled: each call runs alone.
- `Promise.all` starts every call before any of them settles. The model applies each call's own outcome, even when a sibling rejects: a resolved upload adds its key and a resolved delete removes its key. The order in which siblings settle is not modelled.
- The compensating deletes inside the `catch` blocks of createVolAppl, createCarAppl and createTeams are modelled as resolving. A rejection there would replace the original error.
- `checkFile` is taken to report exactly whether the key is in the bucket, and never to reject.
- Volunteers.DeleteVolPreservesConsistency: consistency is promised only for a delete that does not end in StoreFailure, because the source deletes files applicant by applicant before the row (`Volunteers.DeleteVolRejectedLeavesDangling`).
- Careers.DeleteCareerPreservesConsistency: consistency is promised only for a delete that does not end in StoreFailure, for the same reason (`Careers.DeleteCareerRejectedLeavesDangling`).
- Docs.DeleteDocPreservesConsistency: consistency is promised only for a delete that does not end in StoreFailure, because the sibling deletes of a rejected `Promise.all` still complete (`Docs.DeleteDocRejectedLeavesDangling`).
- The `created_at` column that getAdmins, getKeys, getPillar and the listings select is not part of the rendered items, because the rows carry no timestamps in the model.
- Ordering by `created_at` and `getOrderBy` is not modelled. Listings keep the snapshot's order. Only the name sorts of the pillar listings and the `order` sorts of a team's detail are modelled.
- `parseInt` of a page that is not a number (`NaN`) is not modelled. The model takes the page as an optional integer, and a page of 0 or below is the store's rejection of a negative `skip`.
- Case conversion covers ASCII only; other scripts are left unchanged. Real `toLowerCase`/`toUpperCase` is Unicode-aware.
- The tag-stripping regular expression is modelled as a scan that drops `<…>` and an unterminated `<…` at the end. No other regex engine behaviour is modelled.
- Foreign-key checks are modelled only where a service depends on them: applicants need their opening, a team needs its position, and a position held by a team cannot be deleted. Other Prisma constraints, such as unique slugs, are not modelled.
- Volunteers.UpdateVol, Careers.UpdateCareer, Articles.CreateArticle, Articles.UpdateArticle, Docs.CreateDoc and Docs.UpdateDoc: the pillar and subpillar foreign keys are not checked. The model accepts a `pillar_id` or `sub_pillar_id` that names no row, where the store rejects the write (volunteers.service.ts:325-326, careers.service.ts:333-334, articles.service.ts:267-268 and 344-345, docs.service.ts:237-238 and 300-301). In createArticle and createDoc that rejection would come after the upload and leave the file in the store. The pillar tables are not part of these services' state.
- Docs.UploadDocImages: the uploads at docs.service.ts:328-335 are pushed into a list that is never awaited. The model applies each upload's outcome before the reply, but the service can reply before they settle, and a rejected upload surfaces as an unhandled rejection, which is not modelled.
- The following read services return a single row with its relations and have no logic beyond a lookup, so they are not modelled: getPublicVol, getVol, getPublicCareer, getCareer, getArticle, getDoc.
- createVol and createCareer insert one row with a minted id and a slug. Their behaviour is that of the other creates (`CreateArticle`, `CreatePosition`), so they are not modelled separately.
- Order.StrLe: names compare by code point, which is not the database's collation; a locale-aware order can place names differently.
- Teams.GetTeam: the relations return the whole child rows, not only the columns the `select` names. Rows with equal `order` may come back in any order in the database; the model keeps their table order. The child tables are passed as sequences in table order.

## Findings

| source | as written | input that shows it | evidently intended | confidence | as-written member | corrected member |
|---|---|---|---|---|---|---|
| src/volunteers/volunteers.service.ts:403 | `return this.prisma.volunteerApplicant.create(…)` inside `try` without `await`, so a rejected insert bypasses the `catch` that deletes the uploaded files | an application whose `volunteer_id` names no opening: the insert is rejected and both files stay in the store | await the insert so that the `catch` removes both files | not executed | Volunteers.CreateVolApplAsWrittenLeaksFiles | Volunteers.CreateVolAppl |
| src/careers/careers.service.ts:386 | the career application `create` is returned without `await` inside `try` | an application whose `career_id` names no career: the CV stays in the store | await the insert so that the `catch` removes the CV | not executed | Careers.CreateCarApplAsWrittenLeaksCv | Careers.CreateCarAppl |
| src/teams/teams.service.ts:149 | `return this.prisma.team.create(…)` without `await` inside `try` | a team whose `position_id` names no position: the insert is rejected and the photo stays in the store | await the insert so that the `catch` removes the photo | not executed | Teams.CreateTeamsAsWrittenLeaksPhoto | Teams.CreateTeams |
| src/admin/admin.service.ts:76 | `capitalize(body.fullname.toLowerCase())` runs even when the optional `fullname` is absent | an update of an existing admin with only a new password | keep the current name when `fullname` is absent | not executed | Admins.PasswordOnlyUpdateFails | Admins.UpdateAdmin |
| src/teams/teams.service.ts:348 | the existence check counts every education (social link) without a `where`, so it only detects an empty table | deleting an id that does not exist while other educations exist: the check passes and the delete is rejected with a database error instead of NotFound | count the rows with that id | not executed | Teams.DeleteEducation | Teams.DeleteEducationCorrected |

=== FILE: admin.dfy ===
/** Administrator accounts (src/admin/admin.service.ts). Creating and
    updating an account needs the shared access key, which is compared
    before anything else; ids depend on the role; the stored full name is
    lower-cased and then capitalised; passwords are stored hashed, the hash
    being a parameter of the model. */
module Admins {
  import opened Common
  import opened Text
  import opened StringUtil
  import opened Constants
  import opened Listing

  datatype Role = Admin | SuperAdmin

  datatype Account = Account(id: Id, fullname: string, password: string, role: Role)

  datatype State = State(admins: map<Id, Account>)

  /** The seeded superadmin the listing never shows. */
  const Protected: Id := "JPSSA1"

  /** `capitalize(fullname.toLowerCase())` */
  function NormalizeName(name: string): (r: string)
    ensures |r| == |name|
    ensures forall i :: 0 <= i < |name| ==> (r[i] == ' ' <==> name[i] == ' ')
    ensures forall i :: 0 <= i < |name| && i > 0 && name[i - 1] != ' ' ==> !IsAsciiUpper(r[i])
  {
    var lower := ToLower(name);
    var r := Capitalize(lower);
    forall i | 0 <= i < |name|
      ensures (r[i] == ' ' <==> name[i] == ' ')
      ensures i > 0 && name[i - 1] != ' ' ==> !IsAsciiUpper(r[i])
    {
      assert lower[i] == ToLowerChar(name[i]);
      assert i > 0 ==> lower[i - 1] == ToLowerChar(name[i - 1]);
      assert r[i] == (if i == 0 || lower[i - 1] == ' ' then ToUpperChar(lower[i]) else lower[i]);
    }
    r
  }

  /** Normalising twice is normalising once: a stored name comes back
      unchanged from a second update with the same text. */
  lemma NormalizeNameIdempotent(name: string)
    ensures NormalizeName(NormalizeName(name)) == NormalizeName(name)
  {
    var n := NormalizeName(name);
    var lower := ToLower(name);
    assert n == Capitalize(lower);
    assert ToLower(n) == lower by {
      forall i | 0 <= i < |n| ensures ToLower(n)[i] == lower[i] {
        assert n[i] == (if i == 0 || lower[i - 1] == ' ' then ToUpperChar(lower[i]) else lower[i]);
      }
    }
  }

  /** The draw a role's id takes: four digits for a superadmin, five otherwise. */
  predicate DrawFits(role: Role, draw: nat) {
    if role == SuperAdmin then InDigitRange(draw, 4) else InDigitRange(draw, 5)
  }

  /** `JPSSA` and four digits for a superadmin, `JPSA` and five digits otherwise. */
  function AdminId(role: Role, draw: nat): (id: Id)
    requires DrawFits(role, draw)
    ensures |id| == 9
    ensures role == SuperAdmin ==> id[..5] == "JPSSA"
    ensures role == Admin ==> id[..4] == "JPSA"
  {
    if role == SuperAdmin then MintId("JPSSA", draw, 4) else MintId("JPSA", draw, 5)
  }

  /** Two minted ids are equal exactly when role and draw are: the role can
      be read off the id and the draw off its digits. No minted id is the
      protected one. */
  lemma AdminIdsSeparateRoles(r1: Role, d1: nat, r2: Role, d2: nat)
    requires DrawFits(r1, d1) && DrawFits(r2, d2)
    ensures AdminId(r1, d1) == AdminId(r2, d2) <==> r1 == r2 && d1 == d2
    ensures AdminId(r1, d1) != Protected && AdminId(r2, d2) != Protected
  {
    if r1 != r2 {
      assert AdminId(r1, d1)[3] != AdminId(r2, d2)[3];
    } else if AdminId(r1, d1) == AdminId(r2, d2) {
      if r1 == SuperAdmin {
        MintIdInjective("JPSSA", d1, d2, 4);
      } else {
        MintIdInjective("JPSA", d1, d2, 5);
      }
    }
  }

  datatype View = View(id: Id, fullname: string, role: Role)

  function ViewOf(a: Account): View {
    View(a.id, a.fullname, a.role)
  }

  /** getAdmins: every account except the protected one, in table order. */
  function GetAdmins(rows: seq<Account>): (r: seq<View>)
    ensures forall v :: v in r ==> v.id != Protected
    ensures forall a :: a in rows && a.id != Protected ==> ViewOf(a) in r
    ensures forall v :: v in r ==> exists a :: a in rows && v == ViewOf(a)
  {
    var kept := Filter((a: Account) => a.id != Protected, rows);
    var r := seq(|kept|, i requires 0 <= i < |kept| => ViewOf(kept[i]));
    assert forall a :: a in kept ==> ViewOf(a) in r by {
      forall a | a in kept ensures ViewOf(a) in r {
        var i :| 0 <= i < |kept| && kept[i] == a;
        assert r[i] == ViewOf(a);
      }
    }
    r
  }

  /** getAdmin: the account's view, or null. */
  function GetAdmin(s: State, id: Id): (r: Option<View>)
    ensures r.Some? <==> id in s.admins
    ensures r.Some? ==> r.value.fullname == s.admins[id].fullname && r.value.role == s.admins[id].role
  {
    if id in s.admins then Some(ViewOf(s.admins[id])) else None
  }

  datatype NewAccount = NewAccount(fullname: string, password: string, role: Role, accessKey: string)

  /** createAdmin: Forbidden unless the access key matches; otherwise the
      account is stored under a role-dependent id with the normalised name
      and the hashed password. */
  function CreateAdmin(s: State, body: NewAccount, configured: string, hash: string -> string, draw: nat): (r: Reply<State, View>)
    requires DrawFits(body.role, draw)
    ensures body.accessKey != configured ==> r == Reply(s, Err(Forbidden))
    ensures r.result.Ok? <==> body.accessKey == configured && AdminId(body.role, draw) !in s.admins
    ensures r.result.Err? ==> r.state == s
    ensures r.result.Ok? ==> var id := AdminId(body.role, draw);
      && r.result.value == View(id, NormalizeName(body.fullname), body.role)
      && r.state.admins == s.admins[id := Account(id, NormalizeName(body.fullname), hash(body.password), body.role)]
  {
    if body.accessKey != configured then Reply(s, Err(Forbidden))
    else
      var id := AdminId(body.role, draw);
      if id in s.admins then Reply(s, Err(DbFailure))
      else
        var a := Account(id, NormalizeName(body.fullname), hash(body.password), body.role);
        Reply(State(s.admins[id := a]), Ok(ViewOf(a)))
  }

  /** A created account is listed. */
  lemma CreatedAdminIsListed(s: State, body: NewAccount, configured: string, hash: string -> string, draw: nat, rows: seq<Account>)
    requires DrawFits(body.role, draw)
    requires CreateAdmin(s, body, configured, hash, draw).result.Ok?
    requires forall k :: k in CreateAdmin(s, body, configured, hash, draw).state.admins ==> CreateAdmin(s, body, configured, hash, draw).state.admins[k] in rows
    ensures CreateAdmin(s, body, configured, hash, draw).result.value in GetAdmins(rows)
  {
    var id := AdminId(body.role, draw);
    AdminIdsSeparateRoles(body.role, draw, if body.role == Admin then SuperAdmin else Admin, if body.role == Admin then 1000 else 10000);
    var a := CreateAdmin(s, body, configured, hash, draw).state.admins[id];
    assert a in rows && a.id != Protected;
  }

  /** Absent fields leave their columns as they were. */
  datatype AccountPatch = AccountPatch(id: Id, fullname: Option<string>, password: Option<string>, role: Option<Role>, accessKey: string)

  /** `body.password ? await hashPassword(body.password) : undefined` */
  function NewPassword(current: string, password: Option<string>, hash: string -> string): (p: string)
    ensures Truthy(password) ==> p == hash(password.value)
    ensures !Truthy(password) ==> p == current
  {
    if Truthy(password) then hash(password.value) else current
  }

  function Apply(a: Account, name: string, body: AccountPatch, hash: string -> string): (w: Account)
    ensures w.id == a.id && w.fullname == NormalizeName(name) && w.role == Keep(body.role, a.role)
    ensures w.password == NewPassword(a.password, body.password, hash)
  {
    a.(fullname := NormalizeName(name), password := NewPassword(a.password, body.password, hash), role := Keep(body.role, a.role))
  }

  /** updateAdmin as written: after the access check and the NotFound check
      it calls `toLowerCase` on the full name unconditionally, so a patch
      without a full name throws a TypeError although the schema marks the
      field optional. */
  function UpdateAdminAsWritten(s: State, body: AccountPatch, configured: string, hash: string -> string): (r: Reply<State, View>)
    ensures body.accessKey != configured ==> r == Reply(s, Err(Forbidden))
    ensures body.accessKey == configured && body.id !in s.admins ==> r == Reply(s, Err(NotFound))
    ensures body.accessKey == configured && body.id in s.admins && body.fullname.None? ==> r == Reply(s, Err(TypeError))
    ensures r.result.Ok? ==> (body.fullname.Some? && body.id in s.admins
      && r.state.admins == s.admins[body.id := Apply(s.admins[body.id], body.fullname.value, body, hash)])
  {
    if body.accessKey != configured then Reply(s, Err(Forbidden))
    else if body.id !in s.admins then Reply(s, Err(NotFound))
    else if body.fullname.None? then Reply(s, Err(TypeError))
    else
      var w := Apply(s.admins[body.id], body.fullname.value, body, hash);
      Reply(State(s.admins[body.id := w]), Ok(ViewOf(w)))
  }

  /** The input that shows it: a valid key, a stored id, and only a new password. */
  lemma PasswordOnlyUpdateFails(s: State, id: Id, configured: string, hash: string -> string)
    requires id in s.admins
    ensures UpdateAdminAsWritten(s, AccountPatch(id, None, Some("new-password"), None, configured), configured, hash).result == Err(TypeError)
  {}

  /** updateAdmin with the evident intent: an absent full name keeps the
      stored one, like every other optional field. */
  function UpdateAdmin(s: State, body: AccountPatch, configured: string, hash: string -> string): (r: Reply<State, View>)
    ensures body.accessKey != configured ==> r == Reply(s, Err(Forbidden))
    ensures body.accessKey == configured && body.id !in s.admins ==> r == Reply(s, Err(NotFound))
    ensures r.result.Ok? <==> body.accessKey == configured && body.id in s.admins
    ensures r.result.Err? ==> r.state == s
    ensures r.result.Ok? ==> (r.state.admins.Keys == s.admins.Keys
      && (forall k :: k in s.admins && k != body.id ==> r.state.admins[k] == s.admins[k]))
  {
    if body.accessKey != configured then Reply(s, Err(Forbidden))
    else if body.id !in s.admins then Reply(s, Err(NotFound))
    else
      var a := s.admins[body.id];
      var w := Apply(a, Keep(body.fullname, a.fullname), body, hash);
      Reply(State(s.admins[body.id := w]), Ok(ViewOf(w)))
  }

  /** The corrected update agrees with the written one whenever a full name
      is supplied; without one it keeps the name in normalised form and
      changes only what the patch names. */
  lemma UpdateAdminRefinesAsWritten(s: State, body: AccountPatch, configured: string, hash: string -> string)
    ensures body.fullname.Some? ==> UpdateAdmin(s, body, configured, hash) == UpdateAdminAsWritten(s, body, configured, hash)
    ensures body.fullname.None? && body.accessKey == configured && body.id in s.admins ==>
      var a := s.admins[body.id];
      var w := UpdateAdmin(s, body, configured, hash).state.admins[body.id];
      && w.fullname == NormalizeName(a.fullname) && w.role == Keep(body.role, a.role)
      && (Truthy(body.password) ==> w.password == hash(body.password.value))
      && (!Truthy(body.password) ==> w.password == a.password)
  {}

  /** deleteAdmin: no access key, NotFound for an unknown id. */
  function DeleteAdmin(s: State, id: Id): (r: Reply<State, Id>)
    ensures id !in s.admins ==> r == Reply(s, Err(NotFound))
    ensures id in s.admins ==> r == Reply(State(s.admins - {id}), Ok(id))
    ensures GetAdmin(r.state, id).None?
  {
    if id !in s.admins then Reply(s, Err(NotFound))
    else Reply(State(s.admins - {id}), Ok(id))
  }

  /** Deleting the account just created restores the table. */
  lemma CreateThenDeleteRestores(s: State, body: NewAccount, configured: string, hash: string -> string, draw: nat)
    requires DrawFits(body.role, draw)
    requires CreateAdmin(s, body, configured, hash, draw).result.Ok?
    ensures var c := CreateAdmin(s, body, configured, hash, draw);
      DeleteAdmin(c.state, c.result.value.id) == Reply(s, Ok(c.result.value.id))
  {
    var c := CreateAdmin(s, body, configured, hash, draw);
    var id := AdminId(body.role, draw);
    assert c.state.admins - {id} == s.admins;
  }
}

=== FILE: articles.dfy ===
/** Articles (src/articles/articles.service.ts): the public listing with its
    five-way match, the admin title search, the image-backed create, the
    update that swaps the image by uploading first and deleting second, and
    the delete. Every listed article carries its reading time. */
module Articles {
  import opened Common
  import opened Text
  import opened Constants
  import opened StringUtil
  import opened Listing
  import opened Blobs

  datatype Article = Article(
    id: Id,
    title: string,
    slug: string,
    pillarId: Option<Id>,
    subPillarId: Option<Id>,
    content: string,
    description: string,
    imageKey: Key,
    imageUrl: string,
    isActive: bool,
    createdBy: string,
    updatedBy: string)

  datatype State = State(articles: map<Id, Article>, blobs: set<Key>)

  const PageSize: nat := 8
  const IdDigits: nat := 6
  const ImageFolder: string := "articles"

  /** Every article's image is in the bucket. */
  predicate Consistent(s: State) {
    forall a :: a in s.articles ==> s.articles[a].imageKey in s.blobs
  }

  /** No image is shared between two articles. */
  predicate KeysExclusive(s: State) {
    forall a, b :: a in s.articles && b in s.articles && a != b ==> s.articles[a].imageKey != s.articles[b].imageKey
  }

  // ---------------------------------------------------------------------
  // listings

  /** The last two disjuncts of the public `OR`: with a falsy filter or the
      literal `"Lainnya"` they ask for a null relation, otherwise for a
      non-null one. */
  predicate TaxonomyClause(ref: Option<Id>, filter: Option<string>) {
    if !Truthy(filter) || filter.value == Uncategorised then ref.None? else ref.Some?
  }

  predicate PublicMatches(a: Article, pillars: map<Id, Node>, subpillars: map<Id, Node>, filter: Option<string>) {
    a.isActive
    && (FieldContains(a.title, filter)
        || RelationSlugContains(a.pillarId, pillars, filter)
        || RelationSlugContains(a.subPillarId, subpillars, filter)
        || TaxonomyClause(a.pillarId, filter)
        || TaxonomyClause(a.subPillarId, filter))
  }

  function PublicWhere(pillars: map<Id, Node>, subpillars: map<Id, Node>, filter: Option<string>): Article -> bool {
    (a: Article) => PublicMatches(a, pillars, subpillars, filter)
  }

  datatype Item = Item(id: Id, slug: string, pillar: string, subpillar: string, content: string, title: string,
                       description: string, imageUrl: string, readingTime: string)

  function Render(pillars: map<Id, Node>, subpillars: map<Id, Node>): Article -> Item {
    (a: Article) => Item(a.id, a.slug, DisplayName(a.pillarId, pillars), DisplayName(a.subPillarId, subpillars),
                         a.content, a.title, a.description, a.imageUrl, GetReadingTimeFromHTML(a.content))
  }

  /** `rows` is the article table newest first. */
  function GetPublicArticles(rows: seq<Article>, pillars: map<Id, Node>, subpillars: map<Id, Node>, query: Query): (r: Result<Page<Item>>)
    ensures Listed(r, rows, PublicWhere(pillars, subpillars, query.filter), query, PageSize, Render(pillars, subpillars))
  {
    ListMap(rows, PublicWhere(pillars, subpillars, query.filter), query, PageSize, Render(pillars, subpillars))
  }

  /** Any truthy filter other than `"Lainnya"` selects every active article
      that has a pillar or a subpillar, whatever its title and slugs. */
  lemma AnyTaxonomyMatches(a: Article, pillars: map<Id, Node>, subpillars: map<Id, Node>, f: string)
    requires a.isActive && f != "" && f != Uncategorised
    requires a.pillarId.Some? || a.subPillarId.Some?
    ensures PublicMatches(a, pillars, subpillars, Some(f))
  {}

  /** An absent or `"Lainnya"` filter selects every active article missing a
      pillar or a subpillar. */
  lemma UncategorisedMatches(a: Article, pillars: map<Id, Node>, subpillars: map<Id, Node>, filter: Option<string>)
    requires a.isActive && (filter.None? || filter == Some(Uncategorised))
    requires a.pillarId.None? || a.subPillarId.None?
    ensures PublicMatches(a, pillars, subpillars, filter)
  {}

  /** Every string contains the empty string, so a falsy filter selects
      exactly the active articles. */
  lemma FalsyFilterSelectsActive(a: Article, pillars: map<Id, Node>, subpillars: map<Id, Node>, filter: Option<string>)
    requires !Truthy(filter)
    ensures PublicMatches(a, pillars, subpillars, filter) <==> a.isActive
  {
    if filter.Some? {
      assert IsPrefix("", a.title);
    }
  }

  /** Only an inactive article, or an article the filter misses on every
      clause, stays out of the public listing. */
  lemma PublicExcludes(a: Article, pillars: map<Id, Node>, subpillars: map<Id, Node>, f: string)
    requires f != "" && f != Uncategorised
    requires !PublicMatches(a, pillars, subpillars, Some(f))
    ensures !a.isActive || (a.pillarId.None? && a.subPillarId.None? && !Text.Contains(a.title, f))
  {}

  function AdminWhere(q: Option<string>): Article -> bool {
    (a: Article) => FieldContains(a.title, q)
  }

  /** The admin listing: title search only, inactive articles included. */
  function GetArticles(rows: seq<Article>, pillars: map<Id, Node>, subpillars: map<Id, Node>, query: Query): (r: Result<Page<Item>>)
    ensures Listed(r, rows, AdminWhere(query.q), query, PageSize, Render(pillars, subpillars))
  {
    ListMap(rows, AdminWhere(query.q), query, PageSize, Render(pillars, subpillars))
  }

  // ---------------------------------------------------------------------
  // createArticle

  datatype ArticleInput = ArticleInput(
    pillarId: Option<Id>,
    subPillarId: Option<Id>,
    title: string,
    description: string,
    content: string,
    actor: string)

  /** The `Date.now()` reading, the upload outcome and the id draw. */
  datatype Env = Env(now: nat, upload: UploadOutcome, draw: nat)

  function ImageKey(file: File, env: Env): (k: Key)
    ensures IsPrefix(ImageFolder + "/", k)
  {
    ObjectKey(ImageFolder, env.now, file.name)
  }

  /** Upload first, insert second; nothing compensates, so a rejected insert
      leaves the image in the bucket. Column defaults (`is_active`) live in
      the database schema and are passed in. */
  function CreateArticle(s: State, body: ArticleInput, file: Option<File>, env: Env, activeByDefault: bool): (r: Reply<State, Id>)
    requires InDigitRange(env.draw, IdDigits)
    ensures file.None? ==> r == Reply(s, Err(TypeError))
    ensures file.Some? && env.upload.UploadFailed? ==> r == Reply(s, Err(StoreFailure))
    ensures file.Some? && env.upload.Uploaded? ==> r.state.blobs == s.blobs + {ImageKey(file.value, env)}
    ensures r.result.Ok? ==> r.result.value == MintId(PrefixText(ARTICLE), env.draw, IdDigits)
    ensures r.result.Ok? ==> r.result.value !in s.articles && r.result.value in r.state.articles
    ensures r.result.Ok? ==> var a := r.state.articles[r.result.value];
      a.slug == Slug(body.title) && a.imageKey == ImageKey(file.value, env) && a.imageKey in r.state.blobs
      && env.upload == Uploaded(a.imageUrl)
    ensures r.result.Ok? ==> r.state.articles == s.articles[r.result.value := r.state.articles[r.result.value]]
    ensures r.result.Err? ==> r.state.articles == s.articles
  {
    if file.None? then Reply(s, Err(TypeError))
    else
      var key := ImageKey(file.value, env);
      var up := Upload(s.blobs, key, env.upload);
      if up.result.Err? then Reply(s, Err(StoreFailure))
      else
        var id := MintId(PrefixText(ARTICLE), env.draw, IdDigits);
        if id in s.articles then Reply(s.(blobs := up.state), Err(DbFailure))
        else
          var a := Article(id, body.title, Slug(body.title), body.pillarId, body.subPillarId, body.content,
                           body.description, key, up.result.value, activeByDefault, body.actor, body.actor);
          Reply(State(s.articles[id := a], up.state), Ok(id))
  }

  // ---------------------------------------------------------------------
  // updateArticle

  datatype ArticleUpdate = ArticleUpdate(
    id: Id,
    pillarId: Option<Id>,
    subPillarId: Option<Id>,
    title: Option<string>,
    description: Option<string>,
    content: Option<string>,
    isActive: Option<string>,
    actor: string)

  /** `is_active ? is_active === 'true' ? true : false : undefined` */
  function ParseActive(raw: Option<string>): (r: Option<bool>)
    ensures raw == Some("true") ==> r == Some(true)
    ensures Truthy(raw) && raw.value != "true" ==> r == Some(false)
    ensures !Truthy(raw) ==> r.None?
  {
    if Truthy(raw) then Some(raw.value == "true") else None
  }

  /** The text columns of the update, shared by both branches. */
  function Patched(a: Article, body: ArticleUpdate): (w: Article)
    ensures w.id == a.id && w.imageKey == a.imageKey && w.imageUrl == a.imageUrl && w.createdBy == a.createdBy
    ensures w.updatedBy == body.actor
    ensures w.title == Keep(body.title, a.title)
    ensures Truthy(body.title) ==> w.slug == Slug(body.title.value)
    ensures !Truthy(body.title) ==> w.slug == a.slug
    ensures w.pillarId == (if body.pillarId.Some? then body.pillarId else a.pillarId)
    ensures w.subPillarId == (if body.subPillarId.Some? then body.subPillarId else a.subPillarId)
    ensures w.content == Keep(body.content, a.content) && w.description == Keep(body.description, a.description)
    ensures w.isActive == Keep(ParseActive(body.isActive), a.isActive)
  {
    a.(title := Keep(body.title, a.title),
       slug := if Truthy(body.title) then Slug(body.title.value) else a.slug,
       pillarId := if body.pillarId.Some? then body.pillarId else a.pillarId,
       subPillarId := if body.subPillarId.Some? then body.subPillarId else a.subPillarId,
       content := Keep(body.content, a.content),
       description := Keep(body.description, a.description),
       isActive := Keep(ParseActive(body.isActive), a.isActive),
       updatedBy := body.actor)
  }

  /** With a file the new image is uploaded, the old one deleted, and the row
      repointed; a failed upload stops before anything changes, and a
      rejected delete stops after the upload, so the new image stays in the
      bucket with no row pointing at it. Without a file the image columns and
      the bucket stay as they were. `rejects` holds the keys whose delete
      rejects. */
  function UpdateArticle(s: State, body: ArticleUpdate, file: Option<File>, env: Env, rejects: set<Key>): (r: Reply<State, Id>)
    ensures body.id !in s.articles ==> r == Reply(s, Err(NotFound))
    ensures body.id in s.articles && file.None? ==> r == Reply(s.(articles := s.articles[body.id := Patched(s.articles[body.id], body)]), Ok(body.id))
    ensures body.id in s.articles && file.Some? && env.upload.UploadFailed? ==> r == Reply(s, Err(StoreFailure))
    ensures body.id in s.articles && file.Some? && env.upload.Uploaded? && s.articles[body.id].imageKey in rejects
      ==> r == Reply(s.(blobs := s.blobs + {ImageKey(file.value, env)}), Err(StoreFailure))
    ensures body.id in s.articles && file.Some? && env.upload.Uploaded? && s.articles[body.id].imageKey !in rejects ==>
      var prev := s.articles[body.id];
      var key := ImageKey(file.value, env);
      && r.result == Ok(body.id)
      && r.state.blobs == (s.blobs + {key}) - {prev.imageKey}
      && r.state.articles == s.articles[body.id := Patched(prev, body).(imageKey := key, imageUrl := env.upload.url)]
  {
    if body.id !in s.articles then Reply(s, Err(NotFound))
    else
      var prev := s.articles[body.id];
      if file.None? then Reply(s.(articles := s.articles[body.id := Patched(prev, body)]), Ok(body.id))
      else
        var key := ImageKey(file.value, env);
        var up := Upload(s.blobs, key, env.upload);
        if up.result.Err? then Reply(s, Err(StoreFailure))
        else
          var cleared := TryDelete(up.state, prev.imageKey, rejects);
          if cleared.result.Err? then Reply(s.(blobs := cleared.state), Err(StoreFailure))
          else Reply(State(s.articles[body.id := Patched(prev, body).(imageKey := key, imageUrl := up.result.value)], cleared.state), Ok(body.id))
  }

  /** Every path of an update with a fresh key keeps the store consistent: a
      completed swap stores the new image and deletes one used by this row
      only, and a rejected delete only adds an unreferenced file. */
  lemma UpdateArticlePreservesConsistency(s: State, body: ArticleUpdate, file: Option<File>, env: Env, rejects: set<Key>)
    requires Consistent(s) && KeysExclusive(s)
    requires file.Some? ==> ImageKey(file.value, env) !in s.blobs
    ensures Consistent(UpdateArticle(s, body, file, env, rejects).state)
    ensures KeysExclusive(UpdateArticle(s, body, file, env, rejects).state)
  {
    var t := UpdateArticle(s, body, file, env, rejects).state;
    if body.id in s.articles && file.Some? && env.upload.Uploaded? && s.articles[body.id].imageKey !in rejects {
      var key := ImageKey(file.value, env);
      forall a | a in t.articles ensures t.articles[a].imageKey in t.blobs {
        if a != body.id {
          assert s.articles[a].imageKey != s.articles[body.id].imageKey;
          assert s.articles[a].imageKey in s.blobs;
        }
      }
      forall a | a in s.articles ensures s.articles[a].imageKey != key {
        assert s.articles[a].imageKey in s.blobs;
      }
    }
  }

  // ---------------------------------------------------------------------
  // deleteArticle

  /** The image is deleted first; the row goes only when that delete
      resolves, so a rejected delete changes nothing. */
  function DeleteArticle(s: State, id: Id, rejects: set<Key>): (r: Reply<State, Id>)
    ensures id !in s.articles ==> r == Reply(s, Err(NotFound))
    ensures id in s.articles && s.articles[id].imageKey in rejects ==> r == Reply(s, Err(StoreFailure))
    ensures id in s.articles && s.articles[id].imageKey !in rejects
      ==> && r.result == Ok(id)
          && r.state.articles == s.articles - {id}
          && s.articles[id].imageKey !in r.state.blobs
          && (forall k :: k in s.blobs && k != s.articles[id].imageKey ==> k in r.state.blobs)
    ensures r.state.blobs <= s.blobs
  {
    if id !in s.articles then Reply(s, Err(NotFound))
    else
      var cleared := TryDelete(s.blobs, s.articles[id].imageKey, rejects);
      if cleared.result.Err? then Reply(s, Err(StoreFailure))
      else Reply(State(s.articles - {id}, cleared.state), Ok(id))
  }

  lemma DeleteArticlePreservesConsistency(s: State, id: Id, rejects: set<Key>)
    requires Consistent(s) && KeysExclusive(s)
    ensures Consistent(DeleteArticle(s, id, rejects).state)
    ensures KeysExclusive(DeleteArticle(s, id, rejects).state)
  {
    var t := DeleteArticle(s, id, rejects).state;
    if id in s.articles && s.articles[id].imageKey !in rejects {
      forall a | a in t.articles ensures t.articles[a].imageKey in t.blobs {
        assert s.articles[a].imageKey != s.articles[id].imageKey;
      }
    }
  }

  /** Create followed by a delete whose image delete resolves gives back the
      original store. */
  lemma CreateThenDeleteRestores(s: State, body: ArticleInput, file: File, env: Env, activeByDefault: bool, rejects: set<Key>)
    requires InDigitRange(env.draw, IdDigits)
    requires ImageKey(file, env) !in s.blobs && ImageKey(file, env) !in rejects
    requires CreateArticle(s, body, Some(file), env, activeByDefault).result.Ok?
    ensures DeleteArticle(CreateArticle(s, body, Some(file), env, activeByDefault).state,
                          CreateArticle(s, body, Some(file), env, activeByDefault).result.value, rejects).state == s
  {
    var c := CreateArticle(s, body, Some(file), env, activeByDefault);
    var id := c.result.value;
    assert c.state.articles - {id} == s.articles;
  }
}

=== FILE: banners.dfy ===
/** Banners (src/banners/banners.service.ts): image records with an alt
    text, an optional description and an optional link, images under
    `banners/`, ids `JPSBNR` followed by five digits. */
module Banners {
  import opened Common
  import opened Text
  import opened Constants
  import opened Listing
  import opened Blobs
  import opened ImageRecords
  import Partners

  const Table: Config := Config("banners", PrefixText(BANNER))

  /** The admin listing, five a page, newest first; there is no public list. */
  function GetBanners(rows: seq<Record>, query: Query): (r: Result<Page<View>>)
    ensures Paged(r, rows, query, PageSize, ViewOf)
  {
    GetRecords(rows, query)
  }

  /** getBanner, link included. */
  function GetBanner(s: State, id: Id): (r: Option<View>)
    ensures r.Some? <==> id in s.rows
    ensures r.Some? ==> r.value.link == s.rows[id].link && r.value.alt == s.rows[id].alt
  {
    GetRecord(s, id)
  }

  datatype BannerInput = BannerInput(alt: string, description: Option<string>, link: Option<string>, actor: string)

  /** createBanner: the id is `JPSBNR` and five digits, the image goes under
      `banners/`, and the submitted link is stored. */
  function CreateBanner(s: State, body: BannerInput, file: File, env: Env): (r: Reply<State, Id>)
    requires InDigitRange(env.draw, IdDigits)
    ensures r.result.Ok? ==> var id := r.result.value;
      && |id| == 11 && id[..6] == "JPSBNR" && id !in s.rows && id in r.state.rows
      && IsPrefix("banners/", r.state.rows[id].imageKey) && r.state.rows[id].imageKey in r.state.blobs
      && r.state.rows[id].link == body.link && r.state.rows[id].alt == body.alt
    ensures env.upload.UploadFailed? ==> r == Reply(s, Err(StoreFailure))
  {
    Create(s, Table, Input(body.alt, body.description, body.link, body.actor), file, env)
  }

  datatype BannerPatch = BannerPatch(id: Id, alt: Option<string>, description: Option<string>, link: Option<string>, actor: string)

  /** updateBanner: unknown ids are NotFound; a submitted link replaces the stored one. */
  function UpdateBanner(s: State, body: BannerPatch, file: Option<File>, env: UpdateEnv, rejects: set<Key>): (r: Reply<State, Id>)
    ensures body.id !in s.rows ==> r == Reply(s, Err(NotFound))
    ensures body.id in s.rows && file.Some? && DeleteRejected(s, body.id, rejects) ==> r == Reply(s, Err(StoreFailure))
    ensures file.None? ==> r.state.blobs == s.blobs
    ensures r.result.Ok? ==> (body.id in r.state.rows
      && r.state.rows[body.id].link == (if body.link.Some? then body.link else s.rows[body.id].link))
    ensures file.Some? && r.result.Ok? ==> IsPrefix("banners/", r.state.rows[body.id].imageKey)
  {
    Update(s, Table, Patch(body.id, body.alt, body.description, body.link, body.actor), file, env, rejects)
  }

  /** deleteBanner: the row and its image are gone afterwards, unless the
      image's delete rejects, which changes nothing. */
  function DeleteBanner(s: State, id: Id, rejects: set<Key>): (r: Reply<State, Id>)
    ensures r.result.Ok? <==> id in s.rows && !DeleteRejected(s, id, rejects)
    ensures id in s.rows && DeleteRejected(s, id, rejects) ==> r == Reply(s, Err(StoreFailure))
    ensures r.result.Ok? ==> id !in r.state.rows && s.rows[id].imageKey !in r.state.blobs
    ensures id !in s.rows ==> r == Reply(s, Err(NotFound))
  {
    ImageRecords.Delete(s, id, rejects)
  }

  /** Banner and partner ids and image keys never collide, whatever the
      draws, clocks and file names. */
  lemma BannersAndPartnersDisjoint(d1: nat, d2: nat, t1: nat, t2: nat, f1: File, f2: File)
    requires InDigitRange(d1, IdDigits) && InDigitRange(d2, IdDigits)
    ensures NewId(Table, d1) != NewId(Partners.Table, d2)
    ensures ImageKey(Table, f1, t1) != ImageKey(Partners.Table, f2, t2)
  {
    var a := NewId(Table, d1);
    var b := NewId(Partners.Table, d2);
    assert a[3] == 'B' && b[3] == 'P';
    FoldersSeparateKeys("banners", "partners", t1, t2, f1.name, f2.name);
  }
}

=== FILE: blobs.dfy ===
/** The object store behind every file-backed record: one bucket, a set of
    object keys, and uploads and deletes that may each fail. A delete of an
    absent key that does not fail changes nothing. The StorageService client
    itself is not part of this model; its calls become the functions below. */
module Blobs {
  import opened Common
  import opened Text

  type Key = string

  /** The bucket every service passes to the storage client. */
  const Bucket: string := "jakartapastisehat"

  /** An uploaded multipart file; only its original name reaches the key. */
  datatype File = File(name: string)

  /** What `uploadFile` does with one object: it resolves to the object's
      URL, or it rejects. Which one happens is an input of the model. */
  datatype UploadOutcome = Uploaded(url: string) | UploadFailed

  /** `${folder}/${Date.now()}-${file.originalname}` */
  function ObjectKey(folder: string, now: nat, name: string): (k: Key)
    ensures IsPrefix(folder + "/", k)
    ensures |k| == |folder| + 1 + |NatToString(now)| + 1 + |name|
    ensures k[|k| - |name|..] == name
  {
    var k := folder + "/" + NatToString(now) + "-" + name;
    assert k[..|folder| + 1] == folder + "/";
    assert k[|k| - |name|..] == name;
    k
  }

  /** Keys minted in different slash-free folders never collide, whatever
      the clock and file names. */
  lemma FoldersSeparateKeys(f1: string, f2: string, t1: nat, t2: nat, n1: string, n2: string)
    requires '/' !in f1 && '/' !in f2 && f1 != f2
    ensures ObjectKey(f1, t1, n1) != ObjectKey(f2, t2, n2)
  {
    var k1 := ObjectKey(f1, t1, n1);
    var k2 := ObjectKey(f2, t2, n2);
    assert k1[..|f1| + 1] == f1 + "/";
    assert k2[..|f2| + 1] == f2 + "/";
    assert k1[..|f1|] == f1 && k2[..|f2|] == f2;
    if |f1| < |f2| {
      assert k1[|f1|] == '/';
      assert k2[|f1|] == f2[|f1|];
    } else if |f2| < |f1| {
      assert k2[|f2|] == '/';
      assert k1[|f2|] == f1[|f2|];
    }
  }

  /** `uploadFile`: on success the key is stored and the URL returned; a
      failed upload stores nothing. */
  function Upload(blobs: set<Key>, key: Key, outcome: UploadOutcome): (r: Reply<set<Key>, string>)
    ensures outcome.Uploaded? ==> r.state == blobs + {key} && r.result == Ok(outcome.url)
    ensures outcome.UploadFailed? ==> r.state == blobs && r.result == Err(StoreFailure)
  {
    match outcome
    case Uploaded(url) => Reply(blobs + {key}, Ok(url))
    case UploadFailed => Reply(blobs, Err(StoreFailure))
  }

  /** `deleteFile`: removes the key; deleting an absent key is a no-op. */
  function Delete(blobs: set<Key>, key: Key): (r: set<Key>)
    ensures key !in r
    ensures r <= blobs
    ensures forall k :: k in blobs && k != key ==> k in r
  {
    blobs - {key}
  }

  /** Deleting a set of keys one after another, in any order. */
  function DeleteAll(blobs: set<Key>, keys: set<Key>): (r: set<Key>)
    ensures forall k :: k in keys ==> k !in r
    ensures forall k :: k in blobs && k !in keys ==> k in r
    ensures r <= blobs
  {
    blobs - keys
  }

  /** `await deleteFile(key)`. Which deletes reject is an input of the model:
      `rejects` holds the keys whose delete rejects during the call. A
      rejected delete leaves the key in place. */
  function TryDelete(blobs: set<Key>, key: Key, rejects: set<Key>): (r: Reply<set<Key>, ()>)
    ensures key in rejects ==> r == Reply(blobs, Err(StoreFailure))
    ensures key !in rejects ==> r == Reply(Delete(blobs, key), Ok(()))
  {
    if key in rejects then Reply(blobs, Err(StoreFailure)) else Reply(Delete(blobs, key), Ok(()))
  }

  /** `await Promise.all(keys.map(deleteFile))`: every delete is started, so
      each key that does not reject is removed; the batch rejects as soon as
      one of its deletes does. */
  function TryDeleteAll(blobs: set<Key>, keys: set<Key>, rejects: set<Key>): (r: Reply<set<Key>, ()>)
    ensures r.result.Ok? <==> keys * rejects == {}
    ensures r.result.Err? ==> r.result == Err(StoreFailure)
    ensures forall k :: k in keys && k !in rejects ==> k !in r.state
    ensures forall k :: k in blobs && (k !in keys || k in rejects) ==> k in r.state
    ensures r.state <= blobs
  {
    var rest := DeleteAll(blobs, keys - rejects);
    if keys * rejects == {} then Reply(rest, Ok(())) else Reply(rest, Err(StoreFailure))
  }

  /** The index of the first batch holding a rejected key, or `|batches|`. */
  function FirstRejected(batches: seq<set<Key>>, rejects: set<Key>): (j: nat)
    ensures j <= |batches|
    ensures forall i :: 0 <= i < j ==> batches[i] * rejects == {}
    ensures j < |batches| ==> batches[j] * rejects != {}
  {
    if |batches| == 0 then 0
    else if batches[0] * rejects != {} then 0
    else 1 + FirstRejected(batches[1..], rejects)
  }

  /** `for (const x of xs) await Promise.all(...)`: each batch settles before
      the next starts, and the first batch that rejects ends the loop. The
      batches before it are gone, the non-rejected keys of the failing batch
      are gone too, and the batches after it were never started. */
  function {:induction false} DeleteBatches(blobs: set<Key>, batches: seq<set<Key>>, rejects: set<Key>): (r: Reply<set<Key>, ()>)
    ensures var j := FirstRejected(batches, rejects);
      && r.result == (if j == |batches| then Ok(()) else Err(StoreFailure))
      && r.state <= blobs
      && (forall i, k :: 0 <= i < j && k in batches[i] ==> k !in r.state)
      && (j < |batches| ==> forall k :: k in batches[j] && k !in rejects ==> k !in r.state)
      && (forall k :: k in blobs && k in rejects ==> k in r.state)
      && (forall k :: k in blobs && (forall i :: 0 <= i <= j && i < |batches| ==> k !in batches[i]) ==> k in r.state)
    decreases |batches|
  {
    if |batches| == 0 then Reply(blobs, Ok(()))
    else
      var first := TryDeleteAll(blobs, batches[0], rejects);
      if first.result.Err? then first
      else
        var r := DeleteBatches(first.state, batches[1..], rejects);
        assert FirstRejected(batches, rejects) == 1 + FirstRejected(batches[1..], rejects);
        assert forall i :: 1 <= i < |batches| ==> batches[i] == batches[1..][i - 1];
        assert forall k :: k in batches[0] ==> k !in batches[0] * rejects;
        assert forall k :: k in batches[0] ==> k !in r.state;
        r
  }

  /** `if (await checkFile(key)) await deleteFile(key)`: the existence check
      of the partner and banner services. Only a present key is deleted, so
      only a present key's delete can reject. */
  function CheckedDelete(blobs: set<Key>, key: Key, rejects: set<Key>): (r: Reply<set<Key>, ()>)
    ensures key in blobs && key in rejects ==> r == Reply(blobs, Err(StoreFailure))
    ensures !(key in blobs && key in rejects) ==> r == Reply(blobs - {key}, Ok(()))
  {
    if key in blobs then TryDelete(blobs, key, rejects)
    else
      assert blobs - {key} == blobs;
      Reply(blobs, Ok(()))
  }

  /** The existence check changes nothing for a present key, and for an
      absent key it only spares a delete that could reject: when the delete
      resolves, both forms leave the same keys behind. */
  lemma CheckedDeleteIsDelete(blobs: set<Key>, key: Key, rejects: set<Key>)
    ensures key in blobs ==> CheckedDelete(blobs, key, rejects) == TryDelete(blobs, key, rejects)
    ensures key !in rejects ==> CheckedDelete(blobs, key, rejects) == TryDelete(blobs, key, rejects)
    ensures key !in blobs ==> CheckedDelete(blobs, key, rejects) == Reply(blobs, Ok(()))
  {}
}

=== FILE: careers.dfy ===
/** Career openings and their applicants (src/careers/careers.service.ts).
    The shape follows the volunteer service, with a public page of six, one
    CV per applicant, and an update that clears the taxonomy when it is not
    resent. */
module Careers {
  import opened Common
  import opened Text
  import opened Constants
  import opened StringUtil
  import opened Listing
  import opened Blobs

  datatype Location = Onsite | Remote | Hybrid
  datatype JobType = Fulltime | Parttime | Freelance | Contract | Internship

  datatype Career = Career(
    id: Id,
    title: string,
    slug: string,
    location: Location,
    jobType: JobType,
    requirements: string,
    responsibilities: Option<string>,
    pillarId: Option<Id>,
    subPillarId: Option<Id>,
    isActive: bool,
    createdBy: string,
    updatedBy: string)

  datatype Applicant = Applicant(
    id: Id,
    careerId: Id,
    fullname: string,
    address: string,
    phoneNumber: string,
    email: string,
    cvKey: Key,
    cvUrl: string,
    instagramUrl: Option<string>,
    portofolioUrl: Option<string>,
    isApproved: bool,
    approvedBy: Option<string>)

  datatype State = State(careers: map<Id, Career>, appls: map<Id, Applicant>, blobs: set<Key>)

  const PublicPageSize: nat := 6
  const AdminPageSize: nat := 8
  const ApplicantPrefix: string := "JPSCARAPPL"
  const ApplicantDigits: nat := 6
  const CvFolder: string := "career_cvs"

  /** Every applicant belongs to a stored career and its CV is in the bucket. */
  predicate Consistent(s: State) {
    forall a :: a in s.appls ==> s.appls[a].careerId in s.careers && s.appls[a].cvKey in s.blobs
  }

  /** No CV is shared between two applicants. */
  predicate KeysExclusive(s: State) {
    forall a, b :: a in s.appls && b in s.appls && a != b ==> s.appls[a].cvKey != s.appls[b].cvKey
  }

  // ---------------------------------------------------------------------
  // getPublicCareers

  predicate PublicMatches(c: Career, pillars: map<Id, Node>, subpillars: map<Id, Node>, filter: Option<string>) {
    c.isActive && SentinelFilter(c.title, c.pillarId, c.subPillarId, pillars, subpillars, filter)
  }

  function PublicWhere(pillars: map<Id, Node>, subpillars: map<Id, Node>, filter: Option<string>): Career -> bool {
    (c: Career) => PublicMatches(c, pillars, subpillars, filter)
  }

  datatype PublicItem = PublicItem(slug: string, title: string, location: Location, jobType: JobType, pillar: string, subpillar: string)

  function RenderPublic(pillars: map<Id, Node>, subpillars: map<Id, Node>): Career -> PublicItem {
    (c: Career) => PublicItem(c.slug, c.title, c.location, c.jobType, DisplayName(c.pillarId, pillars), DisplayName(c.subPillarId, subpillars))
  }

  /** `rows` is the career table in the order the query's `orderBy` yields. */
  function GetPublicCareers(rows: seq<Career>, pillars: map<Id, Node>, subpillars: map<Id, Node>, query: Query): (r: Result<Page<PublicItem>>)
    ensures Listed(r, rows, PublicWhere(pillars, subpillars, query.filter), query, PublicPageSize, RenderPublic(pillars, subpillars))
  {
    ListMap(rows, PublicWhere(pillars, subpillars, query.filter), query, PublicPageSize, RenderPublic(pillars, subpillars))
  }

  /** Without a filter (or with a sort-only one) the public total counts
      exactly the active careers. */
  lemma PublicUnfilteredCountsActive(rows: seq<Career>, pillars: map<Id, Node>, subpillars: map<Id, Node>, query: Query)
    requires query.filter.None? || query.filter.value == "" || IsSortFilter(query.filter.value)
    ensures GetPublicCareers(rows, pillars, subpillars, query).Ok? ==> GetPublicCareers(rows, pillars, subpillars, query).value.total == |Filter((c: Career) => c.isActive, rows)|
  {
    forall c | c in rows
      ensures PublicWhere(pillars, subpillars, query.filter)(c) == ((c: Career) => c.isActive)(c)
    {
      if query.filter.Some? {
        SortFiltersIgnored(c.title, c.pillarId, c.subPillarId, pillars, subpillars, query.filter.value);
      }
    }
    FilterExt(PublicWhere(pillars, subpillars, query.filter), (c: Career) => c.isActive, rows);
  }

  // ---------------------------------------------------------------------
  // getCareers

  function AdminWhere(q: Option<string>): Career -> bool {
    (c: Career) => FieldContains(c.title, q)
  }

  function ApplicantsOf(appls: map<Id, Applicant>, cid: Id): (r: set<Id>)
    ensures forall a :: a in r <==> a in appls && appls[a].careerId == cid
  {
    set a | a in appls && appls[a].careerId == cid
  }

  datatype AdminItem = AdminItem(id: Id, slug: string, title: string, isActive: bool, pillar: Option<string>, subpillar: Option<string>, totalApplicants: nat)

  function NameOf(ref: Option<Id>, nodes: map<Id, Node>): Option<string> {
    if ref.Some? && ref.value in nodes then Some(nodes[ref.value].name) else None
  }

  function RenderAdmin(appls: map<Id, Applicant>, pillars: map<Id, Node>, subpillars: map<Id, Node>): Career -> AdminItem {
    (c: Career) => AdminItem(c.id, c.slug, c.title, c.isActive, NameOf(c.pillarId, pillars), NameOf(c.subPillarId, subpillars), |ApplicantsOf(appls, c.id)|)
  }

  /** The admin listing: title search only, eight per page, inactive careers
      included, each item with `total_carappls`. */
  function GetCareers(rows: seq<Career>, appls: map<Id, Applicant>, pillars: map<Id, Node>, subpillars: map<Id, Node>, query: Query): (r: Result<Page<AdminItem>>)
    ensures Listed(r, rows, AdminWhere(query.q), query, AdminPageSize, RenderAdmin(appls, pillars, subpillars))
  {
    ListMap(rows, AdminWhere(query.q), query, AdminPageSize, RenderAdmin(appls, pillars, subpillars))
  }

  /** Each admin item counts exactly the applicants of its own career. */
  lemma AdminCountsApplicants(appls: map<Id, Applicant>, pillars: map<Id, Node>, subpillars: map<Id, Node>, c: Career)
    ensures RenderAdmin(appls, pillars, subpillars)(c).totalApplicants == |set a | a in appls && appls[a].careerId == c.id|
  {
    assert ApplicantsOf(appls, c.id) == set a | a in appls && appls[a].careerId == c.id;
  }

  // ---------------------------------------------------------------------
  // updateCareer

  datatype CareerUpdate = CareerUpdate(
    id: Id,
    pillarId: Option<Id>,
    subPillarId: Option<Id>,
    title: Option<string>,
    location: Option<Location>,
    jobType: Option<JobType>,
    requirements: Option<string>,
    responsibilities: Option<string>,
    isActive: Option<bool>,
    actor: string)

  /** `x ? x : null`: a missing or empty id clears the relation. */
  function NullIfFalsy(ref: Option<Id>): (r: Option<Id>)
    ensures Truthy(ref) ==> r == ref
    ensures !Truthy(ref) ==> r.None?
  {
    if Truthy(ref) then ref else None
  }

  function Patched(c: Career, body: CareerUpdate): (w: Career)
    ensures w.id == c.id && w.createdBy == c.createdBy && w.updatedBy == body.actor
    ensures w.title == Keep(body.title, c.title)
    ensures Truthy(body.title) ==> w.slug == Slug(body.title.value)
    ensures !Truthy(body.title) ==> w.slug == c.slug
    ensures w.location == Keep(body.location, c.location) && w.jobType == Keep(body.jobType, c.jobType)
    ensures w.requirements == Keep(body.requirements, c.requirements)
    ensures w.responsibilities == (if body.responsibilities.Some? then body.responsibilities else c.responsibilities)
    ensures w.pillarId == NullIfFalsy(body.pillarId) && w.subPillarId == NullIfFalsy(body.subPillarId)
    ensures w.isActive == Keep(body.isActive, c.isActive)
  {
    c.(title := Keep(body.title, c.title),
       slug := if Truthy(body.title) then Slug(body.title.value) else c.slug,
       location := Keep(body.location, c.location),
       jobType := Keep(body.jobType, c.jobType),
       requirements := Keep(body.requirements, c.requirements),
       responsibilities := if body.responsibilities.Some? then body.responsibilities else c.responsibilities,
       pillarId := NullIfFalsy(body.pillarId),
       subPillarId := NullIfFalsy(body.subPillarId),
       isActive := Keep(body.isActive, c.isActive),
       updatedBy := body.actor)
  }

  function UpdateCareer(s: State, body: CareerUpdate): (r: Reply<State, Id>)
    ensures body.id !in s.careers ==> r == Reply(s, Err(NotFound))
    ensures body.id in s.careers ==> r.result == Ok(body.id)
    ensures body.id in s.careers ==> r.state.careers == s.careers[body.id := Patched(s.careers[body.id], body)]
    ensures r.state.appls == s.appls && r.state.blobs == s.blobs
  {
    if body.id !in s.careers then Reply(s, Err(NotFound))
    else Reply(s.(careers := s.careers[body.id := Patched(s.careers[body.id], body)]), Ok(body.id))
  }

  /** Unlike the volunteer update, leaving out `pillar_id` and
      `sub_pillar_id` (or sending them empty) detaches the career from its
      taxonomy, and the public listing then renders it uncategorised. */
  lemma UpdateCareerClearsTaxonomy(s: State, body: CareerUpdate, pillars: map<Id, Node>, subpillars: map<Id, Node>)
    requires body.id in s.careers
    requires !Truthy(body.pillarId) && !Truthy(body.subPillarId)
    ensures UpdateCareer(s, body).state.careers[body.id].pillarId.None?
    ensures UpdateCareer(s, body).state.careers[body.id].subPillarId.None?
    ensures RenderPublic(pillars, subpillars)(UpdateCareer(s, body).state.careers[body.id]).pillar == Uncategorised
    ensures RenderPublic(pillars, subpillars)(UpdateCareer(s, body).state.careers[body.id]).subpillar == Uncategorised
  {}

  /** Sending the same update twice has the effect of sending it once. */
  lemma UpdateCareerIdempotent(s: State, body: CareerUpdate)
    ensures UpdateCareer(UpdateCareer(s, body).state, body) == UpdateCareer(s, body)
  {
    if body.id in s.careers {
      var c := s.careers[body.id];
      var t := UpdateCareer(s, body).state;
      assert Patched(Patched(c, body), body) == Patched(c, body);
      assert t.careers[body.id := Patched(t.careers[body.id], body)] == t.careers;
    }
  }

  // ---------------------------------------------------------------------
  // deleteCareer

  /** Every CV key held by the applicants of one career. */
  function CvsOf(appls: map<Id, Applicant>, cid: Id): (r: set<Key>)
    ensures forall a :: a in appls && appls[a].careerId == cid ==> appls[a].cvKey in r
    ensures forall k :: k in r ==> exists a :: a in appls && appls[a].careerId == cid && k == appls[a].cvKey
  {
    set a | a in appls && appls[a].careerId == cid :: appls[a].cvKey
  }

  /** `order` is the order in which the `carappl` relation lists the
      applicants of career `cid`: each of them, and nothing else. */
  ghost predicate ListsApplicants(appls: map<Id, Applicant>, cid: Id, order: seq<Id>) {
    forall a :: a in order <==> a in appls && appls[a].careerId == cid
  }

  /** One awaited delete per listed applicant: a batch holding its CV. */
  function CvBatches(appls: map<Id, Applicant>, order: seq<Id>): (r: seq<set<Key>>)
    requires forall i :: 0 <= i < |order| ==> order[i] in appls
    ensures |r| == |order|
    ensures forall i :: 0 <= i < |order| ==> r[i] == {appls[order[i]].cvKey}
  {
    seq(|order|, i requires 0 <= i < |order| => {appls[order[i]].cvKey})
  }

  /** What the loop over `CvBatches` leaves in the bucket, in terms of the
      career's applicants: it resolves exactly when none of their CVs
      rejects, and then every one of their CVs is gone. */
  lemma {:induction false} CvBatchesCleared(blobs: set<Key>, appls: map<Id, Applicant>, id: Id, order: seq<Id>, rejects: set<Key>)
    requires ListsApplicants(appls, id, order)
    ensures var c := DeleteBatches(blobs, CvBatches(appls, order), rejects);
      && (c.result.Ok? <==> CvsOf(appls, id) * rejects == {})
      && (c.result.Ok? ==> forall a :: a in appls && appls[a].careerId == id ==> appls[a].cvKey !in c.state)
      && (forall k :: k in blobs && (k !in CvsOf(appls, id) || k in rejects) ==> k in c.state)
      && (forall i :: 0 <= i < FirstRejected(CvBatches(appls, order), rejects) ==> appls[order[i]].cvKey !in c.state)
  {
    var batches := CvBatches(appls, order);
    var c := DeleteBatches(blobs, batches, rejects);
    var j := FirstRejected(batches, rejects);
    forall i | 0 <= i < j ensures appls[order[i]].cvKey !in c.state {
      assert appls[order[i]].cvKey in batches[i];
    }
    forall k | k in blobs && (k !in CvsOf(appls, id) || k in rejects)
      ensures k in c.state
    {
      if k !in rejects {
        forall i | 0 <= i <= j && i < |batches| ensures k !in batches[i] {
          assert order[i] in order;
        }
      }
    }
    if c.result.Ok? {
      forall a | a in appls && appls[a].careerId == id
        ensures appls[a].cvKey !in c.state && appls[a].cvKey !in rejects
      {
        var i :| 0 <= i < |order| && order[i] == a;
        assert appls[a].cvKey !in batches[i] * rejects;
      }
      forall k | k in CvsOf(appls, id) ensures k !in rejects {
        var a :| a in appls && appls[a].careerId == id && k == appls[a].cvKey;
      }
    } else {
      var k :| k in batches[j] * rejects;
      assert order[j] in order;
      assert k in CvsOf(appls, id) * rejects;
    }
  }

  /** The applicants that do not belong to career `cid`. */
  function Survivors(appls: map<Id, Applicant>, cid: Id): (r: map<Id, Applicant>)
    ensures forall a :: a in appls && appls[a].careerId != cid ==> a in r && r[a] == appls[a]
    ensures forall a :: a in r ==> a in appls && appls[a].careerId != cid
  {
    map a | a in appls && appls[a].careerId != cid :: appls[a]
  }

  /** The applicants' CVs are deleted one at a time; only when every delete
      resolves is the career deleted, together with its applicants. A
      rejected delete ends the loop: the rows stay, while the CVs of the
      applicants already visited are gone. */
  function DeleteCareer(s: State, id: Id, order: seq<Id>, rejects: set<Key>): (r: Reply<State, Id>)
    requires ListsApplicants(s.appls, id, order)
    ensures id !in s.careers ==> r == Reply(s, Err(NotFound))
    ensures id in s.careers ==> (r.result.Ok? <==> CvsOf(s.appls, id) * rejects == {})
    ensures id in s.careers && r.result.Ok?
      ==> && r.result == Ok(id)
          && r.state.careers == s.careers - {id}
          && (forall a :: a in s.appls && s.appls[a].careerId == id ==>
                a !in r.state.appls && s.appls[a].cvKey !in r.state.blobs)
          && (forall a :: a in s.appls && s.appls[a].careerId != id ==>
                a in r.state.appls && r.state.appls[a] == s.appls[a])
    ensures id in s.careers && r.result.Err?
      ==> && r.result == Err(StoreFailure)
          && r.state.careers == s.careers && r.state.appls == s.appls
          && (var j := FirstRejected(CvBatches(s.appls, order), rejects);
              forall i :: 0 <= i < j ==> s.appls[order[i]].cvKey !in r.state.blobs)
    ensures r.state.appls.Keys <= s.appls.Keys
    ensures r.state.blobs <= s.blobs
    ensures forall k :: k in s.blobs && (k !in CvsOf(s.appls, id) || k in rejects) ==> k in r.state.blobs
  {
    if id !in s.careers then Reply(s, Err(NotFound))
    else
      var cleared := DeleteBatches(s.blobs, CvBatches(s.appls, order), rejects);
      CvBatchesCleared(s.blobs, s.appls, id, order, rejects);
      if cleared.result.Err? then Reply(s.(blobs := cleared.state), Err(StoreFailure))
      else Reply(State(s.careers - {id}, Survivors(s.appls, id), cleared.state), Ok(id))
  }

  /** Dropping applicants never makes two of them share a CV. */
  lemma SubsetKeepsExclusive(s: State, t: State)
    requires KeysExclusive(s)
    requires forall a :: a in t.appls ==> a in s.appls && t.appls[a] == s.appls[a]
    ensures KeysExclusive(t)
  {}

  /** The CV of an applicant to another career is not among `CvsOf(id)`. */
  lemma OthersCvOutside(s: State, id: Id, b: Id)
    requires KeysExclusive(s)
    requires b in s.appls && s.appls[b].careerId != id
    ensures s.appls[b].cvKey !in CvsOf(s.appls, id)
  {
    forall a | a in s.appls && s.appls[a].careerId == id ensures s.appls[b].cvKey != s.appls[a].cvKey {
      assert a != b;
    }
  }

  /** A delete that ends in `Ok` or `NotFound` keeps the store consistent;
      CV ownership stays exclusive on every path. */
  lemma DeleteCareerPreservesConsistency(s: State, id: Id, order: seq<Id>, rejects: set<Key>)
    requires Consistent(s) && KeysExclusive(s)
    requires ListsApplicants(s.appls, id, order)
    ensures DeleteCareer(s, id, order, rejects).result != Err(StoreFailure) ==> Consistent(DeleteCareer(s, id, order, rejects).state)
    ensures KeysExclusive(DeleteCareer(s, id, order, rejects).state)
  {
    var t := DeleteCareer(s, id, order, rejects);
    SubsetKeepsExclusive(s, t.state);
    if id in s.careers && t.result.Ok? {
      forall b | b in t.state.appls
        ensures t.state.appls[b].careerId in t.state.careers && t.state.appls[b].cvKey in t.state.blobs
      {
        OthersCvOutside(s, id, b);
      }
    }
  }

  /** The loop is not atomic. With two applicants, a rejected delete of the
      second one's CV leaves the first applicant's row pointing at a CV that
      is already gone. */
  lemma DeleteCareerRejectedLeavesDangling(s: State, id: Id, a1: Id, a2: Id)
    requires Consistent(s) && KeysExclusive(s)
    requires id in s.careers && a1 != a2
    requires ListsApplicants(s.appls, id, [a1, a2])
    ensures DeleteCareer(s, id, [a1, a2], {s.appls[a2].cvKey}).result == Err(StoreFailure)
    ensures !Consistent(DeleteCareer(s, id, [a1, a2], {s.appls[a2].cvKey}).state)
  {
    var rejects := {s.appls[a2].cvKey};
    var batches := CvBatches(s.appls, [a1, a2]);
    assert a1 in [a1, a2] && a2 in [a1, a2];
    assert batches[0] * rejects == {};
    assert s.appls[a2].cvKey in batches[1] * rejects;
    assert FirstRejected(batches, rejects) == 1 by {
      assert FirstRejected(batches[1..], rejects) == 0 by {
        assert batches[1..][0] == batches[1];
      }
    }
    var t := DeleteCareer(s, id, [a1, a2], rejects).state;
    assert a1 in t.appls && t.appls[a1].cvKey !in t.blobs;
  }

  // ---------------------------------------------------------------------
  // createCarAppl

  datatype ApplInput = ApplInput(
    careerId: Id,
    fullname: string,
    email: string,
    phoneNumber: string,
    address: string,
    instagramUrl: Option<string>,
    portofolioUrl: Option<string>)

  /** The `Date.now()` reading, the upload outcome and the id draw. */
  datatype ApplEnv = ApplEnv(now: nat, upload: UploadOutcome, draw: nat)

  function CvKey(cv: File, env: ApplEnv): (k: Key)
    ensures IsPrefix(CvFolder + "/", k)
  {
    ObjectKey(CvFolder, env.now, cv.name)
  }

  function InsertApplicant(s: State, blobs: set<Key>, body: ApplInput, cvKey: Key, env: ApplEnv): (r: Option<State>)
    requires InDigitRange(env.draw, ApplicantDigits) && env.upload.Uploaded?
    ensures r.None? <==> body.careerId !in s.careers || MintId(ApplicantPrefix, env.draw, ApplicantDigits) in s.appls
    ensures r.Some? ==> r.value.careers == s.careers && r.value.blobs == blobs
    ensures r.Some? ==> r.value.appls == s.appls[MintId(ApplicantPrefix, env.draw, ApplicantDigits) :=
      Applicant(MintId(ApplicantPrefix, env.draw, ApplicantDigits), body.careerId, body.fullname, body.address,
                body.phoneNumber, body.email, cvKey, env.upload.url, body.instagramUrl, body.portofolioUrl, false, None)]
  {
    var id := MintId(ApplicantPrefix, env.draw, ApplicantDigits);
    if body.careerId !in s.careers || id in s.appls then None
    else
      var a := Applicant(id, body.careerId, body.fullname, body.address, body.phoneNumber, body.email,
                         cvKey, env.upload.url, body.instagramUrl, body.portofolioUrl, false, None);
      Some(State(s.careers, s.appls[id := a], blobs))
  }

  /** createCarAppl as the source runs it: a missing file throws before the
      `try`; a failed upload issues the compensating delete; the insert is
      returned without `await`, so its rejection skips the `catch` and the
      uploaded CV stays in the bucket. */
  function CreateCarApplAsWritten(s: State, body: ApplInput, cv: Option<File>, env: ApplEnv): (r: Reply<State, Id>)
    requires InDigitRange(env.draw, ApplicantDigits)
    ensures cv.None? ==> r == Reply(s, Err(TypeError))
    ensures r.result == Err(StoreFailure) ==>
      && cv.Some?
      && r.state == s.(blobs := s.blobs - {CvKey(cv.value, env)})
    ensures r.result == Err(DbFailure) ==>
      && cv.Some?
      && r.state == s.(blobs := s.blobs + {CvKey(cv.value, env)})
    ensures r.result.Ok? ==> r.result.value in r.state.appls
  {
    if cv.None? then Reply(s, Err(TypeError))
    else
      var key := CvKey(cv.value, env);
      var up := Upload(s.blobs, key, env.upload);
      if up.result.Err? then Reply(s.(blobs := Delete(up.state, key)), Err(StoreFailure))
      else
        match InsertApplicant(s, up.state, body, key, env)
        case None => Reply(s.(blobs := up.state), Err(DbFailure))
        case Some(t) => Reply(t, Ok(MintId(ApplicantPrefix, env.draw, ApplicantDigits)))
  }

  /** An application for a career that does not exist leaves its CV behind
      with no applicant row pointing at it. */
  lemma CreateCarApplAsWrittenLeaksCv(s: State, body: ApplInput, cv: File, env: ApplEnv)
    requires InDigitRange(env.draw, ApplicantDigits) && env.upload.Uploaded?
    requires body.careerId !in s.careers
    ensures CreateCarApplAsWritten(s, body, Some(cv), env).result == Err(DbFailure)
    ensures CvKey(cv, env) in CreateCarApplAsWritten(s, body, Some(cv), env).state.blobs
    ensures CreateCarApplAsWritten(s, body, Some(cv), env).state.appls == s.appls
  {}

  /** createCarAppl with the insert awaited inside the `try`: every failure
      after the upload removes the CV again. */
  function CreateCarAppl(s: State, body: ApplInput, cv: Option<File>, env: ApplEnv): (r: Reply<State, Id>)
    requires InDigitRange(env.draw, ApplicantDigits)
    ensures cv.None? ==> r == Reply(s, Err(TypeError))
    ensures r.result.Err? && cv.Some? ==> r.state == s.(blobs := s.blobs - {CvKey(cv.value, env)})
    ensures r.result.Err? ==> r.state.blobs <= s.blobs && r.state.appls == s.appls
    ensures r.result.Ok? ==> cv.Some? && r.result.value !in s.appls && r.result.value in r.state.appls
    ensures r.result.Ok? ==> var a := r.state.appls[r.result.value];
      a.careerId == body.careerId && a.careerId in s.careers && !a.isApproved
      && a.cvKey == CvKey(cv.value, env) && a.cvKey in r.state.blobs && env.upload == Uploaded(a.cvUrl)
    ensures r.result.Ok? ==> r.state.careers == s.careers && r.state.blobs == s.blobs + {CvKey(cv.value, env)}
    ensures r.result.Ok? ==> forall a :: a in s.appls ==> a in r.state.appls && r.state.appls[a] == s.appls[a]
  {
    if cv.None? then Reply(s, Err(TypeError))
    else
      var key := CvKey(cv.value, env);
      var up := Upload(s.blobs, key, env.upload);
      var rollback := s.(blobs := Delete(up.state, key));
      assert Delete(up.state, key) == s.blobs - {key};
      if up.result.Err? then Reply(rollback, Err(StoreFailure))
      else
        match InsertApplicant(s, up.state, body, key, env)
        case None => Reply(rollback, Err(DbFailure))
        case Some(t) => Reply(t, Ok(MintId(ApplicantPrefix, env.draw, ApplicantDigits)))
  }

  lemma CreateCarApplPreservesConsistency(s: State, body: ApplInput, cv: File, env: ApplEnv)
    requires InDigitRange(env.draw, ApplicantDigits)
    requires Consistent(s) && KeysExclusive(s)
    requires CvKey(cv, env) !in s.blobs
    ensures Consistent(CreateCarAppl(s, body, Some(cv), env).state)
    ensures KeysExclusive(CreateCarAppl(s, body, Some(cv), env).state)
  {
    var r := CreateCarAppl(s, body, Some(cv), env);
    forall a | a in s.appls
      ensures s.appls[a].cvKey != CvKey(cv, env)
    {
      assert s.appls[a].cvKey in s.blobs;
    }
  }

  // ---------------------------------------------------------------------
  // updateCarAppl

  function UpdateCarAppl(s: State, applId: Id, actor: string): (r: Reply<State, Id>)
    ensures applId !in s.appls ==> r == Reply(s, Err(NotFound))
    ensures applId in s.appls ==> r.result == Ok(applId)
    ensures applId in s.appls ==> applId in r.state.appls
    ensures applId in s.appls ==> r.state.appls[applId].isApproved == !s.appls[applId].isApproved
    ensures applId in s.appls ==>
      r.state.appls[applId] == s.appls[applId].(isApproved := !s.appls[applId].isApproved, approvedBy := Some(actor))
    ensures r.state.careers == s.careers && r.state.blobs == s.blobs && r.state.appls.Keys == s.appls.Keys
    ensures forall a :: a in s.appls && a != applId ==> r.state.appls[a] == s.appls[a]
  {
    if applId !in s.appls then Reply(s, Err(NotFound))
    else
      var a := s.appls[applId];
      Reply(s.(appls := s.appls[applId := a.(isApproved := !a.isApproved, approvedBy := Some(actor))]), Ok(applId))
  }

  lemma ToggleTwiceRestores(s: State, applId: Id, actor1: string, actor2: string)
    requires applId in s.appls
    ensures UpdateCarAppl(UpdateCarAppl(s, applId, actor1).state, applId, actor2).state
         == s.(appls := s.appls[applId := s.appls[applId].(approvedBy := Some(actor2))])
  {}
}

=== FILE: common.dfy ===
/** Shared vocabulary of the backend model: optional values, the error kinds a
    service call can end with, and the reply shape of a state-changing call. */
module Common {

  type Id = string

  datatype Option<+T> = None | Some(value: T) {
    function GetOr(default: T): T {
      match this
      case Some(v) => v
      case None => default
    }
  }

  /** The exceptions the services raise, plus the two foreign failures the
      model makes explicit: a rejected database write and a synchronous
      JavaScript TypeError. */
  datatype Error =
    | NotFound
    | Forbidden
    | Unauthorized
    | StoreFailure
    | DbFailure
    | TypeError

  datatype Result<+T> = Ok(value: T) | Err(error: Error)

  /** What a mutating service call leaves behind: the new state (which keeps
      every side effect performed before an error) and the value or error. */
  datatype Reply<S, T> = Reply(state: S, result: Result<T>)

  function Max(a: int, b: int): (m: int)
    ensures m >= a && m >= b && (m == a || m == b)
  {
    if a >= b then a else b
  }

  /** `Math.ceil(a / b)` on non-negative integers. */
  function CeilDiv(a: nat, b: nat): (q: nat)
    requires b > 0
    ensures q * b >= a
    ensures q > 0 ==> (q - 1) * b < a
  {
    (a + b - 1) / b
  }

  /** Prisma's partial-update rule: an absent field leaves the column as it was. */
  function Keep<T>(field: Option<T>, current: T): (r: T)
    ensures field.None? ==> r == current
    ensures field.Some? ==> r == field.value
  {
    field.GetOr(current)
  }

  predicate DistinctKeys(ids: seq<Id>) {
    forall i, j :: 0 <= i < j < |ids| ==> ids[i] != ids[j]
  }

  /** A `createMany` without `skipDuplicates` succeeds only when its ids are
      pairwise distinct and new to the table. */
  predicate BatchFits<T>(m: map<Id, T>, ids: seq<Id>) {
    DistinctKeys(ids) && forall i :: 0 <= i < |ids| ==> ids[i] !in m
  }

  /** The rows of a batch written into a table, `ids[i]` being the key of `rows[i]`. */
  function InsertRows<T>(m: map<Id, T>, ids: seq<Id>, rows: seq<T>): (r: map<Id, T>)
    requires |ids| == |rows|
    ensures forall k :: k in r <==> k in m || k in ids
    ensures forall k :: k in m && k !in ids ==> r[k] == m[k]
    ensures DistinctKeys(ids) ==> forall i :: 0 <= i < |ids| ==> ids[i] in r && r[ids[i]] == rows[i]
    decreases |ids|
  {
    if |ids| == 0 then m
    else
      var r := InsertRows(m[ids[0] := rows[0]], ids[1..], rows[1..]);
      assert forall i :: 1 <= i < |ids| ==> ids[i] == ids[1..][i - 1] && rows[i] == rows[1..][i - 1];
      assert forall k :: k in ids <==> k == ids[0] || k in ids[1..];
      r
  }

  /** A `createMany` of `rows` into `m`: rejected as a whole unless the batch
      fits, otherwise every row is stored under its key and nothing else moves. */
  function InsertBatch<T>(m: map<Id, T>, rows: seq<T>, key: T -> Id): (r: Option<map<Id, T>>)
    ensures r.None? <==> !BatchFits(m, KeysOf(rows, key))
    ensures r.Some? ==> forall i :: 0 <= i < |rows| ==> key(rows[i]) in r.value && r.value[key(rows[i])] == rows[i]
    ensures r.Some? ==> forall k :: k in m ==> k in r.value && r.value[k] == m[k]
    ensures r.Some? ==> forall k :: k in r.value ==> k in m || exists i :: 0 <= i < |rows| && key(rows[i]) == k
  {
    var ids := KeysOf(rows, key);
    if !BatchFits(m, ids) then None
    else
      var r := InsertRows(m, ids, rows);
      assert forall k :: k in ids ==> exists i :: 0 <= i < |rows| && key(rows[i]) == k;
      Some(r)
  }

  /** A property every stored row and every inserted row has, every row of
      the result has. */
  lemma InsertBatchKeeps<T>(m: map<Id, T>, rows: seq<T>, key: T -> Id, p: T -> bool)
    requires InsertBatch(m, rows, key).Some?
    requires forall k :: k in m ==> p(m[k])
    requires forall i :: 0 <= i < |rows| ==> p(rows[i])
    ensures forall k :: k in InsertBatch(m, rows, key).value ==> p(InsertBatch(m, rows, key).value[k])
  {
    var r := InsertBatch(m, rows, key).value;
    forall k | k in r ensures p(r[k]) {
      if k !in m {
        var i :| 0 <= i < |rows| && key(rows[i]) == k;
        assert r[k] == rows[i];
      }
    }
  }

  /** The primary keys of a batch of rows. */
  function KeysOf<T>(rows: seq<T>, key: T -> Id): (ids: seq<Id>)
    ensures |ids| == |rows| && forall i :: 0 <= i < |rows| ==> ids[i] == key(rows[i])
  {
    seq(|rows|, i requires 0 <= i < |rows| => key(rows[i]))
  }
}

=== FILE: constants.dfy ===
/** The lookup tables of src/utils/constant.util.ts and the identifier
    minting that every service performs with them: a kind prefix followed by
    the decimal rendering of a random integer drawn from a fixed range. */
module Constants {
  import opened Common
  import opened Text

  /** `PREFIX`, a plain object keyed by kind name. */
  const Prefix: map<string, string> := map[
    "BANNER" := "JPSBNR",
    "PARTNER" := "JPSPTR",
    "TEAM" := "JPSTM",
    "ARTICLE" := "JPSARC",
    "DOCUMENTATION" := "JPSDOC",
    "VOLUNTEER" := "JPSVTR",
    "CAREER" := "JPSCRR",
    "EVENT" := "JPSEVT",
    "ADMIN" := "JPSADM",
    "PILLAR" := "JPSPLR",
    "SUBPILLAR" := "JPSSPLR",
    "KEY" := "JPSKEY",
    "POSITION" := "JPSPOS"
  ]

  /** The names the services look up in `PREFIX`; the last three have no
      entry there. */
  datatype Kind =
    | BANNER | PARTNER | TEAM | ARTICLE | DOCUMENTATION | VOLUNTEER | CAREER
    | EVENT | ADMIN | PILLAR | SUBPILLAR | KEY | POSITION
    | EDUCATION | SOCIAL_MEDIA | DOCUMENTATIONIMAGE

  function KindName(k: Kind): string {
    match k
    case BANNER => "BANNER"
    case PARTNER => "PARTNER"
    case TEAM => "TEAM"
    case ARTICLE => "ARTICLE"
    case DOCUMENTATION => "DOCUMENTATION"
    case VOLUNTEER => "VOLUNTEER"
    case CAREER => "CAREER"
    case EVENT => "EVENT"
    case ADMIN => "ADMIN"
    case PILLAR => "PILLAR"
    case SUBPILLAR => "SUBPILLAR"
    case KEY => "KEY"
    case POSITION => "POSITION"
    case EDUCATION => "EDUCATION"
    case SOCIAL_MEDIA => "SOCIAL_MEDIA"
    case DOCUMENTATIONIMAGE => "DOCUMENTATIONIMAGE"
  }

  /** `${PREFIX.NAME}` inside a template literal: the prefix, or the literal
      text `undefined` when the object has no such key. */
  function PrefixText(k: Kind): (p: string) {
    match k
    case BANNER => "JPSBNR"
    case PARTNER => "JPSPTR"
    case TEAM => "JPSTM"
    case ARTICLE => "JPSARC"
    case DOCUMENTATION => "JPSDOC"
    case VOLUNTEER => "JPSVTR"
    case CAREER => "JPSCRR"
    case EVENT => "JPSEVT"
    case ADMIN => "JPSADM"
    case PILLAR => "JPSPLR"
    case SUBPILLAR => "JPSSPLR"
    case KEY => "JPSKEY"
    case POSITION => "JPSPOS"
    case EDUCATION => "undefined"
    case SOCIAL_MEDIA => "undefined"
    case DOCUMENTATIONIMAGE => "undefined"
  }

  /** The template text is the `PREFIX` lookup of the kind's name, and
      `undefined` exactly for the names the object lacks. */
  lemma PrefixTextIsLookup(k: Kind)
    ensures KindName(k) in Prefix ==> PrefixText(k) == Prefix[KindName(k)]
    ensures KindName(k) !in Prefix <==> k in {EDUCATION, SOCIAL_MEDIA, DOCUMENTATIONIMAGE}
    ensures KindName(k) !in Prefix ==> PrefixText(k) == "undefined"
  {}

  /** The kind a prefix belongs to: the inverse lookup of `PREFIX`. */
  function KindOfPrefix(p: string): Option<string> {
    if p == "JPSBNR" then Some("BANNER")
    else if p == "JPSPTR" then Some("PARTNER")
    else if p == "JPSTM" then Some("TEAM")
    else if p == "JPSARC" then Some("ARTICLE")
    else if p == "JPSDOC" then Some("DOCUMENTATION")
    else if p == "JPSVTR" then Some("VOLUNTEER")
    else if p == "JPSCRR" then Some("CAREER")
    else if p == "JPSEVT" then Some("EVENT")
    else if p == "JPSADM" then Some("ADMIN")
    else if p == "JPSPLR" then Some("PILLAR")
    else if p == "JPSSPLR" then Some("SUBPILLAR")
    else if p == "JPSKEY" then Some("KEY")
    else if p == "JPSPOS" then Some("POSITION")
    else None
  }

  /** Every prefix leads back to its own kind. */
  lemma KindOfPrefixInverts(name: string)
    requires name in Prefix
    ensures KindOfPrefix(Prefix[name]) == Some(name)
  {}

  /** The thirteen prefixes are pairwise distinct, so the prefix identifies the kind. */
  lemma PrefixesDistinct(a: string, b: string)
    requires a in Prefix && b in Prefix && a != b
    ensures Prefix[a] != Prefix[b]
  {
    KindOfPrefixInverts(a);
    KindOfPrefixInverts(b);
  }

  // ---------------------------------------------------------------------
  // EDUCATIONORDER

  /** The education levels the team forms accept. */
  datatype EducationLevel = TK | SD | SMP | SMA | SMK | D1 | D2 | D3 | D4 | S1 | S2 | S3

  /** The levels from lowest to highest, as the table lists them. */
  const EducationLevels: seq<EducationLevel> := [TK, SD, SMP, SMA, SMK, D1, D2, D3, D4, S1, S2, S3]

  /** `EDUCATIONORDER[level]`: the 1-based position of the level in the
      listed order, so the table is a bijection onto 1..12. */
  function EducationOrder(level: EducationLevel): (n: nat)
    ensures 1 <= n <= |EducationLevels|
    ensures EducationLevels[n - 1] == level
  {
    match level
    case TK => 1
    case SD => 2
    case SMP => 3
    case SMA => 4
    case SMK => 5
    case D1 => 6
    case D2 => 7
    case D3 => 8
    case D4 => 9
    case S1 => 10
    case S2 => 11
    case S3 => 12
  }

  /** Listed later means ordered higher; distinct levels get distinct orders. */
  lemma EducationOrderStrictlyIncreasing(i: int, j: int)
    requires 0 <= i < j < |EducationLevels|
    ensures EducationOrder(EducationLevels[i]) < EducationOrder(EducationLevels[j])
  {
    assert EducationOrder(EducationLevels[i]) == i + 1;
    assert EducationOrder(EducationLevels[j]) == j + 1;
  }

  lemma EducationOrderOnto(n: nat)
    requires 1 <= n <= 12
    ensures exists level :: EducationOrder(level) == n
  {
    assert EducationOrder(EducationLevels[n - 1]) == n;
  }

  // ---------------------------------------------------------------------
  // SOCIALMEDIAORDER

  datatype SocialMedia = TIKTOK | YOUTUBE | INSTAGRAM | LINKEDIN

  const SocialMedias: seq<SocialMedia> := [TIKTOK, YOUTUBE, INSTAGRAM, LINKEDIN]

  /** `SOCIALMEDIAORDER[name]`: the 1-based position of the network in the
      listed order, a bijection onto 1..4. */
  function SocialMediaOrder(name: SocialMedia): (n: nat)
    ensures 1 <= n <= |SocialMedias|
    ensures SocialMedias[n - 1] == name
  {
    match name
    case TIKTOK => 1
    case YOUTUBE => 2
    case INSTAGRAM => 3
    case LINKEDIN => 4
  }

  lemma SocialMediaOrderOnto(n: nat)
    requires 1 <= n <= 4
    ensures exists name :: SocialMediaOrder(name) == n
  {
    assert SocialMediaOrder(SocialMedias[n - 1]) == n;
  }

  // ---------------------------------------------------------------------
  // identifier minting

  /** The ranges lodash's `random(lo, hi)` is called with: all numbers of
      exactly `digits` decimal digits. */
  predicate InDigitRange(n: nat, digits: nat) {
    digits >= 1 && Pow10(digits - 1) <= n < Pow10(digits)
  }

  lemma DigitRanges()
    ensures Pow10(3) == 1000 && Pow10(4) == 10000 && Pow10(5) == 100000 && Pow10(6) == 1000000
  {}

  /** `${prefix}${random(lo, hi)}`: the prefix, then exactly `digits` decimal
      digits that read back as the drawn number. */
  function MintId(prefix: string, n: nat, digits: nat): (id: Id)
    requires InDigitRange(n, digits)
    ensures |id| == |prefix| + digits
    ensures id[..|prefix|] == prefix
    ensures forall i :: |prefix| <= i < |id| ==> IsDigit(id[i])
    ensures DecimalValue(id[|prefix|..]) == n
  {
    NatToStringLength(n, digits);
    DecimalRoundTrip(n);
    var id := prefix + NatToString(n);
    assert id[|prefix|..] == NatToString(n);
    id
  }

  /** Different draws under one prefix give different identifiers. */
  lemma MintIdInjective(prefix: string, a: nat, b: nat, digits: nat)
    requires InDigitRange(a, digits) && InDigitRange(b, digits)
    requires MintId(prefix, a, digits) == MintId(prefix, b, digits)
    ensures a == b
  {}
}

=== FILE: docs.dfy ===
/** Documentation galleries (src/docs/docs.service.ts): a thumbnail-backed
    row with any number of image rows. The create uploads the thumbnail,
    inserts the row and then the images; the image batch inserts one row per
    file whether or not that file's upload completes; the update deletes the
    old thumbnail before uploading the new one. */
module Docs {
  import opened Common
  import opened Text
  import opened Constants
  import opened Listing
  import opened Blobs

  datatype Doc = Doc(
    id: Id,
    title: string,
    thumbnailKey: Key,
    thumbnailUrl: string,
    pillarId: Option<Id>,
    subPillarId: Option<Id>,
    createdBy: string,
    updatedBy: string)

  datatype DocImage = DocImage(id: Id, docId: Id, imageKey: Key, imageUrl: string)

  datatype State = State(docs: map<Id, Doc>, images: map<Id, DocImage>, blobs: set<Key>)

  const PageSize: nat := 9
  const IdDigits: nat := 6
  const ThumbnailFolder: string := "doc_thumbnails"
  const ImageFolder: string := "doc_images"

  /** Every thumbnail and every image file is in the bucket, and every image
      row belongs to a stored documentation. */
  predicate Consistent(s: State) {
    && (forall d :: d in s.docs ==> s.docs[d].thumbnailKey in s.blobs)
    && (forall i :: i in s.images ==> s.images[i].docId in s.docs && s.images[i].imageKey in s.blobs)
  }

  /** No file is shared between two rows. */
  predicate KeysExclusive(s: State) {
    && (forall d, e :: d in s.docs && e in s.docs && d != e ==> s.docs[d].thumbnailKey != s.docs[e].thumbnailKey)
    && (forall i, j :: i in s.images && j in s.images && i != j ==> s.images[i].imageKey != s.images[j].imageKey)
    && (forall d, i :: d in s.docs && i in s.images ==> s.docs[d].thumbnailKey != s.images[i].imageKey)
  }

  // ---------------------------------------------------------------------
  // listings

  /** The public where: the filter must occur in the slug of a present
      pillar or subpillar. There is no title clause and no `is_active`. */
  predicate PublicMatches(d: Doc, pillars: map<Id, Node>, subpillars: map<Id, Node>, filter: Option<string>) {
    RelationSlugContains(d.pillarId, pillars, filter) || RelationSlugContains(d.subPillarId, subpillars, filter)
  }

  function PublicWhere(pillars: map<Id, Node>, subpillars: map<Id, Node>, filter: Option<string>): Doc -> bool {
    (d: Doc) => PublicMatches(d, pillars, subpillars, filter)
  }

  datatype ImageRef = ImageRef(id: Id, imageUrl: string)

  datatype Item = Item(id: Id, title: string, thumbnailUrl: string, pillar: Option<Node>, subpillar: Option<Node>, images: set<ImageRef>)

  /** The `docimg` relation of one documentation: exactly its own images. */
  function ImagesOf(images: map<Id, DocImage>, docId: Id): (r: set<ImageRef>)
    ensures forall i :: i in images && images[i].docId == docId ==> ImageRef(i, images[i].imageUrl) in r
    ensures forall x :: x in r ==> x.id in images && images[x.id].docId == docId && x.imageUrl == images[x.id].imageUrl
  {
    set i | i in images && images[i].docId == docId :: ImageRef(i, images[i].imageUrl)
  }

  function Render(images: map<Id, DocImage>, pillars: map<Id, Node>, subpillars: map<Id, Node>): Doc -> Item {
    (d: Doc) => Item(d.id, d.title, d.thumbnailUrl, Resolve(d.pillarId, pillars), Resolve(d.subPillarId, subpillars), ImagesOf(images, d.id))
  }

  /** `rows` is the documentation table newest first. */
  function GetPublicDocs(rows: seq<Doc>, images: map<Id, DocImage>, pillars: map<Id, Node>, subpillars: map<Id, Node>, query: Query): (r: Result<Page<Item>>)
    ensures Listed(r, rows, PublicWhere(pillars, subpillars, query.filter), query, PageSize, Render(images, pillars, subpillars))
  {
    ListMap(rows, PublicWhere(pillars, subpillars, query.filter), query, PageSize, Render(images, pillars, subpillars))
  }

  /** Without a filter, a documentation is public exactly when it has a
      pillar or a subpillar. */
  lemma UnfilteredNeedsTaxonomy(d: Doc, pillars: map<Id, Node>, subpillars: map<Id, Node>)
    ensures PublicMatches(d, pillars, subpillars, None) <==> Resolve(d.pillarId, pillars).Some? || Resolve(d.subPillarId, subpillars).Some?
  {}

  /** The filter never looks at the title. */
  lemma TitleIrrelevant(d: Doc, title: string, pillars: map<Id, Node>, subpillars: map<Id, Node>, filter: Option<string>)
    ensures PublicMatches(d.(title := title), pillars, subpillars, filter) == PublicMatches(d, pillars, subpillars, filter)
  {}

  /** The admin listing counts and pages the whole table. */
  function GetDocs(rows: seq<Doc>, images: map<Id, DocImage>, pillars: map<Id, Node>, subpillars: map<Id, Node>, query: Query): (r: Result<Page<Item>>)
    ensures Paged(r, rows, query, PageSize, Render(images, pillars, subpillars))
  {
    PageMap(rows, query, PageSize, Render(images, pillars, subpillars))
  }

  // ---------------------------------------------------------------------
  // uploadDocImages

  datatype Mode = CreateDocs | CreateImages

  /** Per file: the `Date.now()` reading, the outcome of its upload (which is
      never awaited) and the id draw. */
  datatype ImageEnv = ImageEnv(now: nat, upload: UploadOutcome, draw: nat)

  predicate DrawsInRange(envs: seq<ImageEnv>) {
    forall i :: 0 <= i < |envs| ==> InDigitRange(envs[i].draw, IdDigits)
  }

  /** `${STORAGE_ENDPOINT}/${bucket}/${key}`, built without asking the store. */
  function ImageUrl(endpoint: string, key: Key): (u: string)
    ensures |u| >= |key| && u[|u| - |key|..] == key
  {
    var u := endpoint + "/" + Bucket + "/" + key;
    assert u[|u| - |key|..] == key;
    u
  }

  function ImageKey(file: File, env: ImageEnv): (k: Key)
    ensures IsPrefix(ImageFolder + "/", k)
  {
    ObjectKey(ImageFolder, env.now, file.name)
  }

  /** The rows of one batch, one per file, in file order. The id prefix is
      looked up under a name `PREFIX` does not have. */
  function ImageRows(docId: Id, files: seq<File>, envs: seq<ImageEnv>, endpoint: string): (rows: seq<DocImage>)
    requires |envs| == |files| && DrawsInRange(envs)
    ensures |rows| == |files|
    ensures forall i :: 0 <= i < |rows| ==>
      && rows[i].docId == docId
      && rows[i].imageKey == ImageKey(files[i], envs[i])
      && rows[i].imageUrl == ImageUrl(endpoint, rows[i].imageKey)
      && rows[i].id == MintId(PrefixText(DOCUMENTATIONIMAGE), envs[i].draw, IdDigits)
  {
    seq(|files|, i requires 0 <= i < |files| =>
      var key := ImageKey(files[i], envs[i]);
      DocImage(MintId(PrefixText(DOCUMENTATIONIMAGE), envs[i].draw, IdDigits), docId, key, ImageUrl(endpoint, key)))
  }

  /** Every image id starts with the text `undefined`. */
  lemma ImageIdsStartUndefined(docId: Id, files: seq<File>, envs: seq<ImageEnv>, endpoint: string, i: int)
    requires |envs| == |files| && DrawsInRange(envs) && 0 <= i < |files|
    ensures ImageRows(docId, files, envs, endpoint)[i].id[..9] == "undefined"
  {
  }

  const ImageId: DocImage -> Id := (d: DocImage) => d.id

  /** The uploads of a batch: each file that uploads is stored. */
  function UploadAll(blobs: set<Key>, files: seq<File>, envs: seq<ImageEnv>): (r: set<Key>)
    requires |envs| == |files|
    ensures blobs <= r
    ensures forall i :: 0 <= i < |files| && envs[i].upload.Uploaded? ==> ImageKey(files[i], envs[i]) in r
    ensures forall k :: k in r ==> k in blobs || exists i :: 0 <= i < |files| && envs[i].upload.Uploaded? && k == ImageKey(files[i], envs[i])
    decreases |files|
  {
    if |files| == 0 then blobs
    else
      var rest := UploadAll(Upload(blobs, ImageKey(files[0], envs[0]), envs[0].upload).state, files[1..], envs[1..]);
      assert forall i :: 1 <= i < |files| ==> files[i] == files[1..][i - 1] && envs[i] == envs[1..][i - 1];
      rest
  }

  /** uploadDocImages: in `create_images` mode an unknown documentation is
      NotFound; a missing file list throws while iterating it; then every
      upload is started and one row per file is inserted, whether or not its
      upload completes. */
  function UploadDocImages(s: State, files: Option<seq<File>>, docId: Id, mode: Mode, envs: seq<ImageEnv>, endpoint: string): (r: Reply<State, ()>)
    requires files.Some? ==> |envs| == |files.value|
    requires DrawsInRange(envs)
    ensures mode == CreateImages && docId !in s.docs ==> r == Reply(s, Err(NotFound))
    ensures (mode == CreateDocs || docId in s.docs) && files.None? ==> r == Reply(s, Err(TypeError))
    ensures r.state.docs == s.docs
    ensures r.result.Err? && r.result.error != DbFailure ==> r.state == s
    ensures r.result.Ok? ==> files.Some? && BatchFits(s.images, KeysOf(ImageRows(docId, files.value, envs, endpoint), ImageId))
    ensures r.result.Ok? ==> var rows := ImageRows(docId, files.value, envs, endpoint);
      && (forall i :: 0 <= i < |rows| ==> rows[i].id in r.state.images && r.state.images[rows[i].id] == rows[i])
      && (forall k :: k in s.images ==> k in r.state.images && r.state.images[k] == s.images[k])
      && (forall k :: k in r.state.images ==> k in s.images || exists i :: 0 <= i < |rows| && rows[i].id == k)
    ensures files.Some? && (mode == CreateDocs || docId in s.docs) ==> r.state.blobs == UploadAll(s.blobs, files.value, envs)
  {
    if mode == CreateImages && docId !in s.docs then Reply(s, Err(NotFound))
    else if files.None? then Reply(s, Err(TypeError))
    else
      var rows := ImageRows(docId, files.value, envs, endpoint);
      var blobs := UploadAll(s.blobs, files.value, envs);
      match InsertImages(s.images, rows)
      case None => Reply(s.(blobs := blobs), Err(DbFailure))
      case Some(images) => Reply(State(s.docs, images, blobs), Ok(()))
  }

  /** The `createMany` of the image rows, each keyed by its own id. */
  function InsertImages(images: map<Id, DocImage>, rows: seq<DocImage>): (r: Option<map<Id, DocImage>>)
    ensures r.None? <==> !BatchFits(images, KeysOf(rows, ImageId))
    ensures r.Some? ==>
      && (forall i :: 0 <= i < |rows| ==> rows[i].id in r.value && r.value[rows[i].id] == rows[i])
      && (forall k :: k in images ==> k in r.value && r.value[k] == images[k])
      && (forall k :: k in r.value ==> k in images || exists i :: 0 <= i < |rows| && rows[i].id == k)
  {
    var r := InsertBatch(images, rows, ImageId);
    assert forall i :: 0 <= i < |rows| ==> ImageId(rows[i]) == rows[i].id;
    r
  }

  /** A file whose upload does not complete still gets its row: the row
      points at a key the bucket does not hold. */
  lemma FailedImageUploadLeavesRow(s: State, files: seq<File>, docId: Id, envs: seq<ImageEnv>, endpoint: string, i: int)
    requires |envs| == |files| && DrawsInRange(envs) && docId in s.docs
    requires 0 <= i < |files| && envs[i].upload.UploadFailed?
    requires ImageKey(files[i], envs[i]) !in s.blobs
    requires forall j :: 0 <= j < |files| && j != i ==> ImageKey(files[j], envs[j]) != ImageKey(files[i], envs[i])
    requires UploadDocImages(s, Some(files), docId, CreateImages, envs, endpoint).result.Ok?
    ensures var t := UploadDocImages(s, Some(files), docId, CreateImages, envs, endpoint).state;
      var row := ImageRows(docId, files, envs, endpoint)[i];
      row.id in t.images && t.images[row.id] == row && row.imageKey !in t.blobs
  {}

  // ---------------------------------------------------------------------
  // createDoc

  datatype DocInput = DocInput(pillarId: Id, subPillarId: Id, title: string, actor: string)

  /** The thumbnail's `Date.now()` reading, its upload outcome and the id draw. */
  datatype Env = Env(now: nat, upload: UploadOutcome, draw: nat)

  function ThumbnailKey(file: File, env: Env): (k: Key)
    ensures IsPrefix(ThumbnailFolder + "/", k)
  {
    ObjectKey(ThumbnailFolder, env.now, file.name)
  }

  /** createDoc: the thumbnail is uploaded, the row inserted, and the images
      batch run in `create_docs` mode. No step compensates an earlier one:
      without `doc_images` the call throws after the row exists. */
  function CreateDoc(s: State, body: DocInput, thumbnail: Option<File>, docImages: Option<seq<File>>, env: Env, envs: seq<ImageEnv>, endpoint: string): (r: Reply<State, Id>)
    requires InDigitRange(env.draw, IdDigits) && DrawsInRange(envs)
    requires docImages.Some? ==> |envs| == |docImages.value|
    ensures thumbnail.None? ==> r == Reply(s, Err(TypeError))
    ensures thumbnail.Some? && env.upload.UploadFailed? ==> r == Reply(s, Err(StoreFailure))
    ensures r.result.Ok? ==> r.result.value == MintId(PrefixText(DOCUMENTATION), env.draw, IdDigits)
    ensures r.result.Ok? ==> r.result.value !in s.docs && r.result.value in r.state.docs
    ensures r.result.Ok? ==> var d := r.state.docs[r.result.value];
      d.thumbnailKey == ThumbnailKey(thumbnail.value, env) && d.thumbnailKey in r.state.blobs
      && d.pillarId == Some(body.pillarId) && d.subPillarId == Some(body.subPillarId)
    ensures r.result.Ok? ==> docImages.Some?
    ensures r.result.Ok? ==> forall i :: 0 <= i < |docImages.value| ==>
      var row := ImageRows(r.result.value, docImages.value, envs, endpoint)[i];
      row.id in r.state.images && r.state.images[row.id] == row
    ensures r.result.Ok? ==> forall k :: k in s.images ==> k in r.state.images && r.state.images[k] == s.images[k]
    ensures r.result.Ok? ==> var rows := ImageRows(r.result.value, docImages.value, envs, endpoint);
      forall k :: k in r.state.images ==> k in s.images || exists i :: 0 <= i < |rows| && rows[i].id == k
    ensures (thumbnail.Some? && env.upload.Uploaded? && docImages.None?
             && MintId(PrefixText(DOCUMENTATION), env.draw, IdDigits) !in s.docs)
        ==> r.result == Err(TypeError) && MintId(PrefixText(DOCUMENTATION), env.draw, IdDigits) in r.state.docs
  {
    if thumbnail.None? then Reply(s, Err(TypeError))
    else
      var key := ThumbnailKey(thumbnail.value, env);
      var id := MintId(PrefixText(DOCUMENTATION), env.draw, IdDigits);
      var up := Upload(s.blobs, key, env.upload);
      if up.result.Err? then Reply(s, Err(StoreFailure))
      else if id in s.docs then Reply(s.(blobs := up.state), Err(DbFailure))
      else
        var d := Doc(id, body.title, key, up.result.value, Some(body.pillarId), Some(body.subPillarId), body.actor, body.actor);
        var t := State(s.docs[id := d], s.images, up.state);
        var batch := UploadDocImages(t, docImages, id, CreateDocs, envs, endpoint);
        match batch.result
        case Ok(_) => Reply(batch.state, Ok(id))
        case Err(e) => Reply(batch.state, Err(e))
  }

  /** When a batch of new rows for documentation `id` is added to an image
      table whose rows all belong to other, stored documentations, the
      relation of `id` is exactly the new batch. */
  lemma FreshDocImages(before: map<Id, DocImage>, after: map<Id, DocImage>, docs: map<Id, Doc>, id: Id, rows: seq<DocImage>)
    requires forall k :: k in before ==> before[k].docId in docs
    requires id !in docs
    requires forall i :: 0 <= i < |rows| ==> rows[i].docId == id && rows[i].id in after && after[rows[i].id] == rows[i]
    requires forall k :: k in before ==> k in after && after[k] == before[k]
    requires forall k :: k in after ==> k in before || exists i :: 0 <= i < |rows| && rows[i].id == k
    ensures ImagesOf(after, id) == set i | 0 <= i < |rows| :: ImageRef(rows[i].id, rows[i].imageUrl)
  {
    var want := set i | 0 <= i < |rows| :: ImageRef(rows[i].id, rows[i].imageUrl);
    forall x | x in ImagesOf(after, id) ensures x in want {
      if x.id !in before {
        var i :| 0 <= i < |rows| && rows[i].id == x.id;
        assert x == ImageRef(rows[i].id, rows[i].imageUrl);
      }
    }
    forall x | x in want ensures x in ImagesOf(after, id) {
      var i :| 0 <= i < |rows| && x == ImageRef(rows[i].id, rows[i].imageUrl);
      assert after[rows[i].id] == rows[i];
    }
  }

  /** Create, then read: a created documentation renders exactly the images
      submitted with it, since no earlier image row can name the fresh id. */
  lemma CreateDocThenImages(s: State, body: DocInput, thumbnail: Option<File>, docImages: Option<seq<File>>, env: Env, envs: seq<ImageEnv>, endpoint: string)
    requires InDigitRange(env.draw, IdDigits) && DrawsInRange(envs)
    requires docImages.Some? ==> |envs| == |docImages.value|
    requires Consistent(s)
    requires CreateDoc(s, body, thumbnail, docImages, env, envs, endpoint).result.Ok?
    ensures var r := CreateDoc(s, body, thumbnail, docImages, env, envs, endpoint);
      var rows := ImageRows(r.result.value, docImages.value, envs, endpoint);
      ImagesOf(r.state.images, r.result.value) == set i | 0 <= i < |rows| :: ImageRef(rows[i].id, rows[i].imageUrl)
  {
    var r := CreateDoc(s, body, thumbnail, docImages, env, envs, endpoint);
    FreshDocImages(s.images, r.state.images, s.docs, r.result.value, ImageRows(r.result.value, docImages.value, envs, endpoint));
  }

  // ---------------------------------------------------------------------
  // updateDoc

  datatype DocUpdate = DocUpdate(id: Id, pillarId: Option<Id>, subPillarId: Option<Id>, title: Option<string>, actor: string)

  function Patched(d: Doc, body: DocUpdate): (w: Doc)
    ensures w.id == d.id && w.thumbnailKey == d.thumbnailKey && w.thumbnailUrl == d.thumbnailUrl
    ensures w.title == Keep(body.title, d.title) && w.updatedBy == body.actor && w.createdBy == d.createdBy
    ensures w.pillarId == (if body.pillarId.Some? then body.pillarId else d.pillarId)
    ensures w.subPillarId == (if body.subPillarId.Some? then body.subPillarId else d.subPillarId)
  {
    d.(title := Keep(body.title, d.title),
       pillarId := if body.pillarId.Some? then body.pillarId else d.pillarId,
       subPillarId := if body.subPillarId.Some? then body.subPillarId else d.subPillarId,
       updatedBy := body.actor)
  }

  /** updateDoc: with a file, the old thumbnail is deleted before the new
      one is uploaded, so a failed upload leaves the row pointing at a
      deleted key, while a rejected delete stops before anything changes.
      Without a file the thumbnail columns and the bucket are untouched.
      `rejects` holds the keys whose delete rejects. */
  function UpdateDoc(s: State, body: DocUpdate, file: Option<File>, env: Env, rejects: set<Key>): (r: Reply<State, Id>)
    ensures body.id !in s.docs ==> r == Reply(s, Err(NotFound))
    ensures body.id in s.docs && file.None? ==> r == Reply(s.(docs := s.docs[body.id := Patched(s.docs[body.id], body)]), Ok(body.id))
    ensures body.id in s.docs && file.Some? && s.docs[body.id].thumbnailKey in rejects ==> r == Reply(s, Err(StoreFailure))
    ensures body.id in s.docs && file.Some? && s.docs[body.id].thumbnailKey !in rejects
      ==> s.docs[body.id].thumbnailKey !in r.state.blobs || s.docs[body.id].thumbnailKey == ThumbnailKey(file.value, env)
    ensures body.id in s.docs && file.Some? && s.docs[body.id].thumbnailKey !in rejects && env.upload.UploadFailed? ==>
      r == Reply(s.(blobs := s.blobs - {s.docs[body.id].thumbnailKey}), Err(StoreFailure))
    ensures body.id in s.docs && file.Some? && s.docs[body.id].thumbnailKey !in rejects && env.upload.Uploaded? ==>
      var key := ThumbnailKey(file.value, env);
      && r.result == Ok(body.id)
      && r.state.blobs == (s.blobs - {s.docs[body.id].thumbnailKey}) + {key}
      && r.state.docs == s.docs[body.id := Patched(s.docs[body.id], body).(thumbnailKey := key, thumbnailUrl := env.upload.url)]
    ensures r.state.images == s.images
  {
    if body.id !in s.docs then Reply(s, Err(NotFound))
    else
      var prev := s.docs[body.id];
      if file.None? then Reply(s.(docs := s.docs[body.id := Patched(prev, body)]), Ok(body.id))
      else
        var cleared := TryDelete(s.blobs, prev.thumbnailKey, rejects);
        if cleared.result.Err? then Reply(s, Err(StoreFailure))
        else
          var key := ThumbnailKey(file.value, env);
          var up := Upload(cleared.state, key, env.upload);
          if up.result.Err? then Reply(s.(blobs := up.state), Err(StoreFailure))
          else Reply(s.(docs := s.docs[body.id := Patched(prev, body).(thumbnailKey := key, thumbnailUrl := up.result.value)], blobs := up.state), Ok(body.id))
  }

  /** Under the delete-first order a failed upload breaks consistency: the
      documentation survives but its thumbnail is gone. */
  lemma UpdateDocFailedUploadDangles(s: State, body: DocUpdate, file: File, env: Env, rejects: set<Key>)
    requires body.id in s.docs && env.upload.UploadFailed? && s.docs[body.id].thumbnailKey !in rejects
    ensures UpdateDoc(s, body, Some(file), env, rejects).result == Err(StoreFailure)
    ensures body.id in UpdateDoc(s, body, Some(file), env, rejects).state.docs
    ensures UpdateDoc(s, body, Some(file), env, rejects).state.docs[body.id].thumbnailKey !in UpdateDoc(s, body, Some(file), env, rejects).state.blobs
    ensures !Consistent(UpdateDoc(s, body, Some(file), env, rejects).state)
  {}

  // ---------------------------------------------------------------------
  // deleteDoc, deleteDocImage

  function ImageKeysOf(images: map<Id, DocImage>, docId: Id): (r: set<Key>)
    ensures forall i :: i in images && images[i].docId == docId ==> images[i].imageKey in r
    ensures forall k :: k in r ==> exists i :: i in images && images[i].docId == docId && images[i].imageKey == k
  {
    set i | i in images && images[i].docId == docId :: images[i].imageKey
  }

  /** Every file of a documentation: its thumbnail and its images. */
  function DocFiles(s: State, id: Id): (r: set<Key>)
    requires id in s.docs
    ensures s.docs[id].thumbnailKey in r
    ensures forall k :: k in r ==> k == s.docs[id].thumbnailKey || k in ImageKeysOf(s.images, id)
    ensures ImageKeysOf(s.images, id) <= r
  {
    {s.docs[id].thumbnailKey} + ImageKeysOf(s.images, id)
  }

  /** deleteDoc: the deletes of the thumbnail and of every image file run
      together (`Promise.all`); only when all of them resolve does the row go
      with its image rows. If one rejects, the rows stay while the files
      whose delete resolved are gone. */
  function DeleteDoc(s: State, id: Id, rejects: set<Key>): (r: Reply<State, Id>)
    ensures id !in s.docs ==> r == Reply(s, Err(NotFound))
    ensures id in s.docs ==> (r.result.Ok? <==> DocFiles(s, id) * rejects == {})
    ensures id in s.docs && r.result.Err?
      ==> && r.result == Err(StoreFailure)
          && r.state.docs == s.docs && r.state.images == s.images
          && (forall k :: k in DocFiles(s, id) && k !in rejects ==> k !in r.state.blobs)
    ensures id in s.docs && r.result.Ok?
      ==> && r.result == Ok(id) && r.state.docs == s.docs - {id}
          && s.docs[id].thumbnailKey !in r.state.blobs
          && (forall i :: i in s.images && s.images[i].docId == id ==> i !in r.state.images && s.images[i].imageKey !in r.state.blobs)
          && (forall i :: i in s.images && s.images[i].docId != id ==> i in r.state.images && r.state.images[i] == s.images[i])
    ensures id in s.docs ==> forall k :: k in s.blobs && (k !in DocFiles(s, id) || k in rejects) ==> k in r.state.blobs
    ensures r.state.blobs <= s.blobs && r.state.images.Keys <= s.images.Keys
  {
    if id !in s.docs then Reply(s, Err(NotFound))
    else
      var cleared := TryDeleteAll(s.blobs, DocFiles(s, id), rejects);
      if cleared.result.Err? then Reply(s.(blobs := cleared.state), Err(StoreFailure))
      else
        assert forall i :: i in s.images && s.images[i].docId == id ==> s.images[i].imageKey in DocFiles(s, id);
        assert forall k :: k in DocFiles(s, id) ==> k !in DocFiles(s, id) * rejects;
        Reply(State(s.docs - {id}, OtherImages(s.images, id), cleared.state), Ok(id))
  }

  /** The image rows that do not belong to documentation `docId`. */
  function OtherImages(images: map<Id, DocImage>, docId: Id): (r: map<Id, DocImage>)
    ensures forall i :: i in images && images[i].docId != docId ==> i in r && r[i] == images[i]
    ensures forall i :: i in r ==> i in images && images[i].docId != docId
  {
    map i | i in images && images[i].docId != docId :: images[i]
  }

  /** Under exclusive keys, the files of the other rows are not among the
      files of documentation `id`. */
  lemma OthersFilesOutside(s: State, id: Id)
    requires KeysExclusive(s) && id in s.docs
    ensures forall d :: d in s.docs && d != id ==> s.docs[d].thumbnailKey !in DocFiles(s, id)
    ensures forall i :: i in s.images && s.images[i].docId != id ==> s.images[i].imageKey !in DocFiles(s, id)
  {
    forall d | d in s.docs && d != id ensures s.docs[d].thumbnailKey !in DocFiles(s, id) {
      assert s.docs[d].thumbnailKey != s.docs[id].thumbnailKey;
      assert s.docs[d].thumbnailKey !in ImageKeysOf(s.images, id);
    }
    forall i | i in s.images && s.images[i].docId != id ensures s.images[i].imageKey !in DocFiles(s, id) {
      assert s.images[i].imageKey != s.docs[id].thumbnailKey;
      assert s.images[i].imageKey !in ImageKeysOf(s.images, id);
    }
  }

  /** A delete that ends in `Ok` or `NotFound` keeps the invariants. */
  lemma DeleteDocPreservesConsistency(s: State, id: Id, rejects: set<Key>)
    requires Consistent(s) && KeysExclusive(s)
    ensures DeleteDoc(s, id, rejects).result != Err(StoreFailure) ==> Consistent(DeleteDoc(s, id, rejects).state)
    ensures KeysExclusive(DeleteDoc(s, id, rejects).state)
  {
    var r := DeleteDoc(s, id, rejects);
    if id in s.docs && r.result.Ok? {
      OthersFilesOutside(s, id);
    } else {
      assert r.state.docs == s.docs && r.state.images == s.images;
    }
  }

  /** The deletes of one documentation are not atomic: when one image's
      delete rejects, the row survives but its thumbnail is already gone. */
  lemma DeleteDocRejectedLeavesDangling(s: State, id: Id, i: Id)
    requires Consistent(s) && KeysExclusive(s)
    requires id in s.docs && i in s.images && s.images[i].docId == id
    ensures DeleteDoc(s, id, {s.images[i].imageKey}).result == Err(StoreFailure)
    ensures !Consistent(DeleteDoc(s, id, {s.images[i].imageKey}).state)
  {
    assert s.images[i].imageKey in DocFiles(s, id) * {s.images[i].imageKey};
    var t := DeleteDoc(s, id, {s.images[i].imageKey}).state;
    assert id in t.docs && t.docs[id].thumbnailKey !in t.blobs;
  }

  /** deleteDocImage: that image's file, then that image's row, and nothing
      else; a rejected delete changes nothing. */
  function DeleteDocImage(s: State, imageId: Id, rejects: set<Key>): (r: Reply<State, Id>)
    ensures imageId !in s.images ==> r == Reply(s, Err(NotFound))
    ensures imageId in s.images && s.images[imageId].imageKey in rejects ==> r == Reply(s, Err(StoreFailure))
    ensures imageId in s.images && s.images[imageId].imageKey !in rejects
      ==> r == Reply(State(s.docs, s.images - {imageId}, s.blobs - {s.images[imageId].imageKey}), Ok(imageId))
  {
    if imageId !in s.images then Reply(s, Err(NotFound))
    else
      var cleared := TryDelete(s.blobs, s.images[imageId].imageKey, rejects);
      if cleared.result.Err? then Reply(s, Err(StoreFailure))
      else Reply(State(s.docs, s.images - {imageId}, cleared.state), Ok(imageId))
  }

  lemma DeleteDocImagePreservesConsistency(s: State, imageId: Id, rejects: set<Key>)
    requires Consistent(s) && KeysExclusive(s)
    ensures Consistent(DeleteDocImage(s, imageId, rejects).state) && KeysExclusive(DeleteDocImage(s, imageId, rejects).state)
  {
    if imageId in s.images && s.images[imageId].imageKey !in rejects {
      var t := DeleteDocImage(s, imageId, rejects).state;
      forall d | d in t.docs ensures t.docs[d].thumbnailKey in t.blobs {
        assert s.docs[d].thumbnailKey != s.images[imageId].imageKey;
      }
      forall i | i in t.images ensures t.images[i].imageKey in t.blobs {
        assert s.images[i].imageKey != s.images[imageId].imageKey;
      }
    }
  }
}

=== FILE: image_records.dfy ===
/** The record shape partners and banners share: one image in the bucket, an
    alt text, an optional description and (banners only) an optional link.
    Create uploads the image and then inserts the row under a freshly drawn
    id; update with a file deletes the old image only if the bucket still has
    it (`checkFile`), uploads the new one and rewrites the row; delete removes
    the image if present and then the row. Nothing is wrapped in a
    try/catch, so every failure leaves the effects before it in place. */
module ImageRecords {
  import opened Common
  import opened Text
  import opened Constants
  import opened Listing
  import opened Blobs

  datatype Record = Record(
    id: Id,
    alt: string,
    description: Option<string>,
    link: Option<string>,
    imageKey: Key,
    imageUrl: string,
    createdBy: string,
    updatedBy: string)

  datatype State = State(rows: map<Id, Record>, blobs: set<Key>)

  /** Which table: the folder its images go to and the prefix of its ids. */
  datatype Config = Config(folder: string, prefix: string)

  const PageSize: nat := 5
  const IdDigits: nat := 5

  /** Every row is stored under its own id and its image is in the bucket. */
  predicate Consistent(s: State) {
    forall k :: k in s.rows ==> s.rows[k].id == k && s.rows[k].imageKey in s.blobs
  }

  /** No image is shared between two rows. */
  predicate KeysExclusive(s: State) {
    forall a, b :: a in s.rows && b in s.rows && a != b ==> s.rows[a].imageKey != s.rows[b].imageKey
  }

  // ---------------------------------------------------------------------
  // reads

  /** The columns the listings and the detail select. */
  datatype View = View(id: Id, alt: string, description: Option<string>, link: Option<string>, imageUrl: string)

  function ViewOf(x: Record): View {
    View(x.id, x.alt, x.description, x.link, x.imageUrl)
  }

  /** Every row's view, in table order. */
  function Views(rows: seq<Record>): (r: seq<View>)
    ensures |r| == |rows| && forall i :: 0 <= i < |rows| ==> r[i] == ViewOf(rows[i])
  {
    seq(|rows|, i requires 0 <= i < |rows| => ViewOf(rows[i]))
  }

  /** The admin listing: every row counts, five a page, `rows` newest first. */
  function GetRecords(rows: seq<Record>, query: Query): (r: Result<Page<View>>)
    ensures Paged(r, rows, query, PageSize, ViewOf)
  {
    PageMap(rows, query, PageSize, ViewOf)
  }

  /** `findUnique`: the row's view, or null. */
  function GetRecord(s: State, id: Id): (r: Option<View>)
    ensures r.Some? <==> id in s.rows
    ensures r.Some? ==> (r.value.id == s.rows[id].id && r.value.alt == s.rows[id].alt
      && r.value.description == s.rows[id].description && r.value.link == s.rows[id].link
      && r.value.imageUrl == s.rows[id].imageUrl)
  {
    if id in s.rows then Some(ViewOf(s.rows[id])) else None
  }

  // ---------------------------------------------------------------------
  // create

  datatype Input = Input(alt: string, description: Option<string>, link: Option<string>, actor: string)

  /** The clock, the upload's outcome and the id draw of one call. */
  datatype Env = Env(now: nat, upload: UploadOutcome, draw: nat)

  function ImageKey(cfg: Config, file: File, now: nat): (k: Key)
    ensures IsPrefix(cfg.folder + "/", k)
  {
    ObjectKey(cfg.folder, now, file.name)
  }

  function NewId(cfg: Config, draw: nat): (id: Id)
    requires InDigitRange(draw, IdDigits)
    ensures |id| == |cfg.prefix| + IdDigits && id[..|cfg.prefix|] == cfg.prefix
  {
    MintId(cfg.prefix, draw, IdDigits)
  }

  /** Upload first, then insert. A rejected upload changes nothing; a taken
      id rejects the insert and leaves the uploaded image behind. */
  function Create(s: State, cfg: Config, body: Input, file: File, env: Env): (r: Reply<State, Id>)
    requires InDigitRange(env.draw, IdDigits)
    ensures env.upload.UploadFailed? ==> r == Reply(s, Err(StoreFailure))
    ensures env.upload.Uploaded? && NewId(cfg, env.draw) in s.rows ==>
      r == Reply(s.(blobs := s.blobs + {ImageKey(cfg, file, env.now)}), Err(DbFailure))
    ensures r.result.Ok? <==> env.upload.Uploaded? && NewId(cfg, env.draw) !in s.rows
    ensures r.result.Ok? ==> var id := r.result.value;
      && id == NewId(cfg, env.draw)
      && r.state.blobs == s.blobs + {ImageKey(cfg, file, env.now)}
      && r.state.rows == s.rows[id := Record(id, body.alt, body.description, body.link,
                                             ImageKey(cfg, file, env.now), env.upload.url, body.actor, body.actor)]
  {
    var key := ImageKey(cfg, file, env.now);
    var up := Upload(s.blobs, key, env.upload);
    if up.result.Err? then Reply(s, Err(StoreFailure))
    else
      var id := NewId(cfg, env.draw);
      if id in s.rows then Reply(s.(blobs := up.state), Err(DbFailure))
      else
        var x := Record(id, body.alt, body.description, body.link, key, up.result.value, body.actor, body.actor);
        Reply(State(s.rows[id := x], up.state), Ok(id))
  }

  /** A created row reads back with what was submitted. */
  lemma CreateThenGet(s: State, cfg: Config, body: Input, file: File, env: Env)
    requires InDigitRange(env.draw, IdDigits)
    requires Create(s, cfg, body, file, env).result.Ok?
    ensures var r := Create(s, cfg, body, file, env);
      GetRecord(r.state, r.result.value) == Some(View(r.result.value, body.alt, body.description, body.link, env.upload.url))
  {}

  /** A create whose image key is new to the bucket keeps both invariants. */
  lemma CreatePreservesInvariants(s: State, cfg: Config, body: Input, file: File, env: Env)
    requires InDigitRange(env.draw, IdDigits)
    requires Consistent(s) && KeysExclusive(s)
    requires ImageKey(cfg, file, env.now) !in s.blobs
    ensures Consistent(Create(s, cfg, body, file, env).state)
    ensures KeysExclusive(Create(s, cfg, body, file, env).state)
  {}

  // ---------------------------------------------------------------------
  // update

  /** Absent fields leave their columns as they were. */
  datatype Patch = Patch(id: Id, alt: Option<string>, description: Option<string>, link: Option<string>, actor: string)

  datatype UpdateEnv = UpdateEnv(now: nat, upload: UploadOutcome)

  function Patched(x: Record, body: Patch): (w: Record)
    ensures w.id == x.id && w.imageKey == x.imageKey && w.imageUrl == x.imageUrl && w.createdBy == x.createdBy
    ensures w.alt == Keep(body.alt, x.alt) && w.updatedBy == body.actor
    ensures w.description == (if body.description.Some? then body.description else x.description)
    ensures w.link == (if body.link.Some? then body.link else x.link)
  {
    x.(alt := Keep(body.alt, x.alt),
       description := if body.description.Some? then body.description else x.description,
       link := if body.link.Some? then body.link else x.link,
       updatedBy := body.actor)
  }

  /** The existence check finds row `id`'s image in the bucket and the
      delete that follows rejects. */
  predicate DeleteRejected(s: State, id: Id, rejects: set<Key>)
    requires id in s.rows
  {
    s.rows[id].imageKey in s.blobs && s.rows[id].imageKey in rejects
  }

  /** Without a file only the text columns change. With a file the old image
      is removed (if still there) before the new one is uploaded, so a
      rejected upload leaves the row pointing at a deleted image, while a
      rejected delete stops before anything changes. `rejects` holds the
      keys whose delete rejects. */
  function Update(s: State, cfg: Config, body: Patch, file: Option<File>, env: UpdateEnv, rejects: set<Key>): (r: Reply<State, Id>)
    ensures body.id !in s.rows ==> r == Reply(s, Err(NotFound))
    ensures body.id in s.rows && file.None? ==>
      r == Reply(s.(rows := s.rows[body.id := Patched(s.rows[body.id], body)]), Ok(body.id))
    ensures body.id in s.rows && file.Some? && DeleteRejected(s, body.id, rejects) ==> r == Reply(s, Err(StoreFailure))
    ensures body.id in s.rows && file.Some? && !DeleteRejected(s, body.id, rejects) && env.upload.UploadFailed? ==>
      r == Reply(s.(blobs := s.blobs - {s.rows[body.id].imageKey}), Err(StoreFailure))
    ensures body.id in s.rows && file.Some? && !DeleteRejected(s, body.id, rejects) && env.upload.Uploaded? ==>
      var key := ImageKey(cfg, file.value, env.now);
      && r.result == Ok(body.id)
      && r.state.blobs == (s.blobs - {s.rows[body.id].imageKey}) + {key}
      && r.state.rows == s.rows[body.id := Patched(s.rows[body.id], body).(imageKey := key, imageUrl := env.upload.url)]
  {
    if body.id !in s.rows then Reply(s, Err(NotFound))
    else
      var x := s.rows[body.id];
      match file
      case None => Reply(s.(rows := s.rows[body.id := Patched(x, body)]), Ok(body.id))
      case Some(f) =>
        var cleared := CheckedDelete(s.blobs, x.imageKey, rejects);
        if cleared.result.Err? then Reply(s, Err(StoreFailure))
        else
          var key := ImageKey(cfg, f, env.now);
          var up := Upload(cleared.state, key, env.upload);
          if up.result.Err? then Reply(s.(blobs := cleared.state), Err(StoreFailure))
          else
            var w := Patched(x, body).(imageKey := key, imageUrl := up.result.value);
            Reply(State(s.rows[body.id := w], up.state), Ok(body.id))
  }

  /** After an update the row shows the patched fields and, when a file was
      uploaded, the new URL; nothing else in the table changes. */
  lemma UpdateThenGet(s: State, cfg: Config, body: Patch, file: Option<File>, env: UpdateEnv, rejects: set<Key>)
    requires Consistent(s)
    requires Update(s, cfg, body, file, env, rejects).result.Ok?
    ensures var t := Update(s, cfg, body, file, env, rejects).state;
      && body.id in s.rows && body.id in t.rows
      && GetRecord(t, body.id) == Some(View(body.id, Keep(body.alt, s.rows[body.id].alt),
           if body.description.Some? then body.description else s.rows[body.id].description,
           if body.link.Some? then body.link else s.rows[body.id].link,
           if file.Some? then env.upload.url else s.rows[body.id].imageUrl))
      && forall k :: k in s.rows && k != body.id ==> k in t.rows && t.rows[k] == s.rows[k]
  {
    var x := s.rows[body.id];
    var t := Update(s, cfg, body, file, env, rejects).state;
    if file.Some? {
      assert env.upload.Uploaded?;
      assert t.rows[body.id] == Patched(x, body).(imageKey := ImageKey(cfg, file.value, env.now), imageUrl := env.upload.url);
    } else {
      assert t.rows[body.id] == Patched(x, body);
    }
    assert GetRecord(t, body.id) == Some(ViewOf(t.rows[body.id]));
  }

  /** A successful update keeps both invariants when the new key is new to the bucket. */
  lemma UpdatePreservesInvariants(s: State, cfg: Config, body: Patch, file: Option<File>, env: UpdateEnv, rejects: set<Key>)
    requires Consistent(s) && KeysExclusive(s)
    requires file.Some? ==> ImageKey(cfg, file.value, env.now) !in s.blobs
    requires Update(s, cfg, body, file, env, rejects).result.Ok?
    ensures Consistent(Update(s, cfg, body, file, env, rejects).state)
    ensures KeysExclusive(Update(s, cfg, body, file, env, rejects).state)
  {
    var t := Update(s, cfg, body, file, env, rejects).state;
    if file.Some? {
      var key := ImageKey(cfg, file.value, env.now);
      forall k | k in t.rows ensures t.rows[k].id == k && t.rows[k].imageKey in t.blobs {
        if k != body.id {
          assert s.rows[k].imageKey != s.rows[body.id].imageKey;
        }
      }
    }
  }

  /** A rejected upload during an update leaves the row naming an image the
      bucket no longer holds. */
  lemma FailedUploadDangles(s: State, cfg: Config, body: Patch, file: Option<File>, env: UpdateEnv, rejects: set<Key>)
    requires Consistent(s) && body.id in s.rows && file.Some? && env.upload.UploadFailed?
    requires s.rows[body.id].imageKey !in rejects
    ensures var t := Update(s, cfg, body, file, env, rejects).state;
      body.id in t.rows && t.rows[body.id].imageKey !in t.blobs && !Consistent(t)
  {}

  // ---------------------------------------------------------------------
  // delete

  /** The image (if still there) goes first, then the row; a rejected
      delete changes nothing. */
  function Delete(s: State, id: Id, rejects: set<Key>): (r: Reply<State, Id>)
    ensures id !in s.rows ==> r == Reply(s, Err(NotFound))
    ensures id in s.rows && DeleteRejected(s, id, rejects) ==> r == Reply(s, Err(StoreFailure))
    ensures id in s.rows && !DeleteRejected(s, id, rejects) ==> (r.result == Ok(id)
      && r.state.rows == s.rows - {id}
      && r.state.blobs == s.blobs - {s.rows[id].imageKey})
  {
    if id !in s.rows then Reply(s, Err(NotFound))
    else
      var cleared := CheckedDelete(s.blobs, s.rows[id].imageKey, rejects);
      if cleared.result.Err? then Reply(s, Err(StoreFailure))
      else Reply(State(s.rows - {id}, cleared.state), Ok(id))
  }

  /** After a completed delete the row is gone, and with exclusive keys the
      other rows' images survive; a rejected one leaves the store as it was. */
  lemma DeletePreservesInvariants(s: State, id: Id, rejects: set<Key>)
    requires Consistent(s) && KeysExclusive(s)
    ensures Delete(s, id, rejects).result.Err? ==> Delete(s, id, rejects).state == s
    ensures Delete(s, id, rejects).result != Err(StoreFailure) ==> GetRecord(Delete(s, id, rejects).state, id).None?
    ensures Consistent(Delete(s, id, rejects).state) && KeysExclusive(Delete(s, id, rejects).state)
  {
    var t := Delete(s, id, rejects).state;
    if id in s.rows && !DeleteRejected(s, id, rejects) {
      forall k | k in t.rows ensures t.rows[k].id == k && t.rows[k].imageKey in t.blobs {
        assert s.rows[k].imageKey != s.rows[id].imageKey;
      }
    }
  }
}

=== FILE: keys.dfy ===
/** Access keys (src/keys/keys.service.ts): values are stored encrypted and
    listed decrypted; creating and deleting need the shared access key,
    which is compared before the store is consulted. The cipher is a pair
    of parameters standing for AES under the configured secret. */
module Keys {
  import opened Common
  import opened Constants

  datatype AccessKey = AccessKey(id: Id, value: string, createdBy: string, updatedBy: string)

  datatype State = State(keys: map<Id, AccessKey>)

  const IdDigits: nat := 4

  /** Decryption undoes encryption. */
  ghost predicate Inverse(encrypt: string -> string, decrypt: string -> string) {
    forall p :: decrypt(encrypt(p)) == p
  }

  datatype Listed = Listed(id: Id, value: string, createdBy: string)

  /** getKeys: every stored key, newest first, its value decrypted. */
  function GetKeys(rows: seq<AccessKey>, decrypt: string -> string): (r: seq<Listed>)
    ensures |r| == |rows|
    ensures forall i :: 0 <= i < |r| ==> r[i].id == rows[i].id && r[i].value == decrypt(rows[i].value)
  {
    seq(|rows|, i requires 0 <= i < |rows| => Listed(rows[i].id, decrypt(rows[i].value), rows[i].createdBy))
  }

  datatype KeyInput = KeyInput(accessKey: string, value: string, actor: string)

  /** createKey: Forbidden unless the access key matches; the value is
      stored encrypted under `JPSKEY` and a four-digit draw. */
  function CreateKey(s: State, body: KeyInput, configured: string, encrypt: string -> string, draw: nat): (r: Reply<State, Id>)
    requires InDigitRange(draw, IdDigits)
    ensures body.accessKey != configured ==> r == Reply(s, Err(Forbidden))
    ensures r.result.Ok? <==> body.accessKey == configured && MintId(PrefixText(KEY), draw, IdDigits) !in s.keys
    ensures r.result.Err? ==> r.state == s
    ensures r.result.Ok? ==> var id := r.result.value;
      && |id| == 10 && id[..6] == "JPSKEY"
      && r.state.keys == s.keys[id := AccessKey(id, encrypt(body.value), body.actor, body.actor)]
  {
    if body.accessKey != configured then Reply(s, Err(Forbidden))
    else
      var id := MintId(PrefixText(KEY), draw, IdDigits);
      if id in s.keys then Reply(s, Err(DbFailure))
      else Reply(State(s.keys[id := AccessKey(id, encrypt(body.value), body.actor, body.actor)]), Ok(id))
  }

  /** With an inverse cipher a created key is listed with its plaintext. */
  lemma CreatedKeyReadsBack(s: State, body: KeyInput, configured: string, encrypt: string -> string, decrypt: string -> string, draw: nat, rows: seq<AccessKey>, i: int)
    requires InDigitRange(draw, IdDigits) && Inverse(encrypt, decrypt)
    requires CreateKey(s, body, configured, encrypt, draw).result.Ok?
    requires 0 <= i < |rows| && rows[i] == CreateKey(s, body, configured, encrypt, draw).state.keys[CreateKey(s, body, configured, encrypt, draw).result.value]
    ensures GetKeys(rows, decrypt)[i].value == body.value
  {}

  /** deleteKey: Forbidden, then NotFound, then the delete. */
  function DeleteKey(s: State, id: Id, accessKey: string, configured: string): (r: Reply<State, Id>)
    ensures accessKey != configured ==> r == Reply(s, Err(Forbidden))
    ensures accessKey == configured && id !in s.keys ==> r == Reply(s, Err(NotFound))
    ensures accessKey == configured && id in s.keys ==> r == Reply(State(s.keys - {id}), Ok(id))
  {
    if accessKey != configured then Reply(s, Err(Forbidden))
    else if id !in s.keys then Reply(s, Err(NotFound))
    else Reply(State(s.keys - {id}), Ok(id))
  }

  /** With a wrong access key the answer is the same whatever the table
      holds and whichever id is asked for, so it reveals nothing about
      which ids exist. */
  lemma WrongKeyRevealsNothing(s1: State, s2: State, id1: Id, id2: Id, accessKey: string, configured: string)
    requires accessKey != configured
    ensures DeleteKey(s1, id1, accessKey, configured).result == DeleteKey(s2, id2, accessKey, configured).result
    ensures DeleteKey(s1, id1, accessKey, configured).state == s1
  {}
}

=== FILE: listing.dfy ===
/** The listing engine every `get…` service method repeats: one where-predicate
    evaluated over one snapshot (the `$transaction` of `count` and
    `findMany`), a fixed page size, `skip = (page - 1) * take`,
    `total_pages = Math.ceil(total / take)`, and `page` reported as 0 when the
    requested slice is empty. Ordering is the snapshot's order: the
    `orderBy` of each query is applied by the store before the model sees
    the rows. */
module Listing {
  import opened Common
  import Text

  datatype Page<T> = Page(items: seq<T>, page: nat, total: nat, totalPages: nat)

  /** The listing query string: `filter` for public pages, `q` for admin
      pages, `page` as `parseInt` reads it (absent or empty means absent;
      any integer otherwise, zero and negatives included). */
  datatype Query = Query(filter: Option<string>, q: Option<string>, page: Option<int>)

  /** A page the store can serve: below 1, `skip = (page - 1) * take` is
      negative and the store rejects the query. */
  predicate ValidPage(query: Query) {
    query.page.None? || query.page.value >= 1
  }

  /** `query.page ? parseInt(query.page) : default_page`, and the store's
      rejection of the negative `skip` a page below 1 gives. */
  function RequestedPage(query: Query): (r: Result<nat>)
    ensures r.Ok? <==> ValidPage(query)
    ensures r.Err? ==> r.error == DbFailure
    ensures r.Ok? ==> r.value >= 1
    ensures query.page.None? ==> r == Ok(1)
    ensures query.page.Some? && r.Ok? ==> r.value == query.page.value
  {
    match query.page
    case None => Ok(1)
    case Some(n) => if n >= 1 then Ok(n) else Err(DbFailure)
  }

  /** The rows a where-predicate selects, in snapshot order. */
  function Filter<T>(keep: T -> bool, rows: seq<T>): (r: seq<T>)
    ensures |r| <= |rows|
    ensures forall i :: 0 <= i < |r| ==> keep(r[i]) && r[i] in rows
    ensures forall x :: x in rows && keep(x) ==> x in r
    ensures multiset(r) <= multiset(rows)
  {
    if |rows| == 0 then []
    else
      var rest := Filter(keep, rows[1..]);
      assert rows == [rows[0]] + rows[1..];
      assert multiset(rows) == multiset{rows[0]} + multiset(rows[1..]);
      if keep(rows[0]) then
        var r := [rows[0]] + rest;
        assert forall i :: 1 <= i < |r| ==> r[i] == rest[i - 1];
        r
      else rest
  }

  /** Filtering a snapshot split in two filters each part in place: the
      kept rows stay in snapshot order. */
  lemma {:induction false} FilterAppend<T>(keep: T -> bool, a: seq<T>, b: seq<T>)
    ensures Filter(keep, a + b) == Filter(keep, a) + Filter(keep, b)
    decreases |a|
  {
    if |a| > 0 {
      assert (a + b)[1..] == a[1..] + b;
      FilterAppend(keep, a[1..], b);
    } else {
      assert a + b == b;
    }
  }

  /** A single row is kept exactly when the predicate holds for it. */
  lemma FilterOne<T>(keep: T -> bool, x: T)
    ensures Filter(keep, [x]) == if keep(x) then [x] else []
  {
    assert [x][1..] == [];
  }

  /** `skip: (page - 1) * take` */
  function Skip(page: nat, take: nat): nat
    requires page >= 1
  {
    (page - 1) * take
  }

  lemma PageBound(page: nat, take: nat, n: nat)
    requires page >= 1 && take >= 1
    ensures Skip(page, take) < n <==> page <= CeilDiv(n, take)
  {
    var q := CeilDiv(n, take);
    if page <= q {
      MulMonotone(page - 1, q - 1, take);
    } else {
      MulMonotone(q, page - 1, take);
    }
  }

  predicate Distinct<T(==)>(rows: seq<T>) {
    forall i, j :: 0 <= i < j < |rows| ==> rows[i] != rows[j]
  }

  lemma DistinctTail<T>(rows: seq<T>)
    requires |rows| > 0 && Distinct(rows)
    ensures Distinct(rows[1..]) && rows[0] !in rows[1..]
  {
    var rest := rows[1..];
    forall i, j | 0 <= i < j < |rest| ensures rest[i] != rest[j] {
      assert rest[i] == rows[i + 1] && rest[j] == rows[j + 1];
    }
    forall i | 0 <= i < |rest| ensures rest[i] != rows[0] {
      assert rest[i] == rows[i + 1];
    }
  }

  /** The rows a predicate selects: the head (if selected) and those of the tail. */
  lemma SelectedSplit<T>(keep: T -> bool, rows: seq<T>)
    requires |rows| > 0
    ensures (set x | x in rows && keep(x)) == (if keep(rows[0]) then {rows[0]} else {}) + (set x | x in rows[1..] && keep(x))
  {
    assert rows == [rows[0]] + rows[1..];
    assert forall x :: x in rows <==> x == rows[0] || x in rows[1..];
  }

  /** Over a snapshot without duplicate rows, the filtered count is the size
      of the set of rows the predicate selects. */
  lemma {:induction false} FilterCardinality<T>(keep: T -> bool, rows: seq<T>)
    requires Distinct(rows)
    ensures |Filter(keep, rows)| == |set x | x in rows && keep(x)|
    decreases |rows|
  {
    if |rows| == 0 {
      assert (set x | x in rows && keep(x)) == {};
    } else {
      var tail := set x | x in rows[1..] && keep(x);
      DistinctTail(rows);
      FilterCardinality(keep, rows[1..]);
      SelectedSplit(keep, rows);
      assert rows[0] !in tail;
      assert |Filter(keep, rows)| == (if keep(rows[0]) then 1 else 0) + |Filter(keep, rows[1..])|;
    }
  }

  lemma MulMonotone(a: nat, b: nat, c: nat)
    requires a <= b
    ensures a * c <= b * c
  {
    assert b * c == a * c + (b - a) * c;
  }

  /** One page of `rows` (the `take`/`skip` of `findMany`) with the counters
      the services return. */
  function Paginate<T>(rows: seq<T>, page: nat, take: nat): (p: Page<T>)
    requires page >= 1 && take >= 1
    ensures p.total == |rows|
    ensures p.totalPages * take >= p.total
    ensures p.totalPages > 0 ==> (p.totalPages - 1) * take < p.total
    ensures p.totalPages == 0 <==> p.total == 0
    ensures |p.items| <= take
    ensures p.page == 0 <==> |p.items| == 0
    ensures p.page != 0 ==> p.page == page
    ensures |p.items| > 0 <==> page <= p.totalPages
    ensures |p.items| > 0 ==> Skip(page, take) + |p.items| <= |rows|
    ensures Skip(page, take) + take <= |rows| ==> |p.items| == take
    ensures Skip(page, take) < |rows| < Skip(page, take) + take ==> Skip(page, take) + |p.items| == |rows|
    ensures forall i :: 0 <= i < |p.items| ==> p.items[i] == rows[Skip(page, take) + i]
  {
    PageBound(page, take, |rows|);
    var skip := Skip(page, take);
    var items := if skip >= |rows| then [] else rows[skip..if skip + take <= |rows| then skip + take else |rows|];
    Page(items, if |items| > 0 then page else 0, |rows|, CeilDiv(|rows|, take))
  }

  /** The whole listing: count and slice come from the same predicate over
      the same snapshot, so `total` is the size of the filtered set and every
      item on the page satisfies the predicate. */
  function List<T>(snapshot: seq<T>, keep: T -> bool, query: Query, take: nat): (r: Result<Page<T>>)
    requires take >= 1
    ensures Listed(r, snapshot, keep, query, take, (x: T) => x)
  {
    match RequestedPage(query)
    case Err(e) => Err(e)
    case Ok(page) =>
      var rows := Filter(keep, snapshot);
      var p := Paginate(rows, page, take);
      assert forall k :: 0 <= k < |rows| ==> rows[k] in snapshot && keep(rows[k]);
      Ok(p)
  }

  /** `p` is page `RequestedPage(query)` of `rows`, the selected rows in
      query order, each item projected through `f`: `total` counts the rows,
      `total_pages` is `Math.ceil(total / take)`, `page` is the requested page
      or 0 for an empty slice, and item `i` is the projection of the row at
      offset `(page - 1) * take + i`. A full page has `take` items and the
      last page runs to the end of the rows. */
  ghost predicate PageOf<T, U>(p: Page<U>, rows: seq<T>, query: Query, take: nat, f: T -> U)
    requires ValidPage(query) && take >= 1
  {
    var skip := Skip(RequestedPage(query).value, take);
    && p.total == |rows|
    && p.totalPages * take >= p.total
    && (p.totalPages > 0 ==> (p.totalPages - 1) * take < p.total)
    && |p.items| <= take
    && (p.page == 0 <==> p.items == [])
    && (p.page != 0 ==> p.page == RequestedPage(query).value)
    && (skip + take <= p.total ==> |p.items| == take)
    && (skip < p.total < skip + take ==> skip + |p.items| == p.total)
    && (p.items != [] ==> skip + |p.items| <= |rows|)
    && (forall i :: 0 <= i < |p.items| ==> skip + i < |rows| && p.items[i] == f(rows[skip + i]))
  }

  /** `p` is what a filtered listing returns: a page of the rows `keep`
      selects from `snapshot`, and every item comes from a snapshot row the
      predicate keeps. */
  ghost predicate IsPage<T, U>(p: Page<U>, snapshot: seq<T>, keep: T -> bool, query: Query, take: nat, f: T -> U)
    requires ValidPage(query) && take >= 1
  {
    var rows := Filter(keep, snapshot);
    var skip := Skip(RequestedPage(query).value, take);
    && PageOf(p, rows, query, take, f)
    && (forall k :: skip <= k < skip + |p.items| ==> rows[k] in snapshot && keep(rows[k]))
  }

  /** What an unfiltered listing replies: the store rejects a page below 1,
      and any other page is `PageOf` the rows. */
  ghost predicate Paged<T, U>(r: Result<Page<U>>, rows: seq<T>, query: Query, take: nat, f: T -> U)
    requires take >= 1
  {
    if ValidPage(query) then r.Ok? && PageOf(r.value, rows, query, take, f)
    else r == Err(DbFailure)
  }

  /** What a filtered listing replies: the store rejects a page below 1,
      and any other page is `IsPage` of the selected rows. */
  ghost predicate Listed<T, U>(r: Result<Page<U>>, snapshot: seq<T>, keep: T -> bool, query: Query, take: nat, f: T -> U)
    requires take >= 1
  {
    if ValidPage(query) then r.Ok? && IsPage(r.value, snapshot, keep, query, take, f)
    else r == Err(DbFailure)
  }

  /** An unfiltered listing: the page of the whole snapshot. */
  function PageMap<T, U>(rows: seq<T>, query: Query, take: nat, f: T -> U): (r: Result<Page<U>>)
    requires take >= 1
    ensures Paged(r, rows, query, take, f)
  {
    match RequestedPage(query)
    case Err(e) => Err(e)
    case Ok(page) => Ok(MapPage(Paginate(rows, page, take), f))
  }


  /** A listing whose page items go through the service's per-row `map`. */
  function ListMap<T, U>(snapshot: seq<T>, keep: T -> bool, query: Query, take: nat, f: T -> U): (r: Result<Page<U>>)
    requires take >= 1
    ensures Listed(r, snapshot, keep, query, take, f)
  {
    match RequestedPage(query)
    case Err(e) => Err(e)
    case Ok(n) =>
      var rows := Filter(keep, snapshot);
      var page := Paginate(rows, n, take);
      assert forall k :: 0 <= k < |rows| ==> rows[k] in snapshot && keep(rows[k]);
      Ok(MapPage(page, f))
  }



  /** Over a snapshot without duplicate rows the reported total is the
      number of rows the predicate selects, not the size of the page. */
  lemma ListTotalIsMatchingSet<T>(snapshot: seq<T>, keep: T -> bool, query: Query, take: nat)
    requires ValidPage(query) && take >= 1 && Distinct(snapshot)
    ensures List(snapshot, keep, query, take).value.total == |set x | x in snapshot && keep(x)|
  {
    FilterCardinality(keep, snapshot);
  }

  /** The per-row projection (`map`) applied to a page's items. */
  function MapPage<T, U>(p: Page<T>, f: T -> U): (r: Page<U>)
    ensures |r.items| == |p.items|
    ensures forall i :: 0 <= i < |p.items| ==> r.items[i] == f(p.items[i])
    ensures r.page == p.page && r.total == p.total && r.totalPages == p.totalPages
  {
    Page(seq(|p.items|, i requires 0 <= i < |p.items| => f(p.items[i])), p.page, p.total, p.totalPages)
  }

  /** Pages 1..k laid end to end. */
  function FirstPages<T>(rows: seq<T>, take: nat, k: nat): seq<T>
    requires take >= 1
  {
    if k == 0 then [] else FirstPages(rows, take, k - 1) + Paginate(rows, k, take).items
  }

  /** The slice one page takes, as a single subsequence. */
  lemma PaginateSlice<T>(rows: seq<T>, page: nat, take: nat)
    requires page >= 1 && take >= 1
    ensures Skip(page, take) + take <= |rows| ==>
      Paginate(rows, page, take).items == rows[Skip(page, take)..Skip(page, take) + take]
    ensures Skip(page, take) <= |rows| < Skip(page, take) + take ==>
      Paginate(rows, page, take).items == rows[Skip(page, take)..]
    ensures |rows| < Skip(page, take) ==> Paginate(rows, page, take).items == []
  {}

  lemma SkipNext(k: nat, take: nat)
    requires k >= 1
    ensures Skip(k, take) + take == k * take
  {}

  /** Where the first `k` pages end. */
  function PagesEnd(k: nat, take: nat, n: nat): (e: nat)
    ensures e <= n
  {
    if k * take <= n then k * take else n
  }

  lemma {:induction false} FirstPagesArePrefix<T>(rows: seq<T>, take: nat, k: nat)
    requires take >= 1
    ensures FirstPages(rows, take, k) == rows[..PagesEnd(k, take, |rows|)]
    decreases k
  {
    if k > 0 {
      var skip := Skip(k, take);
      var e := PagesEnd(k, take, |rows|);
      var items := Paginate(rows, k, take).items;
      FirstPagesArePrefix(rows, take, k - 1);
      assert FirstPages(rows, take, k - 1) == rows[..if skip <= |rows| then skip else |rows|] by {
        SkipNext(k, take);
      }
      if skip <= |rows| {
        assert items == rows[skip..e] by {
          PaginateSlice(rows, k, take);
          SkipNext(k, take);
        }
        assert rows[..skip] + rows[skip..e] == rows[..e];
      } else {
        assert items == [] by {
          PaginateSlice(rows, k, take);
        }
      }
    }
  }

  /** Walking pages 1 to `total_pages` visits every row exactly once, in order. */
  lemma PagesCoverAll<T>(rows: seq<T>, take: nat)
    requires take >= 1
    ensures FirstPages(rows, take, Paginate(rows, 1, take).totalPages) == rows
  {
    var n := Paginate(rows, 1, take).totalPages;
    FirstPagesArePrefix(rows, take, n);
    assert PagesEnd(n, take, |rows|) == |rows|;
  }

  /** Past the last page the slice is empty and `page` is reported as 0. */
  lemma PastLastPage<T>(rows: seq<T>, page: nat, take: nat)
    requires page >= 1 && take >= 1
    requires page > Paginate(rows, page, take).totalPages
    ensures Paginate(rows, page, take).items == []
    ensures Paginate(rows, page, take).page == 0
  {}

  // ---------------------------------------------------------------------
  // Prisma filter primitives

  /** `{ field: { contains: needle } }` on a string column. An absent
      `needle` (`contains: undefined`) leaves the condition empty, which
      matches every row; matching is case-sensitive. */
  predicate FieldContains(field: string, needle: Option<string>) {
    needle.None? || Text.Contains(field, needle.value)
  }

  /** A pillar or subpillar as the joined rows expose it. */
  datatype Node = Node(name: string, slug: string)

  /** The `pillar` / `subpillar` relations: an optional foreign key and the
      table it points into. */
  function Resolve(ref: Option<Id>, nodes: map<Id, Node>): (r: Option<Node>)
    ensures r.Some? <==> ref.Some? && ref.value in nodes
    ensures r.Some? ==> r.value == nodes[ref.value]
  {
    if ref.Some? && ref.value in nodes then Some(nodes[ref.value]) else None
  }

  /** `{ pillar: { slug: { contains: needle } } }`: a relation filter only
      matches rows whose relation is present. */
  predicate RelationSlugContains(ref: Option<Id>, nodes: map<Id, Node>, needle: Option<string>) {
    var n := Resolve(ref, nodes);
    n.Some? && FieldContains(n.value.slug, needle)
  }

  const Uncategorised: string := "Lainnya"

  /** `pillar ? pillar.name : 'Lainnya'` */
  function DisplayName(ref: Option<Id>, nodes: map<Id, Node>): (r: string)
    ensures Resolve(ref, nodes).None? ==> r == Uncategorised
    ensures Resolve(ref, nodes).Some? ==> r == Resolve(ref, nodes).value.name
  {
    match Resolve(ref, nodes)
    case Some(n) => n.name
    case None => Uncategorised
  }

  /** A relation as an admin listing selects it: the related row's id and name. */
  datatype Ref = Ref(id: Id, name: string)

  function RefOf(ref: Option<Id>, nodes: map<Id, Node>): (r: Option<Ref>)
    ensures r.Some? <==> Resolve(ref, nodes).Some?
    ensures r.Some? ==> r.value == Ref(ref.value, nodes[ref.value].name)
  {
    if ref.Some? && ref.value in nodes then Some(Ref(ref.value, nodes[ref.value].name)) else None
  }

  /** JavaScript truthiness of an optional string: absent and `""` are falsy. */
  predicate Truthy(s: Option<string>) {
    s.Some? && s.value != ""
  }

  // ---------------------------------------------------------------------
  // the public volunteer and career filter

  /** `['asc', 'desc'].includes(filter)`: values that only pick an order. */
  predicate IsSortFilter(f: string) {
    f == "asc" || f == "desc"
  }

  const OtherSentinel: string := "other"

  /** The `AND` clause of the public volunteer and career listings: a falsy
      or sort-only filter adds nothing; `"other"` asks for rows with neither
      pillar nor subpillar; any other text must occur in the title or in the
      slug of a present pillar or subpillar. */
  predicate SentinelFilter(title: string, pillarId: Option<Id>, subPillarId: Option<Id>,
                           pillars: map<Id, Node>, subpillars: map<Id, Node>, filter: Option<string>)
  {
    if !Truthy(filter) || IsSortFilter(filter.value) then true
    else if filter.value == OtherSentinel then pillarId.None? && subPillarId.None?
    else
      Text.Contains(title, filter.value)
      || RelationSlugContains(pillarId, pillars, filter)
      || RelationSlugContains(subPillarId, subpillars, filter)
  }

  /** Sort-only and falsy filters select the same rows as no filter at all. */
  lemma SortFiltersIgnored(title: string, pillarId: Option<Id>, subPillarId: Option<Id>,
                           pillars: map<Id, Node>, subpillars: map<Id, Node>, f: string)
    requires IsSortFilter(f) || f == ""
    ensures SentinelFilter(title, pillarId, subPillarId, pillars, subpillars, Some(f))
    ensures SentinelFilter(title, pillarId, subPillarId, pillars, subpillars, None)
  {}

  /** With foreign keys that resolve, the `"other"` sentinel selects exactly
      the rows that the public listing renders as uncategorised twice. */
  lemma OtherMeansUncategorised(title: string, pillarId: Option<Id>, subPillarId: Option<Id>,
                                pillars: map<Id, Node>, subpillars: map<Id, Node>)
    requires pillarId.Some? ==> pillarId.value in pillars
    requires subPillarId.Some? ==> subPillarId.value in subpillars
    ensures SentinelFilter(title, pillarId, subPillarId, pillars, subpillars, Some(OtherSentinel))
        <==> Resolve(pillarId, pillars).None? && Resolve(subPillarId, subpillars).None?
    ensures SentinelFilter(title, pillarId, subPillarId, pillars, subpillars, Some(OtherSentinel))
        ==> DisplayName(pillarId, pillars) == Uncategorised && DisplayName(subPillarId, subpillars) == Uncategorised
  {}

  /** A filter that occurs in the title selects the row, whatever its taxonomy,
      unless it is one of the reserved words. */
  lemma TitleHitSelects(title: string, pillarId: Option<Id>, subPillarId: Option<Id>,
                        pillars: map<Id, Node>, subpillars: map<Id, Node>, f: string)
    requires f != OtherSentinel
    requires Text.Contains(title, f)
    ensures SentinelFilter(title, pillarId, subPillarId, pillars, subpillars, Some(f))
  {}

  /** Two predicates that agree on every row of the snapshot select the same rows. */
  lemma {:induction false} FilterExt<T>(f: T -> bool, g: T -> bool, rows: seq<T>)
    requires forall x :: x in rows ==> f(x) == g(x)
    ensures Filter(f, rows) == Filter(g, rows)
    decreases |rows|
  {
    if |rows| > 0 {
      FilterExt(f, g, rows[1..]);
    }
  }

  /** A predicate that holds on every row selects the whole snapshot. */
  lemma {:induction false} FilterAll<T>(f: T -> bool, rows: seq<T>)
    requires forall x :: x in rows ==> f(x)
    ensures Filter(f, rows) == rows
    decreases |rows|
  {
    if |rows| > 0 {
      FilterAll(f, rows[1..]);
      assert [rows[0]] + rows[1..] == rows;
    }
  }
}

=== FILE: order.dfy ===
/** `orderBy: { name: 'asc' }`, modelled as lexicographic order on character
    codes, and a functional insertion sort that produces it. */
module Order {

  /** `a` sorts no later than `b`: a prefix comes first, otherwise the first
      differing character decides. */
  predicate StrLe(a: string, b: string)
    decreases |a|
  {
    |a| == 0 || (|b| > 0 && (a[0] < b[0] || (a[0] == b[0] && StrLe(a[1..], b[1..]))))
  }

  lemma {:induction false} StrLeTotal(a: string, b: string)
    ensures StrLe(a, b) || StrLe(b, a)
    decreases |a|
  {
    if |a| > 0 && |b| > 0 && a[0] == b[0] {
      StrLeTotal(a[1..], b[1..]);
    }
  }

  lemma {:induction false} StrLeTrans(a: string, b: string, c: string)
    requires StrLe(a, b) && StrLe(b, c)
    ensures StrLe(a, c)
    decreases |a|
  {
    if |a| > 0 && a[0] == b[0] && b[0] == c[0] {
      StrLeTrans(a[1..], b[1..], c[1..]);
    }
  }

  lemma {:induction false} StrLeAntisymmetric(a: string, b: string)
    requires StrLe(a, b) && StrLe(b, a)
    ensures a == b
    decreases |a|
  {
    if |a| > 0 {
      StrLeAntisymmetric(a[1..], b[1..]);
      assert a == [a[0]] + a[1..] && b == [b[0]] + b[1..];
    }
  }

  predicate SortedBy<T>(xs: seq<T>, key: T -> string) {
    forall i, j :: 0 <= i < j < |xs| ==> StrLe(key(xs[i]), key(xs[j]))
  }

  /** Every key in `ys` sorts no earlier than `lo`. */
  predicate AtLeast<T>(lo: string, ys: seq<T>, key: T -> string) {
    forall i :: 0 <= i < |ys| ==> StrLe(lo, key(ys[i]))
  }

  function Insert<T>(x: T, xs: seq<T>, key: T -> string): (r: seq<T>)
    requires SortedBy(xs, key)
    ensures SortedBy(r, key)
    ensures forall lo :: AtLeast(lo, xs, key) && StrLe(lo, key(x)) ==> AtLeast(lo, r, key)
    decreases |xs|
  {
    if |xs| == 0 then [x]
    else if StrLe(key(x), key(xs[0])) then
      assert AtLeast(key(x), xs, key) by {
        forall j | 0 <= j < |xs| ensures StrLe(key(x), key(xs[j])) {
          if j > 0 { StrLeTrans(key(x), key(xs[0]), key(xs[j])); }
        }
      }
      var r := [x] + xs;
      assert forall i :: 1 <= i < |r| ==> r[i] == xs[i - 1];
      r
    else
      StrLeTotal(key(x), key(xs[0]));
      assert AtLeast(key(xs[0]), xs[1..], key);
      var rest := Insert(x, xs[1..], key);
      assert AtLeast(key(xs[0]), rest, key);
      assert xs == [xs[0]] + xs[1..];
      var r := [xs[0]] + rest;
      assert forall i :: 1 <= i < |r| ==> r[i] == rest[i - 1];
      assert forall lo :: AtLeast(lo, xs, key) ==> AtLeast(lo, xs[1..], key) && StrLe(lo, key(xs[0]));
      r
  }

  /** Insertion adds exactly one occurrence of `x`. */
  lemma {:induction false} InsertPermutes<T>(x: T, xs: seq<T>, key: T -> string)
    requires SortedBy(xs, key)
    ensures multiset(Insert(x, xs, key)) == multiset(xs) + multiset{x}
    decreases |xs|
  {
    if |xs| > 0 && !StrLe(key(x), key(xs[0])) {
      InsertPermutes(x, xs[1..], key);
      assert xs == [xs[0]] + xs[1..];
    }
  }

  function SortBy<T>(xs: seq<T>, key: T -> string): (r: seq<T>)
    ensures SortedBy(r, key)
    ensures multiset(r) == multiset(xs)
    decreases |xs|
  {
    if |xs| == 0 then []
    else
      assert xs == [xs[0]] + xs[1..];
      InsertPermutes(xs[0], SortBy(xs[1..], key), key);
      Insert(xs[0], SortBy(xs[1..], key), key)
  }

  /** Sorting is a permutation, so it keeps the length and the members. */
  lemma SortKeepsMembers<T>(xs: seq<T>, key: T -> string)
    ensures |SortBy(xs, key)| == |xs|
    ensures forall x :: x in SortBy(xs, key) <==> x in xs
  {
    var r := SortBy(xs, key);
    assert |multiset(r)| == |multiset(xs)|;
    forall x ensures x in r <==> x in xs {
      assert x in r <==> x in multiset(r);
      assert x in xs <==> x in multiset(xs);
    }
  }

  /** Taking the first element out of one of two sequences with the same
      elements, and an equal element out of the other, leaves the same elements. */
  lemma MultisetRemove<T>(a: seq<T>, b: seq<T>, j: nat)
    requires multiset(a) == multiset(b) && |a| > 0 && j < |b| && b[j] == a[0]
    ensures multiset(a[1..]) == multiset(b[..j] + b[j + 1..])
  {
    assert a == [a[0]] + a[1..];
    assert b == b[..j] + [b[j]] + b[j + 1..];
    assert multiset(a[1..]) == multiset(a) - multiset{a[0]};
    assert multiset(b[..j] + b[j + 1..]) == multiset(b) - multiset{b[j]};
  }

  /** `xs.map(f)`. */
  function MapSeq<T, U>(f: T -> U, xs: seq<T>): (r: seq<U>)
    ensures |r| == |xs|
    ensures forall i :: 0 <= i < |xs| ==> r[i] == f(xs[i])
  {
    seq(|xs|, i requires 0 <= i < |xs| => f(xs[i]))
  }

  lemma MapSeqAppend<T, U>(f: T -> U, u: seq<T>, v: seq<T>)
    ensures MapSeq(f, u + v) == MapSeq(f, u) + MapSeq(f, v)
  {
    var l := MapSeq(f, u + v);
    var r := MapSeq(f, u) + MapSeq(f, v);
    forall i | 0 <= i < |l| ensures l[i] == r[i] {
      if i < |u| { assert (u + v)[i] == u[i]; } else { assert (u + v)[i] == v[i - |u|]; }
    }
  }

  lemma MapSeqMultiset<T, U>(f: T -> U, u: seq<T>, v: seq<T>)
    ensures multiset(MapSeq(f, u + v)) == multiset(MapSeq(f, u)) + multiset(MapSeq(f, v))
  {
    MapSeqAppend(f, u, v);
  }

  lemma SplitAt<T>(b: seq<T>, j: nat)
    requires j < |b|
    ensures b == b[..j] + ([b[j]] + b[j + 1..])
  {
    assert b[j..] == [b[j]] + b[j + 1..];
    assert b == b[..j] + b[j..];
  }

  /** Mapping two orderings of the same elements gives the same results. */
  lemma {:induction false} MapSeqPermutes<T, U>(f: T -> U, a: seq<T>, b: seq<T>)
    requires multiset(a) == multiset(b)
    ensures multiset(MapSeq(f, a)) == multiset(MapSeq(f, b))
    decreases |a|
  {
    if |a| == 0 {
      assert |b| == |multiset(b)| == 0;
    } else {
      var x := a[0];
      assert x in multiset(b);
      var j :| 0 <= j < |b| && b[j] == x;
      var front, back := b[..j], b[j + 1..];
      MultisetRemove(a, b, j);
      MapSeqPermutes(f, a[1..], front + back);
      var one := multiset(MapSeq(f, [x]));
      assert a == [x] + a[1..];
      MapSeqMultiset(f, [x], a[1..]);
      assert multiset(MapSeq(f, a)) == one + multiset(MapSeq(f, a[1..]));
      SplitAt(b, j);
      MapSeqMultiset(f, front, [x] + back);
      MapSeqMultiset(f, [x], back);
      MapSeqMultiset(f, front, back);
      assert multiset(MapSeq(f, b)) == multiset(MapSeq(f, front)) + (one + multiset(MapSeq(f, back)));
    }
  }

  // ---------------------------------------------------------------------
  // descending order on a numeric column (`orderBy: { order: 'desc' }`)

  predicate DescendingBy<T>(xs: seq<T>, key: T -> nat) {
    forall i, j :: 0 <= i < j < |xs| ==> key(xs[i]) >= key(xs[j])
  }

  /** Every key in `ys` is at most `hi`. */
  predicate AtMost<T>(hi: nat, ys: seq<T>, key: T -> nat) {
    forall i :: 0 <= i < |ys| ==> key(ys[i]) <= hi
  }

  function InsertDesc<T>(x: T, xs: seq<T>, key: T -> nat): (r: seq<T>)
    requires DescendingBy(xs, key)
    ensures DescendingBy(r, key)
    ensures forall hi :: AtMost(hi, xs, key) && key(x) <= hi ==> AtMost(hi, r, key)
    decreases |xs|
  {
    if |xs| == 0 then [x]
    else if key(x) >= key(xs[0]) then
      var r := [x] + xs;
      assert forall i :: 1 <= i < |r| ==> r[i] == xs[i - 1];
      r
    else
      assert AtMost(key(xs[0]), xs[1..], key);
      var rest := InsertDesc(x, xs[1..], key);
      assert AtMost(key(xs[0]), rest, key);
      var r := [xs[0]] + rest;
      assert forall i :: 1 <= i < |r| ==> r[i] == rest[i - 1];
      assert forall hi :: AtMost(hi, xs, key) ==> AtMost(hi, xs[1..], key) && key(xs[0]) <= hi;
      r
  }

  /** Insertion adds exactly one occurrence of `x`. */
  lemma {:induction false} InsertDescPermutes<T>(x: T, xs: seq<T>, key: T -> nat)
    requires DescendingBy(xs, key)
    ensures multiset(InsertDesc(x, xs, key)) == multiset(xs) + multiset{x}
    decreases |xs|
  {
    if |xs| > 0 && key(x) < key(xs[0]) {
      InsertDescPermutes(x, xs[1..], key);
      assert xs == [xs[0]] + xs[1..];
    }
  }

  /** A stable insertion sort on a numeric key, largest first. */
  function SortDescBy<T>(xs: seq<T>, key: T -> nat): (r: seq<T>)
    ensures DescendingBy(r, key)
    ensures multiset(r) == multiset(xs)
    decreases |xs|
  {
    if |xs| == 0 then []
    else
      assert xs == [xs[0]] + xs[1..];
      InsertDescPermutes(xs[0], SortDescBy(xs[1..], key), key);
      InsertDesc(xs[0], SortDescBy(xs[1..], key), key)
  }
}

=== FILE: partners.dfy ===
/** Partners (src/partners/partners.service.ts): image records with an alt
    text and an optional description, images under `partners/`, ids
    `JPSPTR` followed by five digits. Partners have no link. */
module Partners {
  import opened Common
  import opened Text
  import opened Constants
  import opened Listing
  import opened Blobs
  import opened ImageRecords

  const Table: Config := Config("partners", PrefixText(PARTNER))

  /** Partner rows never carry a link. */
  predicate NoLinks(s: State) {
    forall k :: k in s.rows ==> s.rows[k].link.None?
  }

  /** The public list: every partner, unpaginated, in table order. */
  function GetPublicPartners(rows: seq<Record>): (r: seq<View>)
    ensures |r| == |rows|
    ensures forall i :: 0 <= i < |r| ==> (r[i].id == rows[i].id && r[i].alt == rows[i].alt
      && r[i].description == rows[i].description && r[i].imageUrl == rows[i].imageUrl)
  {
    Views(rows)
  }

  /** The admin listing, five a page, newest first. */
  function GetPartners(rows: seq<Record>, query: Query): (r: Result<Page<View>>)
    ensures Paged(r, rows, query, PageSize, ViewOf)
  {
    GetRecords(rows, query)
  }

  datatype PartnerInput = PartnerInput(alt: string, description: Option<string>, actor: string)

  /** createPartner: the id is `JPSPTR` and five digits, the image goes under
      `partners/`, and the row has no link. */
  function CreatePartner(s: State, body: PartnerInput, file: File, env: Env): (r: Reply<State, Id>)
    requires InDigitRange(env.draw, IdDigits)
    ensures r.result.Ok? ==> var id := r.result.value;
      && |id| == 11 && id[..6] == "JPSPTR" && id !in s.rows && id in r.state.rows
      && IsPrefix("partners/", r.state.rows[id].imageKey) && r.state.rows[id].imageKey in r.state.blobs
      && r.state.rows[id].link.None? && r.state.rows[id].alt == body.alt
    ensures env.upload.UploadFailed? ==> r == Reply(s, Err(StoreFailure))
    ensures NoLinks(s) ==> NoLinks(r.state)
  {
    Create(s, Table, Input(body.alt, body.description, None, body.actor), file, env)
  }

  datatype PartnerPatch = PartnerPatch(id: Id, alt: Option<string>, description: Option<string>, actor: string)

  /** updatePartner: unknown ids are NotFound; the link column is never written. */
  function UpdatePartner(s: State, body: PartnerPatch, file: Option<File>, env: UpdateEnv, rejects: set<Key>): (r: Reply<State, Id>)
    ensures body.id !in s.rows ==> r == Reply(s, Err(NotFound))
    ensures body.id in s.rows && file.Some? && DeleteRejected(s, body.id, rejects) ==> r == Reply(s, Err(StoreFailure))
    ensures file.None? ==> r.state.blobs == s.blobs
    ensures r.result.Ok? ==> (body.id in r.state.rows && r.state.rows[body.id].link == s.rows[body.id].link
      && r.state.rows[body.id].alt == Keep(body.alt, s.rows[body.id].alt))
    ensures file.Some? && r.result.Ok? ==> IsPrefix("partners/", r.state.rows[body.id].imageKey)
    ensures NoLinks(s) ==> NoLinks(r.state)
  {
    Update(s, Table, Patch(body.id, body.alt, body.description, None, body.actor), file, env, rejects)
  }

  /** deletePartner: the row and its image are gone afterwards, unless the
      image's delete rejects, which changes nothing. */
  function DeletePartner(s: State, id: Id, rejects: set<Key>): (r: Reply<State, Id>)
    ensures r.result.Ok? <==> id in s.rows && !DeleteRejected(s, id, rejects)
    ensures id in s.rows && DeleteRejected(s, id, rejects) ==> r == Reply(s, Err(StoreFailure))
    ensures r.result.Ok? ==> id !in r.state.rows && s.rows[id].imageKey !in r.state.blobs
    ensures id !in s.rows ==> r == Reply(s, Err(NotFound))
    ensures NoLinks(s) ==> NoLinks(r.state)
  {
    ImageRecords.Delete(s, id, rejects)
  }
}

=== FILE: pillars.dfy ===
/** Pillars and their subpillars (src/pillars/pillars.service.ts): the
    taxonomy the content services filter by. Listings sort by name; the create
    writes a pillar with its subpillars in one statement; the update upserts
    subpillars item by item. */
module Pillars {
  import opened Common
  import opened Constants
  import opened StringUtil
  import opened Listing
  import opened Order
  import opened Upsert

  datatype Pillar = Pillar(id: Id, name: string, slug: string, createdBy: string, updatedBy: string)

  datatype SubPillar = SubPillar(id: Id, pillarId: Id, name: string, slug: string, createdBy: string, updatedBy: string)

  datatype State = State(pillars: map<Id, Pillar>, subpillars: map<Id, SubPillar>)

  const PageSize: nat := 5
  const IdDigits: nat := 4

  predicate Consistent(s: State) {
    forall k :: k in s.subpillars ==> s.subpillars[k].pillarId in s.pillars
  }

  /** A non-empty name has its slug next to it. (An empty name keeps the
      slug it had: the services only re-slug a truthy name.) */
  predicate SlugsFollowNames(s: State) {
    && (forall k :: k in s.pillars && s.pillars[k].name != "" ==> s.pillars[k].slug == Slug(s.pillars[k].name))
    && (forall k :: k in s.subpillars && s.subpillars[k].name != "" ==> s.subpillars[k].slug == Slug(s.subpillars[k].name))
  }

  const PillarName: Pillar -> string := (p: Pillar) => p.name
  const SubPillarName: SubPillar -> string := (p: SubPillar) => p.name

  // ---------------------------------------------------------------------
  // reads

  datatype NameSlug = NameSlug(name: string, slug: string)
  datatype PublicPillar = PublicPillar(name: string, slug: string, subpillars: seq<NameSlug>)

  const NameSlugName: NameSlug -> string := (n: NameSlug) => n.name
  const PublicPillarName: PublicPillar -> string := (p: PublicPillar) => p.name

  /** The subpillars of one pillar, in name order. */
  function SubPillarsOf(subs: seq<SubPillar>, pillarId: Id): (r: seq<SubPillar>)
    ensures SortedBy(r, SubPillarName)
    ensures forall x :: x in r <==> x in subs && x.pillarId == pillarId
  {
    var mine := Filter((x: SubPillar) => x.pillarId == pillarId, subs);
    SortKeepsMembers(mine, SubPillarName);
    SortBy(mine, SubPillarName)
  }

  function NameSlugs(xs: seq<SubPillar>): (r: seq<NameSlug>)
    ensures |r| == |xs|
    ensures forall i :: 0 <= i < |xs| ==> r[i] == NameSlug(xs[i].name, xs[i].slug)
  {
    seq(|xs|, i requires 0 <= i < |xs| => NameSlug(xs[i].name, xs[i].slug))
  }

  lemma NameSlugsSorted(xs: seq<SubPillar>)
    requires SortedBy(xs, SubPillarName)
    ensures SortedBy(NameSlugs(xs), NameSlugName)
  {
    var r := NameSlugs(xs);
    forall i, j | 0 <= i < j < |r| ensures StrLe(NameSlugName(r[i]), NameSlugName(r[j])) {
      assert NameSlugName(r[i]) == SubPillarName(xs[i]) && NameSlugName(r[j]) == SubPillarName(xs[j]);
    }
  }

  /** One public entry: name, slug and the pillar's subpillars in name order. */
  function Publish(subs: seq<SubPillar>, p: Pillar): (r: PublicPillar)
    ensures r.name == p.name && r.slug == p.slug
    ensures SortedBy(r.subpillars, NameSlugName)
    ensures forall x :: x in subs && x.pillarId == p.id ==> NameSlug(x.name, x.slug) in r.subpillars
    ensures forall i :: 0 <= i < |r.subpillars| ==>
      exists x :: x in subs && x.pillarId == p.id && r.subpillars[i] == NameSlug(x.name, x.slug)
  {
    var mine := SubPillarsOf(subs, p.id);
    var names := NameSlugs(mine);
    NameSlugsSorted(mine);
    forall x | x in subs && x.pillarId == p.id ensures NameSlug(x.name, x.slug) in names {
      assert x in mine;
      var a :| 0 <= a < |mine| && mine[a] == x;
      assert names[a] == NameSlug(x.name, x.slug);
    }
    forall i | 0 <= i < |names|
      ensures exists x :: x in subs && x.pillarId == p.id && names[i] == NameSlug(x.name, x.slug)
    {
      var x := mine[i];
      assert x in mine && names[i] == NameSlug(x.name, x.slug);
    }
    PublicPillar(p.name, p.slug, names)
  }

  function PublishWith(subs: seq<SubPillar>): Pillar -> PublicPillar {
    (p: Pillar) => Publish(subs, p)
  }

  function PublishAll(subs: seq<SubPillar>, ps: seq<Pillar>): (r: seq<PublicPillar>)
    ensures |r| == |ps|
    ensures forall i :: 0 <= i < |ps| ==> r[i] == Publish(subs, ps[i])
  {
    MapSeq(PublishWith(subs), ps)
  }

  lemma PublishAllSorted(subs: seq<SubPillar>, ps: seq<Pillar>)
    requires SortedBy(ps, PillarName)
    ensures SortedBy(PublishAll(subs, ps), PublicPillarName)
  {
    var r := PublishAll(subs, ps);
    forall i, j | 0 <= i < j < |r| ensures StrLe(PublicPillarName(r[i]), PublicPillarName(r[j])) {
      assert PublicPillarName(r[i]) == PillarName(ps[i]) && PublicPillarName(r[j]) == PillarName(ps[j]);
    }
  }

  /** getPublicPillars: every pillar, in name order, each with its
      subpillars in name order. `rows` and `subs` are the two tables. */
  function GetPublicPillars(rows: seq<Pillar>, subs: seq<SubPillar>): (r: seq<PublicPillar>)
    ensures |r| == |rows|
    ensures SortedBy(r, PublicPillarName)
    ensures multiset(r) == multiset(PublishAll(subs, rows))
  {
    var sorted := SortBy(rows, PillarName);
    SortKeepsMembers(rows, PillarName);
    PublishAllSorted(subs, sorted);
    MapSeqPermutes(PublishWith(subs), sorted, rows);
    PublishAll(subs, sorted)
  }

  datatype Item = Item(id: Id, name: string)

  function ItemOf(p: Pillar): Item {
    Item(p.id, p.name)
  }

  /** getPillars: every pillar (the query's `q` is not used), in name order, five per page. */
  function GetPillars(rows: seq<Pillar>, query: Query): (r: Result<Page<Item>>)
    ensures Paged(r, SortBy(rows, PillarName), query, PageSize, ItemOf)
    ensures r.Ok? ==> r.value.total == |rows|
    ensures r.Ok? ==> forall i :: 0 <= i < |r.value.items| ==> exists p :: p in rows && r.value.items[i] == ItemOf(p)
    ensures r.Ok? ==> forall i, j :: 0 <= i < j < |r.value.items| ==> StrLe(r.value.items[i].name, r.value.items[j].name)
  {
    var sorted := SortBy(rows, PillarName);
    SortKeepsMembers(rows, PillarName);
    var r := PageMap(sorted, query, PageSize, ItemOf);
    assert r.Ok? ==> forall i :: 0 <= i < |r.value.items| ==>
      var k := Skip(RequestedPage(query).value, PageSize) + i; sorted[k] in rows && r.value.items[i] == ItemOf(sorted[k]);
    r
  }


  datatype Detail = Detail(id: Id, name: string, subpillars: seq<SubPillar>)

  /** getPillar: an unknown id gives the empty object, not an error. */
  function GetPillar(pillars: map<Id, Pillar>, subs: seq<SubPillar>, id: Id): (r: Option<Detail>)
    ensures r.None? <==> id !in pillars
    ensures r.Some? ==> r.value.id == id && r.value.name == pillars[id].name
    ensures r.Some? ==> SortedBy(r.value.subpillars, SubPillarName)
    ensures r.Some? ==> forall x :: x in r.value.subpillars <==> x in subs && x.pillarId == id
  {
    if id !in pillars then None
    else Some(Detail(id, pillars[id].name, SubPillarsOf(subs, id)))
  }

  // ---------------------------------------------------------------------
  // createPillar

  datatype PillarInput = PillarInput(name: string, subpillars: seq<string>, actor: string)

  predicate AllInRange(draws: seq<nat>) {
    forall i :: 0 <= i < |draws| ==> InDigitRange(draws[i], IdDigits)
  }

  function SubPillarRows(pillarId: Id, names: seq<string>, actor: string, draws: seq<nat>): (rows: seq<SubPillar>)
    requires |draws| == |names| && AllInRange(draws)
    ensures |rows| == |names|
    ensures forall i :: 0 <= i < |rows| ==>
      && rows[i].id == MintId(PrefixText(SUBPILLAR), draws[i], IdDigits) && rows[i].pillarId == pillarId
      && rows[i].name == names[i] && rows[i].slug == Slug(names[i])
  {
    seq(|names|, i requires 0 <= i < |names| =>
      SubPillar(MintId(PrefixText(SUBPILLAR), draws[i], IdDigits), pillarId, names[i], Slug(names[i]), actor, actor))
  }

  const SubPillarKey: SubPillar -> Id := (x: SubPillar) => x.id

  /** createPillar: one nested create, rejected as a whole when an id is taken. */
  function CreatePillar(s: State, body: PillarInput, draw: nat, subDraws: seq<nat>): (r: Reply<State, Id>)
    requires InDigitRange(draw, IdDigits) && AllInRange(subDraws) && |subDraws| == |body.subpillars|
    ensures r.result.Err? ==> r.result.error == DbFailure && r.state == s
    ensures r.result.Ok? ==> var id := r.result.value;
      && id == MintId(PrefixText(PILLAR), draw, IdDigits) && id !in s.pillars
      && r.state.pillars == s.pillars[id := Pillar(id, body.name, Slug(body.name), body.actor, body.actor)]
    ensures r.result.Ok? ==> var rows := SubPillarRows(r.result.value, body.subpillars, body.actor, subDraws);
      forall i :: 0 <= i < |rows| ==> rows[i].id in r.state.subpillars && r.state.subpillars[rows[i].id] == rows[i]
    ensures r.result.Ok? ==> forall k :: k in s.subpillars ==> k in r.state.subpillars && r.state.subpillars[k] == s.subpillars[k]
    ensures r.result.Ok? ==> forall k :: k in r.state.subpillars ==> k in s.subpillars || k in KeysOf(SubPillarRows(r.result.value, body.subpillars, body.actor, subDraws), SubPillarKey)
    ensures r.result.Err? <==> (MintId(PrefixText(PILLAR), draw, IdDigits) in s.pillars
      || !BatchFits(s.subpillars, KeysOf(SubPillarRows(MintId(PrefixText(PILLAR), draw, IdDigits), body.subpillars, body.actor, subDraws), SubPillarKey)))
  {
    var id := MintId(PrefixText(PILLAR), draw, IdDigits);
    var rows := SubPillarRows(id, body.subpillars, body.actor, subDraws);
    var ids := KeysOf(rows, SubPillarKey);
    if id in s.pillars || !BatchFits(s.subpillars, ids) then Reply(s, Err(DbFailure))
    else
      Reply(State(s.pillars[id := Pillar(id, body.name, Slug(body.name), body.actor, body.actor)],
                  InsertRows(s.subpillars, ids, rows)), Ok(id))
  }

  lemma CreatePillarPreservesInvariants(s: State, body: PillarInput, draw: nat, subDraws: seq<nat>)
    requires InDigitRange(draw, IdDigits) && AllInRange(subDraws) && |subDraws| == |body.subpillars|
    requires Consistent(s) && SlugsFollowNames(s)
    ensures Consistent(CreatePillar(s, body, draw, subDraws).state)
    ensures SlugsFollowNames(CreatePillar(s, body, draw, subDraws).state)
  {
    var r := CreatePillar(s, body, draw, subDraws);
    if r.result.Ok? {
      var rows := SubPillarRows(r.result.value, body.subpillars, body.actor, subDraws);
      var ids := KeysOf(rows, SubPillarKey);
      forall k | k in r.state.subpillars && k !in s.subpillars
        ensures r.state.subpillars[k].pillarId in r.state.pillars
        ensures r.state.subpillars[k].name != "" ==> r.state.subpillars[k].slug == Slug(r.state.subpillars[k].name)
      {
        var i :| 0 <= i < |ids| && ids[i] == k;
        assert rows[i].id == k;
      }
    }
  }

  // ---------------------------------------------------------------------
  // updatePillar

  datatype SubPatch = SubPatch(id: Id, name: string)
  datatype PillarUpdate = PillarUpdate(id: Id, name: Option<string>, subpillars: Option<seq<SubPatch>>, actor: string)

  const SubPatchKey: SubPatch -> Id := (p: SubPatch) => p.id

  /** The pillar's own update: the name if given; the slug only for a truthy name. */
  function PatchPillar(p: Pillar, body: PillarUpdate): (w: Pillar)
    ensures w.id == p.id && w.createdBy == p.createdBy && w.updatedBy == body.actor
    ensures w.name == Keep(body.name, p.name)
    ensures w.slug == if Truthy(body.name) then Slug(body.name.value) else p.slug
  {
    p.(name := Keep(body.name, p.name), slug := if Truthy(body.name) then Slug(body.name.value) else p.slug, updatedBy := body.actor)
  }

  /** The `update` half of a subpillar upsert. */
  function PatchSub(actor: string): (SubPillar, SubPatch) -> SubPillar {
    (x: SubPillar, p: SubPatch) => x.(name := p.name, slug := if p.name != "" then Slug(p.name) else x.slug, updatedBy := actor)
  }

  /** The `create` half: it always has what it needs. */
  function NewSub(pillarId: Id, actor: string): (SubPatch, Id) -> Option<SubPillar> {
    (p: SubPatch, id: Id) => Some(SubPillar(id, pillarId, p.name, Slug(p.name), actor, actor))
  }

  /** The id each listed subpillar gets if its upsert inserts. */
  function NewSubIds(draws: seq<nat>): (ids: seq<Id>)
    requires AllInRange(draws)
    ensures |ids| == |draws| && forall i :: 0 <= i < |ids| ==> ids[i] == MintId(PrefixText(SUBPILLAR), draws[i], IdDigits)
  {
    seq(|draws|, i requires 0 <= i < |draws| => MintId(PrefixText(SUBPILLAR), draws[i], IdDigits))
  }

  function UpsertSubs(s: State, body: PillarUpdate, draws: seq<nat>): Upserted<SubPillar>
    requires body.subpillars.Some? && AllInRange(draws) && |draws| == |body.subpillars.value|
  {
    UpsertAll(s.subpillars, body.subpillars.value, SubPatchKey, PatchSub(body.actor), NewSub(body.id, body.actor), NewSubIds(draws))
  }

  /** updatePillar: NotFound first. A non-empty subpillar list runs its
      upserts together with the pillar's update (`Promise.all`): all of them
      take effect and a rejected insert is reported afterwards. An absent or
      empty list updates the pillar alone. */
  function UpdatePillar(s: State, body: PillarUpdate, draws: seq<nat>): (r: Reply<State, Id>)
    requires AllInRange(draws) && |draws| == |body.subpillars.GetOr([])|
    ensures body.id !in s.pillars ==> r == Reply(s, Err(NotFound))
    ensures body.id in s.pillars ==> r.state.pillars == s.pillars[body.id := PatchPillar(s.pillars[body.id], body)]
    ensures body.id in s.pillars && body.subpillars.GetOr([]) == [] ==> r == Reply(s.(pillars := r.state.pillars), Ok(body.id))
    ensures body.id in s.pillars && body.subpillars.GetOr([]) != [] ==>
      r.state.subpillars == UpsertSubs(s, body, draws).rows
      && r.result == if UpsertSubs(s, body, draws).failed then Err(DbFailure) else Ok(body.id)
  {
    if body.id !in s.pillars then Reply(s, Err(NotFound))
    else
      var pillars := s.pillars[body.id := PatchPillar(s.pillars[body.id], body)];
      if body.subpillars.None? || |body.subpillars.value| == 0 then Reply(s.(pillars := pillars), Ok(body.id))
      else
        var u := UpsertSubs(s, body, draws);
        Reply(State(pillars, u.rows), if u.failed then Err(DbFailure) else Ok(body.id))
  }

  /** A listed subpillar whose id is stored, and listed once, is renamed and
      re-slugged in place. */
  lemma UpdatePillarRenamesListed(s: State, body: PillarUpdate, draws: seq<nat>, i: int)
    requires AllInRange(draws) && |draws| == |body.subpillars.GetOr([])| && body.id in s.pillars
    requires var ps := body.subpillars.GetOr([]);
      0 <= i < |ps| && ps[i].id in s.subpillars && forall j :: 0 <= j < |ps| && j != i ==> ps[j].id != ps[i].id
    ensures var ps := body.subpillars.value;
      var t := UpdatePillar(s, body, draws).state;
      && ps[i].id in t.subpillars
      && t.subpillars[ps[i].id].name == ps[i].name
      && t.subpillars[ps[i].id].pillarId == s.subpillars[ps[i].id].pillarId
      && (ps[i].name != "" ==> t.subpillars[ps[i].id].slug == Slug(ps[i].name))
  {
    var ps := body.subpillars.value;
    assert UpdatePillar(s, body, draws).state.subpillars == UpsertSubs(s, body, draws).rows;
    UpdatedRow(s.subpillars, ps, SubPatchKey, PatchSub(body.actor), NewSub(body.id, body.actor), NewSubIds(draws), i);
  }

  /** A stored subpillar the list does not name is left as it was. */
  lemma UpdatePillarKeepsUnlisted(s: State, body: PillarUpdate, draws: seq<nat>, k: Id)
    requires AllInRange(draws) && |draws| == |body.subpillars.GetOr([])|
    requires var ps := body.subpillars.GetOr([]);
      k in s.subpillars && forall j :: 0 <= j < |ps| ==> ps[j].id != k
    ensures k in UpdatePillar(s, body, draws).state.subpillars
    ensures UpdatePillar(s, body, draws).state.subpillars[k] == s.subpillars[k]
  {
    var ps := body.subpillars.GetOr([]);
    if body.id in s.pillars && |ps| > 0 {
      assert UpdatePillar(s, body, draws).state.subpillars == UpsertSubs(s, body, draws).rows;
      UntouchedRows(s.subpillars, ps, SubPatchKey, PatchSub(body.actor), NewSub(body.id, body.actor), NewSubIds(draws), k);
    }
  }

  /** The update keeps the store consistent and every non-empty name next to its slug. */
  lemma UpdatePillarPreservesInvariants(s: State, body: PillarUpdate, draws: seq<nat>)
    requires AllInRange(draws) && |draws| == |body.subpillars.GetOr([])|
    requires Consistent(s) && SlugsFollowNames(s)
    ensures Consistent(UpdatePillar(s, body, draws).state)
    ensures SlugsFollowNames(UpdatePillar(s, body, draws).state)
  {
    var ps := body.subpillars.GetOr([]);
    var t := UpdatePillar(s, body, draws).state;
    if body.id in s.pillars {
      var pillars := s.pillars[body.id := PatchPillar(s.pillars[body.id], body)];
      assert t.pillars == pillars;
      assert forall k :: k in s.pillars ==> k in pillars;
      if |ps| > 0 {
        var inv := (k: Id, x: SubPillar) => x.pillarId in pillars && (x.name != "" ==> x.slug == Slug(x.name));
        assert t.subpillars == UpsertSubs(s, body, draws).rows;
        assert forall k :: k in s.subpillars ==> inv(k, s.subpillars[k]);
        KeepsInvariant(s.subpillars, ps, SubPatchKey, PatchSub(body.actor), NewSub(body.id, body.actor), NewSubIds(draws), inv);
        assert forall k :: k in t.subpillars ==> inv(k, t.subpillars[k]);
      } else {
        assert t.subpillars == s.subpillars;
      }
    }
  }

  // ---------------------------------------------------------------------
  // deletePillar

  /** deletePillar: the pillar goes and its subpillars with it. */
  function DeletePillar(s: State, id: Id): (r: Reply<State, Id>)
    ensures id !in s.pillars ==> r == Reply(s, Err(NotFound))
    ensures id in s.pillars ==> r.result == Ok(id) && r.state.pillars == s.pillars - {id}
    ensures id in s.pillars ==> forall k :: k in r.state.subpillars <==> k in s.subpillars && s.subpillars[k].pillarId != id
    ensures forall k :: k in r.state.subpillars ==> r.state.subpillars[k] == s.subpillars[k]
  {
    if id !in s.pillars then Reply(s, Err(NotFound))
    else Reply(State(s.pillars - {id}, map k | k in s.subpillars && s.subpillars[k].pillarId != id :: s.subpillars[k]), Ok(id))
  }

  lemma DeletePillarPreservesConsistency(s: State, id: Id)
    requires Consistent(s)
    ensures Consistent(DeletePillar(s, id).state)
  {}
}

=== FILE: positions.dfy ===
/** Team positions (src/positions/positions.service.ts): a name per id, ids
    `JPSPOS` followed by four digits, and a listing that says which
    positions no team holds. */
module Positions {
  import opened Common
  import opened Constants

  datatype Position = Position(id: Id, name: string, createdBy: string, updatedBy: string)

  /** The position table and, for every team, the position it holds. */
  datatype State = State(positions: map<Id, Position>, teams: map<Id, Id>)

  const IdDigits: nat := 4

  /** Every position is stored under its own id and every team holds a
      stored position. */
  predicate Consistent(s: State) {
    && (forall k :: k in s.positions ==> s.positions[k].id == k)
    && (forall t :: t in s.teams ==> s.teams[t] in s.positions)
  }

  /** `_count.team`: the number of teams holding the position. */
  function TeamCount(teams: map<Id, Id>, pid: Id): (n: nat)
    ensures n == 0 <==> forall t :: t in teams ==> teams[t] != pid
  {
    var holders := set t | t in teams && teams[t] == pid;
    if exists t :: t in teams && teams[t] == pid then
      var t :| t in teams && teams[t] == pid;
      assert t in holders;
      |holders|
    else
      |holders|
  }

  datatype Listed = Listed(id: Id, name: string, canDelete: bool)

  /** getPositions: `rows` is the table newest first; `can_delete` is
      `!Boolean(count)`. */
  function GetPositions(rows: seq<Position>, teams: map<Id, Id>): (r: seq<Listed>)
    ensures |r| == |rows|
    ensures forall i :: 0 <= i < |r| ==> r[i].id == rows[i].id && r[i].name == rows[i].name
    ensures forall i :: 0 <= i < |r| ==> (r[i].canDelete <==> forall t :: t in teams ==> teams[t] != rows[i].id)
  {
    seq(|rows|, i requires 0 <= i < |rows| => Listed(rows[i].id, rows[i].name, TeamCount(teams, rows[i].id) == 0))
  }

  datatype PositionInput = PositionInput(name: string, actor: string)

  /** createPosition: `JPSPOS` and a four-digit draw; a taken id is a
      primary-key rejection. */
  function CreatePosition(s: State, body: PositionInput, draw: nat): (r: Reply<State, Id>)
    requires InDigitRange(draw, IdDigits)
    ensures r.result.Ok? <==> MintId(PrefixText(POSITION), draw, IdDigits) !in s.positions
    ensures r.result.Err? ==> r == Reply(s, Err(DbFailure))
    ensures r.result.Ok? ==> var id := r.result.value;
      && |id| == 10 && id[..6] == "JPSPOS"
      && r.state == s.(positions := s.positions[id := Position(id, body.name, body.actor, body.actor)])
  {
    var id := MintId(PrefixText(POSITION), draw, IdDigits);
    if id in s.positions then Reply(s, Err(DbFailure))
    else Reply(s.(positions := s.positions[id := Position(id, body.name, body.actor, body.actor)]), Ok(id))
  }

  /** A position just created is held by no team, so the listing offers to
      delete it. */
  lemma NewPositionIsDeletable(s: State, body: PositionInput, draw: nat)
    requires InDigitRange(draw, IdDigits) && Consistent(s)
    requires CreatePosition(s, body, draw).result.Ok?
    ensures var r := CreatePosition(s, body, draw);
      Consistent(r.state) && TeamCount(r.state.teams, r.result.value) == 0
  {}

  datatype PositionPatch = PositionPatch(id: Id, name: Option<string>, actor: string)

  /** updatePosition: NotFound for an unknown id; only `name` (when given)
      and `updated_by` are written. */
  function UpdatePosition(s: State, body: PositionPatch): (r: Reply<State, Id>)
    ensures body.id !in s.positions ==> r == Reply(s, Err(NotFound))
    ensures body.id in s.positions ==> (r.result == Ok(body.id) && r.state.teams == s.teams
      && r.state.positions.Keys == s.positions.Keys
      && (forall k :: k in s.positions && k != body.id ==> r.state.positions[k] == s.positions[k])
      && r.state.positions[body.id].id == s.positions[body.id].id
      && r.state.positions[body.id].createdBy == s.positions[body.id].createdBy
      && r.state.positions[body.id].name == Keep(body.name, s.positions[body.id].name)
      && r.state.positions[body.id].updatedBy == body.actor)
  {
    if body.id !in s.positions then Reply(s, Err(NotFound))
    else
      var p := s.positions[body.id];
      Reply(s.(positions := s.positions[body.id := p.(name := Keep(body.name, p.name), updatedBy := body.actor)]), Ok(body.id))
  }

  /** deletePosition: NotFound for an unknown id. The team table refers to
      its position through a required foreign key, which the database
      enforces with its default rule (restrict): deleting a position some
      team still holds is rejected and nothing changes. Otherwise the row
      goes. */
  function DeletePosition(s: State, id: Id): (r: Reply<State, Id>)
    ensures id !in s.positions ==> r == Reply(s, Err(NotFound))
    ensures id in s.positions && TeamCount(s.teams, id) > 0 ==> r == Reply(s, Err(DbFailure))
    ensures id in s.positions && TeamCount(s.teams, id) == 0 ==> r == Reply(s.(positions := s.positions - {id}), Ok(id))
  {
    if id !in s.positions then Reply(s, Err(NotFound))
    else if TeamCount(s.teams, id) > 0 then Reply(s, Err(DbFailure))
    else Reply(s.(positions := s.positions - {id}), Ok(id))
  }

  /** Deleting keeps the store consistent on every path, and it succeeds on
      a stored position exactly when the listing offers `can_delete`. */
  lemma {:induction false} DeleteKeepsConsistent(s: State, rows: seq<Position>, i: nat, id: Id)
    requires Consistent(s) && i < |rows| && rows[i].id == id
    ensures Consistent(DeletePosition(s, id).state)
    ensures id in s.positions ==> (DeletePosition(s, id).result.Ok? <==> GetPositions(rows, s.teams)[i].canDelete)
  {
    var r := DeletePosition(s, id);
    if id in s.positions && TeamCount(s.teams, id) == 0 {
      forall t | t in r.state.teams ensures r.state.teams[t] in r.state.positions {
        assert s.teams[t] != id;
      }
    }
  }

  /** Applying the same update twice equals applying it once. */
  lemma UpdatePositionIdempotent(s: State, body: PositionPatch)
    ensures UpdatePosition(UpdatePosition(s, body).state, body) == UpdatePosition(s, body)
  {
    if body.id in s.positions {
      var once := UpdatePosition(s, body).state;
      assert once.positions[body.id := once.positions[body.id]] == once.positions;
    }
  }

  /** Deleting a position just created restores the table. */
  lemma CreateThenDeleteRestores(s: State, body: PositionInput, draw: nat)
    requires InDigitRange(draw, IdDigits) && Consistent(s)
    requires CreatePosition(s, body, draw).result.Ok?
    ensures var c := CreatePosition(s, body, draw);
      DeletePosition(c.state, c.result.value) == Reply(s, Ok(c.result.value))
  {
    var c := CreatePosition(s, body, draw);
    var id := c.result.value;
    assert c.state.positions - {id} == s.positions;
    assert c.state.teams == s.teams;
    forall t | t in s.teams ensures s.teams[t] != id {
      assert s.teams[t] in s.positions;
    }
  }
}

=== FILE: public_guard.dfy ===
/** The guard on the public routes (src/utils/guards/public.guard.ts). A
    request that does not claim the admin role through `x-role` passes as
    public and its token is never looked at; one that does must carry a
    bearer token that verifies to an admin or superadmin payload. JWT
    verification is a parameter of the model. */
module PublicGuard {
  import opened Common
  import opened Text

  datatype Payload = Payload(subject: string, role: string)

  /** What `verifyAsync` does with a token: resolve to its payload or reject. */
  datatype Verification = Verified(payload: Payload) | Rejected

  datatype Request = Request(xRole: Option<string>, authorization: Option<string>)

  /** `true` with the request annotated, or `false`. */
  datatype Decision = Allow(xrole: string, admin: Option<Payload>) | Deny

  /** `const [type, token] = authorization?.split(' ') ?? []`, then the
      token only if the type is exactly `Bearer`. */
  function ExtractToken(authorization: Option<string>): (t: Option<string>)
    ensures t.Some? ==> authorization.Some? && IsPrefix("Bearer ", authorization.value)
    ensures t.Some? ==> ' ' !in t.value
  {
    match authorization
    case None => None
    case Some(a) =>
      var parts := Split(a, ' ');
      if parts[0] == "Bearer" && |parts| >= 2 then
        JoinSplit(a, ' ');
        assert a == parts[0] + [' '] + Join(parts[1..], ' ');
        assert a[..7] == "Bearer ";
        Some(parts[1])
      else None
  }

  /** The round trip: a header built as `Bearer <token>`, with anything
      after a further space, yields the token back. */
  lemma BearerRoundTrip(token: string, rest: Option<string>)
    requires ' ' !in token
    ensures ExtractToken(Some("Bearer " + token)) == Some(token)
    ensures rest.Some? ==> ExtractToken(Some("Bearer " + token + " " + rest.value)) == Some(token)
  {
    assert ' ' !in "Bearer";
    SplitWord(token, ' ');
    assert "Bearer " + token == "Bearer" + [' '] + token;
    SplitWordThen("Bearer", token, ' ');
    if rest.Some? {
      SplitWordThen(token, rest.value, ' ');
      assert "Bearer " + token + " " + rest.value == "Bearer" + [' '] + (token + [' '] + rest.value);
      SplitWordThen("Bearer", token + [' '] + rest.value, ' ');
    }
  }

  /** The scheme is matched case-sensitively. */
  lemma LowerCaseSchemeRejected(token: string)
    ensures ExtractToken(Some("bearer " + token)).None?
  {
    assert ("bearer " + token)[0] == 'b';
  }

  predicate IsAdminRole(role: string) {
    role == "admin" || role == "superadmin"
  }

  /** canActivate. A missing token is rejected by the verifier like a bad one. */
  function CanActivate(req: Request, verify: string -> Verification): (r: Result<Decision>)
    ensures req.xRole != Some("admin") ==> r == Ok(Allow("public", None))
    ensures r == Ok(Allow("public", None)) ==> req.xRole != Some("admin")
    ensures r.Ok? && r.value.Allow? && r.value.xrole == "admin" ==>
      var t := ExtractToken(req.authorization);
      t.Some? && r.value.admin.Some? && verify(t.value) == Verified(r.value.admin.value) && IsAdminRole(r.value.admin.value.role)
    ensures r == Err(Unauthorized) <==>
      req.xRole == Some("admin") && (ExtractToken(req.authorization).None? || verify(ExtractToken(req.authorization).value).Rejected?)
    ensures r == Ok(Deny) <==>
      req.xRole == Some("admin") && ExtractToken(req.authorization).Some?
      && verify(ExtractToken(req.authorization).value).Verified?
      && !IsAdminRole(verify(ExtractToken(req.authorization).value).payload.role)
  {
    if req.xRole != Some("admin") then Ok(Allow("public", None))
    else
      match ExtractToken(req.authorization)
      case None => Err(Unauthorized)
      case Some(token) =>
        match verify(token)
        case Rejected => Err(Unauthorized)
        case Verified(p) => if IsAdminRole(p.role) then Ok(Allow("admin", Some(p))) else Ok(Deny)
  }

  /** A request passes as admin only with a token that verifies to an admin
      role, and every such token lets an admin-claiming request through. */
  lemma AdminAccessIff(req: Request, verify: string -> Verification)
    requires req.xRole == Some("admin")
    ensures (CanActivate(req, verify).Ok? && CanActivate(req, verify).value.Allow?) <==>
      exists token :: ExtractToken(req.authorization) == Some(token)
        && verify(token).Verified? && IsAdminRole(verify(token).payload.role)
  {
    var t := ExtractToken(req.authorization);
    if t.Some? {
      var token := t.value;
      assert ExtractToken(req.authorization) == Some(token);
    }
  }
}

=== FILE: string_util.dfy ===
/** The four pure helpers of src/utils/string.util.ts: `slug`, `capitalize`,
    `getInitials` and `getReadingTimeFromHTML`. */
module StringUtil {
  import opened Common
  import opened Text

  // =====================================================================
  // slug

  /** A character that may appear in a slug. */
  predicate IsSlugChar(c: char) { IsAsciiLower(c) || IsDigit(c) || c == '-' }

  /** A character that survives `.replace(/[^a-z0-9\s-]/g, '')`. */
  predicate KeptBySlug(c: char) { IsAsciiLower(c) || IsDigit(c) || IsSpace(c) || c == '-' }

  /** `.replace(/[^a-z0-9\s-]/g, '')` */
  function DropDisallowed(s: string): (r: string)
    ensures |r| <= |s|
    ensures forall i :: 0 <= i < |r| ==> KeptBySlug(r[i])
    ensures (forall i :: 0 <= i < |s| ==> KeptBySlug(s[i])) ==> r == s
  {
    if |s| == 0 then ""
    else (if KeptBySlug(s[0]) then [s[0]] else "") + DropDisallowed(s[1..])
  }

  /** `.replace(/\s+/g, '-')`: every maximal run of white space becomes one hyphen. */
  function HyphenateSpaces(s: string): (r: string)
    ensures |r| <= |s|
    ensures forall i :: 0 <= i < |r| ==> !IsSpace(r[i])
    ensures (forall i :: 0 <= i < |s| ==> KeptBySlug(s[i])) ==> forall i :: 0 <= i < |r| ==> IsSlugChar(r[i])
    ensures (forall i :: 0 <= i < |s| ==> !IsSpace(s[i])) ==> r == s
    decreases |s|
  {
    if |s| == 0 then ""
    else if IsSpace(s[0]) then "-" + HyphenateSpaces(TrimStart(s))
    else [s[0]] + HyphenateSpaces(s[1..])
  }

  /** `slug(text)`: lower-case, trim, drop everything outside `[a-z0-9\s-]`,
      then turn each white-space run into `-`. The result is URL-safe and no
      longer than the input. */
  function Slug(text: string): (r: string)
    ensures |r| <= |text|
    ensures forall i :: 0 <= i < |r| ==> IsSlugChar(r[i])
  {
    HyphenateSpaces(DropDisallowed(Trim(ToLower(text))))
  }

  lemma TrimNoSpace(s: string)
    requires forall i :: 0 <= i < |s| ==> !IsSpace(s[i])
    ensures Trim(s) == s
  {
    assert TrimStart(s) == s;
  }

  /** A slug is its own slug. */
  lemma SlugIdempotent(text: string)
    ensures Slug(Slug(text)) == Slug(text)
  {
    var s := Slug(text);
    assert forall i :: 0 <= i < |s| ==> !IsSpace(s[i]) && KeptBySlug(s[i]) && !IsAsciiUpper(s[i]);
    assert ToLower(s) == s;
    TrimNoSpace(s);
    assert DropDisallowed(s) == s;
  }

  // =====================================================================
  // capitalize

  /** `word.charAt(0).toUpperCase() + word.slice(1)` */
  function CapitalizeWord(w: string): string {
    if |w| == 0 then "" else [ToUpperChar(w[0])] + w[1..]
  }

  function CapitalizeWords(parts: seq<string>): (r: seq<string>)
    ensures |r| == |parts|
  {
    seq(|parts|, k requires 0 <= k < |parts| => CapitalizeWord(parts[k]))
  }

  /** Reference definition of capitalisation, by position: a character is
      upper-cased exactly when it starts the text or follows a space. */
  function CapitalizedAt(s: string): (r: string)
    ensures |r| == |s|
  {
    seq(|s|, i requires 0 <= i < |s| => if i == 0 || s[i - 1] == ' ' then ToUpperChar(s[i]) else s[i])
  }

  lemma CapitalizeWordAt(w: string)
    requires ' ' !in w
    ensures CapitalizeWord(w) == CapitalizedAt(w)
  {
    if |w| > 0 {
      forall i | 0 < i < |w|
        ensures CapitalizeWord(w)[i] == CapitalizedAt(w)[i]
      {
        assert w[i - 1] in w;
      }
    }
  }

  lemma CapitalizedAtSpace(w: string, t: string)
    ensures CapitalizedAt(w + [' '] + t) == CapitalizedAt(w) + [' '] + CapitalizedAt(t)
  {
    var s := w + [' '] + t;
    var lhs := CapitalizedAt(s);
    var rhs := CapitalizedAt(w) + [' '] + CapitalizedAt(t);
    forall i | 0 <= i < |s|
      ensures lhs[i] == rhs[i]
    {
      if i > |w| + 1 {
        assert s[i - 1] == t[i - |w| - 2];
      }
    }
  }

  lemma {:induction false} JoinCapitalized(parts: seq<string>)
    requires |parts| >= 1
    requires forall k :: 0 <= k < |parts| ==> ' ' !in parts[k]
    ensures Join(CapitalizeWords(parts), ' ') == CapitalizedAt(Join(parts, ' '))
    decreases |parts|
  {
    CapitalizeWordAt(parts[0]);
    if |parts| > 1 {
      JoinCapitalized(parts[1..]);
      assert CapitalizeWords(parts)[1..] == CapitalizeWords(parts[1..]);
      CapitalizedAtSpace(parts[0], Join(parts[1..], ' '));
    }
  }

  /** `capitalize(words)`: split on single spaces, upper-case the first
      character of each piece, join with single spaces. Equivalently, the
      length and every space stay put and exactly the characters at the start
      of the text or right after a space are upper-cased. */
  function Capitalize(words: string): (r: string)
    ensures |r| == |words|
    ensures forall i :: 0 <= i < |words| ==>
              r[i] == (if i == 0 || words[i - 1] == ' ' then ToUpperChar(words[i]) else words[i])
  {
    var parts := Split(words, ' ');
    JoinCapitalized(parts);
    JoinSplit(words, ' ');
    Join(CapitalizeWords(parts), ' ')
  }

  /** Spaces stay exactly where they were. */
  lemma CapitalizeKeepsSpaces(words: string, i: int)
    requires 0 <= i < |words|
    ensures Capitalize(words)[i] == ' ' <==> words[i] == ' '
  {
    var r := Capitalize(words);
    assert r[i] == (if i == 0 || words[i - 1] == ' ' then ToUpperChar(words[i]) else words[i]);
  }

  /** Capitalising twice is capitalising once. */
  lemma CapitalizeIdempotent(words: string)
    ensures Capitalize(Capitalize(words)) == Capitalize(words)
  {
    var c := Capitalize(words);
    forall i | 0 <= i < |words|
      ensures Capitalize(c)[i] == c[i]
    {
      UpperIdempotent(words[i]);
      if i > 0 {
        CapitalizeKeepsSpaces(words, i - 1);
      }
      assert Capitalize(c)[i] == (if i == 0 || c[i - 1] == ' ' then ToUpperChar(c[i]) else c[i]);
      assert c[i] == (if i == 0 || words[i - 1] == ' ' then ToUpperChar(words[i]) else words[i]);
    }
  }

  // =====================================================================
  // getInitials

  /** `word.charAt(0)`: the empty string for an empty word. */
  function FirstChar(w: string): (r: string)
    ensures |r| <= 1
  {
    if |w| == 0 then "" else [w[0]]
  }

  /** `parts.map(charAt(0)).join('')` */
  function InitialsOf(parts: seq<string>): string {
    if |parts| == 0 then "" else FirstChar(parts[0]) + InitialsOf(parts[1..])
  }

  /** The non-empty pieces, in order. */
  function NonEmpty(parts: seq<string>): (r: seq<string>)
    ensures forall k :: 0 <= k < |r| ==> |r[k]| > 0
  {
    if |parts| == 0 then []
    else (if |parts[0]| > 0 then [parts[0]] else []) + NonEmpty(parts[1..])
  }

  lemma {:induction false} InitialsOfNonEmpty(parts: seq<string>)
    ensures |InitialsOf(parts)| == |NonEmpty(parts)|
    ensures forall i :: 0 <= i < |InitialsOf(parts)| ==> InitialsOf(parts)[i] == NonEmpty(parts)[i][0]
    decreases |parts|
  {
    if |parts| > 0 {
      InitialsOfNonEmpty(parts[1..]);
    }
  }

  /** The words of `getInitials`, as `split(' ')` yields them. */
  function Words(s: string): seq<string> {
    NonEmpty(Split(s, ' '))
  }

  /** `getInitials(words)`: one character per non-empty space-separated word,
      namely that word's first character, in order. Runs of spaces and
      leading or trailing spaces contribute nothing. */
  function GetInitials(words: string): (r: string)
    ensures |r| == |Words(words)|
    ensures forall i :: 0 <= i < |r| ==> r[i] == Words(words)[i][0]
  {
    InitialsOfNonEmpty(Split(words, ' '));
    InitialsOf(Split(words, ' '))
  }

  // =====================================================================
  // getReadingTimeFromHTML

  const WordsPerMinute: nat := 200

  /** Position just past the first `>` at or after `from`, or `|s|` if none. */
  function TagEnd(s: string, from: nat): (e: nat)
    requires from <= |s|
    ensures from <= e <= |s|
    ensures e > from || e == |s|
    decreases |s| - from
  {
    if from == |s| then |s| else if s[from] == '>' then from + 1 else TagEnd(s, from + 1)
  }

  /** A match of `/<\/?[^>]+(>|$)/` starts here: a `<` followed by at least
      one character that is not `>`. */
  predicate TagStartsAt(s: string) {
    |s| >= 2 && s[0] == '<' && s[1] != '>'
  }

  /** `html.replace(/<\/?[^>]+(>|$)/g, '')`: scanning left to right, each
      match runs from its `<` through the next `>`, or to the end of the
      text when no `>` follows. A `<` that starts no match is kept. */
  function StripTags(html: string): (r: string)
    ensures |r| <= |html|
    ensures '<' !in html ==> r == html
    decreases |html|
  {
    if |html| == 0 then ""
    else if TagStartsAt(html) then StripTags(html[TagEnd(html, 1)..])
    else
      assert '<' !in html ==> '<' !in html[1..] by {
        if '<' in html[1..] { var k :| 0 <= k < |html[1..]| && html[1..][k] == '<'; assert html[k + 1] == '<'; }
      }
      [html[0]] + StripTags(html[1..])
  }

  /** `s.split(/\s+/)`: pieces between maximal runs of white space. */
  function SplitOnSpaceRuns(s: string): (parts: seq<string>)
    ensures |parts| >= 1
    decreases |s|
  {
    if |s| == 0 then [""]
    else if IsSpace(s[0]) then [""] + SplitOnSpaceRuns(TrimStart(s))
    else
      var rest := SplitOnSpaceRuns(s[1..]);
      [[s[0]] + rest[0]] + rest[1..]
  }

  /** Number of maximal runs of white space. */
  function SpaceRuns(s: string): nat
    decreases |s|
  {
    if |s| == 0 then 0
    else if IsSpace(s[0]) then 1 + SpaceRuns(TrimStart(s))
    else SpaceRuns(s[1..])
  }

  /** Reference word count: the number of maximal runs of non-space characters. */
  function WordCount(s: string): nat
    decreases |s|
  {
    if |s| == 0 then 0
    else if !IsSpace(s[0]) then 1 + WordCount(DropWord(s))
    else WordCount(s[1..])
  }

  lemma {:induction false} SplitOnSpaceRunsLength(s: string)
    ensures |SplitOnSpaceRuns(s)| == 1 + SpaceRuns(s)
    decreases |s|
  {
    if |s| > 0 {
      if IsSpace(s[0]) {
        SplitOnSpaceRunsLength(TrimStart(s));
      } else {
        SplitOnSpaceRunsLength(s[1..]);
      }
    }
  }

  lemma {:induction false} SpaceRunsSkipWord(s: string)
    requires |s| > 0 && !IsSpace(s[0])
    ensures SpaceRuns(s) == SpaceRuns(DropWord(s))
    decreases |s|
  {
    if |s| > 1 && !IsSpace(s[1]) {
      SpaceRunsSkipWord(s[1..]);
    }
  }

  lemma {:induction false} WordCountSkipSpaces(s: string)
    ensures WordCount(s) == WordCount(TrimStart(s))
    decreases |s|
  {
    if |s| > 0 && IsSpace(s[0]) {
      WordCountSkipSpaces(s[1..]);
    }
  }

  lemma {:induction false} DropWordSnoc(s: string, c: char)
    requires IsSpace(c)
    ensures DropWord(s + [c]) == DropWord(s) + [c]
    decreases |s|
  {
    if |s| > 0 && !IsSpace(s[0]) {
      assert (s + [c])[1..] == s[1..] + [c];
      DropWordSnoc(s[1..], c);
    }
  }

  lemma {:induction false} WordCountSnocSpace(s: string, c: char)
    requires IsSpace(c)
    ensures WordCount(s + [c]) == WordCount(s)
    decreases |s|
  {
    if |s| == 0 {
      assert ([] + [c])[1..] == [];
    } else if !IsSpace(s[0]) {
      DropWordSnoc(s, c);
      WordCountSnocSpace(DropWord(s), c);
    } else {
      assert (s + [c])[1..] == s[1..] + [c];
      WordCountSnocSpace(s[1..], c);
    }
  }

  lemma {:induction false} WordCountTrimEnd(s: string)
    ensures WordCount(TrimEnd(s)) == WordCount(s)
    decreases |s|
  {
    if |s| > 0 && IsSpace(s[|s| - 1]) {
      WordCountTrimEnd(s[..|s| - 1]);
      assert s == s[..|s| - 1] + [s[|s| - 1]];
      WordCountSnocSpace(s[..|s| - 1], s[|s| - 1]);
    }
  }

  /** For text without surrounding white space, the pieces of `split(/\s+/)`
      are its words, except that the empty text still gives one piece. */
  lemma {:induction false} SpaceRunsOfTrimmed(t: string)
    requires |t| == 0 || (!IsSpace(t[0]) && !IsSpace(t[|t| - 1]))
    ensures 1 + SpaceRuns(t) == Max(1, WordCount(t))
    decreases |t|
  {
    if |t| > 0 {
      var u := DropWord(t);
      SpaceRunsSkipWord(t);
      if |u| > 0 {
        assert u[|u| - 1] == t[|t| - 1];
        var v := TrimStart(u);
        assert v[|v| - 1] == u[|u| - 1];
        SpaceRunsOfTrimmed(v);
        WordCountSkipSpaces(u);
      }
    }
  }

  /** The word count of `getReadingTimeFromHTML`: the number of pieces of
      `html` with tags stripped, trimmed, split on white-space runs. */
  function ReadingWords(html: string): nat {
    |SplitOnSpaceRuns(Trim(StripTags(html)))|
  }

  /** The piece count is the number of words of the stripped text, but at
      least 1: splitting `""` still yields one piece. */
  lemma ReadingWordsAreWords(html: string)
    ensures ReadingWords(html) == Max(1, WordCount(StripTags(html)))
  {
    var p := StripTags(html);
    SplitOnSpaceRunsLength(Trim(p));
    SpaceRunsOfTrimmed(Trim(p));
    WordCountSkipSpaces(p);
    WordCountTrimEnd(TrimStart(p));
  }

  /** `Math.ceil(words / 200)` */
  function MinutesFor(words: nat): (m: nat)
    ensures words >= 1 ==> m >= 1
    ensures m * WordsPerMinute >= words
    ensures m > 0 ==> (m - 1) * WordsPerMinute < words
  {
    CeilDiv(words, WordsPerMinute)
  }

  /** Minutes of reading time for an HTML body: never below one, and
      determined by the number of words of its tag-stripped text. */
  function ReadingMinutes(html: string): (m: nat)
    ensures m >= 1
    ensures m == MinutesFor(Max(1, WordCount(StripTags(html))))
  {
    ReadingWordsAreWords(html);
    MinutesFor(ReadingWords(html))
  }

  /** `getReadingTimeFromHTML(html)`: `"<minutes> menit waktu baca"`. */
  function GetReadingTimeFromHTML(html: string): (r: string)
    ensures r == NatToString(ReadingMinutes(html)) + " menit waktu baca"
    ensures DecimalValue(r[..|r| - |" menit waktu baca"|]) >= 1
  {
    var r := NatToString(ReadingMinutes(html)) + " menit waktu baca";
    assert r[..|r| - |" menit waktu baca"|] == NatToString(ReadingMinutes(html));
    DecimalRoundTrip(ReadingMinutes(html));
    r
  }

  /** More words never mean fewer minutes. */
  lemma MinutesMonotone(a: nat, b: nat)
    requires a <= b
    ensures MinutesFor(a) <= MinutesFor(b)
  {}

  /** The boundary: 200 words read in one minute, 201 need two, 400 two. */
  lemma MinutesBoundary()
    ensures MinutesFor(200) == 1 && MinutesFor(201) == 2 && MinutesFor(400) == 2
  {}

  /** Text without `<` is counted as it is. */
  lemma PlainTextMinutes(text: string)
    requires '<' !in text
    ensures ReadingMinutes(text) == MinutesFor(Max(1, WordCount(text)))
  {}
}

=== FILE: teams.dfy ===
/** Team members (src/teams/teams.service.ts): a photo-backed row with
    education and social-link child rows. The create builds the child rows
    from the form; the update upserts them item by item and swaps the photo;
    the child deletes guard on a row count. */
module Teams {
  import opened Common
  import opened Text
  import opened Constants
  import opened Listing
  import opened Blobs
  import opened Upsert
  import opened Order

  datatype Team = Team(
    id: Id,
    positionId: Id,
    fullname: string,
    description: string,
    imageKey: Key,
    imageUrl: string,
    createdBy: string,
    updatedBy: string)

  datatype Education = Education(id: Id, teamId: Id, name: string, level: EducationLevel, order: nat)

  datatype Social = Social(id: Id, teamId: Id, name: SocialMedia, url: string, order: nat)

  /** `positions` maps a position id to its name; this service only reads it. */
  datatype State = State(
    teams: map<Id, Team>,
    educations: map<Id, Education>,
    socials: map<Id, Social>,
    positions: map<Id, string>,
    blobs: set<Key>)

  const PageSize: nat := 5
  const IdDigits: nat := 6
  const ImageFolder: string := "teams"

  predicate Consistent(s: State) {
    && (forall t :: t in s.teams ==> s.teams[t].imageKey in s.blobs && s.teams[t].positionId in s.positions)
    && (forall e :: e in s.educations ==> s.educations[e].teamId in s.teams)
    && (forall e :: e in s.socials ==> s.socials[e].teamId in s.teams)
  }

  predicate KeysExclusive(s: State) {
    forall t, u :: t in s.teams && u in s.teams && t != u ==> s.teams[t].imageKey != s.teams[u].imageKey
  }

  /** The `order` column of every child row is the table value of its level
      or network. */
  predicate OrdersAgree(s: State) {
    && (forall e :: e in s.educations ==> s.educations[e].order == EducationOrder(s.educations[e].level))
    && (forall e :: e in s.socials ==> s.socials[e].order == SocialMediaOrder(s.socials[e].name))
  }

  // ---------------------------------------------------------------------
  // reads

  datatype Item = Item(id: Id, fullname: string, position: Option<string>, imageUrl: string)

  function PositionName(positions: map<Id, string>, id: Id): (r: Option<string>)
    ensures r.Some? <==> id in positions
    ensures r.Some? ==> r.value == positions[id]
  {
    if id in positions then Some(positions[id]) else None
  }

  function Render(positions: map<Id, string>): Team -> Item {
    (t: Team) => Item(t.id, t.fullname, PositionName(positions, t.positionId), t.imageUrl)
  }

  /** getTeams: the whole table (the query's `q` is not used), five per page. */
  function GetTeams(rows: seq<Team>, positions: map<Id, string>, query: Query): (r: Result<Page<Item>>)
    ensures Paged(r, rows, query, PageSize, Render(positions))
  {
    PageMap(rows, query, PageSize, Render(positions))
  }

  /** getPublicTeams: every team, unpaginated, with its position's name. */
  function GetPublicTeams(rows: seq<Team>, positions: map<Id, string>): (r: seq<Item>)
    ensures |r| == |rows|
    ensures forall i :: 0 <= i < |r| ==>
      && r[i].id == rows[i].id
      && r[i].fullname == rows[i].fullname
      && r[i].position == PositionName(positions, rows[i].positionId)
      && r[i].imageUrl == rows[i].imageUrl
  {
    var r := seq(|rows|, i requires 0 <= i < |rows| => Render(positions)(rows[i]));
    assert forall i :: 0 <= i < |r| ==> r[i] == Render(positions)(rows[i]);
    r
  }

  datatype Detail = Detail(id: Id, fullname: string, description: string, imageUrl: string, position: Option<string>,
                           educations: seq<Education>, socials: seq<Social>)

  const EducationRank: Education -> nat := (e: Education) => e.order
  const SocialRank: Social -> nat := (e: Social) => e.order

  /** The child rows of one team, in table order. */
  function EducationsOf(rows: seq<Education>, id: Id): (r: seq<Education>)
    ensures forall e :: e in r <==> e in rows && e.teamId == id
  {
    Filter((e: Education) => e.teamId == id, rows)
  }

  function SocialsOf(rows: seq<Social>, id: Id): (r: seq<Social>)
    ensures forall e :: e in r <==> e in rows && e.teamId == id
  {
    Filter((e: Social) => e.teamId == id, rows)
  }

  /** getTeam: an unknown id makes `findUnique` return null and the property
      read on it throw. `educationRows` and `socialRows` are the two child
      tables in store order; each relation comes back with the team's rows
      only, largest `order` first. */
  function GetTeam(s: State, educationRows: seq<Education>, socialRows: seq<Social>, id: Id): (r: Result<Detail>)
    ensures id !in s.teams <==> r == Err(TypeError)
    ensures r.Ok? ==>
      && r.value.id == id && r.value.fullname == s.teams[id].fullname
      && r.value.description == s.teams[id].description && r.value.imageUrl == s.teams[id].imageUrl
      && r.value.position == PositionName(s.positions, s.teams[id].positionId)
    ensures r.Ok? ==> multiset(r.value.educations) == multiset(EducationsOf(educationRows, id))
    ensures r.Ok? ==> DescendingBy(r.value.educations, EducationRank)
    ensures r.Ok? ==> multiset(r.value.socials) == multiset(SocialsOf(socialRows, id))
    ensures r.Ok? ==> DescendingBy(r.value.socials, SocialRank)
  {
    if id !in s.teams then Err(TypeError)
    else
      var t := s.teams[id];
      Ok(Detail(id, t.fullname, t.description, t.imageUrl, PositionName(s.positions, t.positionId),
                SortDescBy(EducationsOf(educationRows, id), EducationRank),
                SortDescBy(SocialsOf(socialRows, id), SocialRank)))
  }

  /** The relations hold exactly the team's own child rows. */
  lemma GetTeamChildren(s: State, educationRows: seq<Education>, socialRows: seq<Social>, id: Id)
    requires id in s.teams
    ensures forall e :: e in GetTeam(s, educationRows, socialRows, id).value.educations <==> e in educationRows && e.teamId == id
    ensures forall e :: e in GetTeam(s, educationRows, socialRows, id).value.socials <==> e in socialRows && e.teamId == id
  {
    var d := GetTeam(s, educationRows, socialRows, id).value;
    forall e ensures e in d.educations <==> e in EducationsOf(educationRows, id) {
      assert e in d.educations <==> e in multiset(d.educations);
      assert e in EducationsOf(educationRows, id) <==> e in multiset(EducationsOf(educationRows, id));
    }
    forall e ensures e in d.socials <==> e in SocialsOf(socialRows, id) {
      assert e in d.socials <==> e in multiset(d.socials);
      assert e in SocialsOf(socialRows, id) <==> e in multiset(SocialsOf(socialRows, id));
    }
  }

  // ---------------------------------------------------------------------
  // createTeams

  datatype EducationIn = EducationIn(name: string, level: EducationLevel)
  datatype SocialIn = SocialIn(name: SocialMedia, url: string)

  /** `with_education` and `with_social_links` arrive as `"true"`/`"false"`. */
  datatype TeamInput = TeamInput(
    positionId: Id,
    fullname: string,
    description: string,
    educations: Option<seq<EducationIn>>,
    socialLinks: Option<seq<SocialIn>>,
    withEducation: bool,
    withSocialLinks: bool,
    actor: string)

  /** The photo's `Date.now()` reading and upload outcome, the team id draw,
      and one id draw per education and per social link. */
  datatype Env = Env(now: nat, upload: UploadOutcome, draw: nat, educationDraws: seq<nat>, socialDraws: seq<nat>)

  predicate AllInRange(draws: seq<nat>) {
    forall i :: 0 <= i < |draws| ==> InDigitRange(draws[i], IdDigits)
  }

  /** The draws line up with the lists that are present. */
  predicate EnvFits(body: TeamInput, env: Env) {
    && InDigitRange(env.draw, IdDigits) && AllInRange(env.educationDraws) && AllInRange(env.socialDraws)
    && (body.educations.Some? ==> |env.educationDraws| == |body.educations.value|)
    && (body.socialLinks.Some? ==> |env.socialDraws| == |body.socialLinks.value|)
  }

  function ImageKey(file: File, now: nat): (k: Key)
    ensures IsPrefix(ImageFolder + "/", k)
  {
    ObjectKey(ImageFolder, now, file.name)
  }

  /** Child ids are looked up under names `PREFIX` does not have. */
  function EducationId(draw: nat): Id
    requires InDigitRange(draw, IdDigits)
  {
    MintId(PrefixText(EDUCATION), draw, IdDigits)
  }

  function SocialId(draw: nat): Id
    requires InDigitRange(draw, IdDigits)
  {
    MintId(PrefixText(SOCIAL_MEDIA), draw, IdDigits)
  }

  function EducationRows(teamId: Id, items: seq<EducationIn>, draws: seq<nat>): (rows: seq<Education>)
    requires |draws| == |items| && AllInRange(draws)
    ensures |rows| == |items|
    ensures forall i :: 0 <= i < |rows| ==>
      && rows[i].id == EducationId(draws[i]) && rows[i].teamId == teamId
      && rows[i].name == items[i].name && rows[i].level == items[i].level
      && rows[i].order == EducationOrder(items[i].level)
  {
    seq(|items|, i requires 0 <= i < |items| =>
      Education(EducationId(draws[i]), teamId, items[i].name, items[i].level, EducationOrder(items[i].level)))
  }

  function SocialRows(teamId: Id, items: seq<SocialIn>, draws: seq<nat>): (rows: seq<Social>)
    requires |draws| == |items| && AllInRange(draws)
    ensures |rows| == |items|
    ensures forall i :: 0 <= i < |rows| ==>
      && rows[i].id == SocialId(draws[i]) && rows[i].teamId == teamId
      && rows[i].name == items[i].name && rows[i].url == items[i].url
      && rows[i].order == SocialMediaOrder(items[i].name)
  {
    seq(|items|, i requires 0 <= i < |items| =>
      Social(SocialId(draws[i]), teamId, items[i].name, items[i].url, SocialMediaOrder(items[i].name)))
  }

  const EducationKey: Education -> Id := (e: Education) => e.id
  const SocialKey: Social -> Id := (e: Social) => e.id

  /** The argument of `team.create`, built synchronously inside the `try`. */
  datatype Draft = Draft(team: Team, educations: seq<Education>, socials: seq<Social>)

  /** Building the argument maps over the child lists; a flag of `"true"`
      with its list absent throws a TypeError here. */
  function BuildDraft(body: TeamInput, key: Key, url: string, env: Env): (r: Result<Draft>)
    requires EnvFits(body, env)
    ensures r.Err? <==> (body.withEducation && body.educations.None?) || (body.withSocialLinks && body.socialLinks.None?)
    ensures r.Err? ==> r.error == TypeError
    ensures r.Ok? ==> r.value.team.id == MintId(PrefixText(TEAM), env.draw, IdDigits)
    ensures r.Ok? ==> r.value.team.imageKey == key && r.value.team.positionId == body.positionId
    ensures r.Ok? ==> r.value.educations == if body.withEducation then EducationRows(r.value.team.id, body.educations.value, env.educationDraws) else []
    ensures r.Ok? ==> r.value.socials == if body.withSocialLinks then SocialRows(r.value.team.id, body.socialLinks.value, env.socialDraws) else []
    ensures r.Ok? ==> forall i :: 0 <= i < |r.value.educations| ==> r.value.educations[i].order == EducationOrder(r.value.educations[i].level)
    ensures r.Ok? ==> forall i :: 0 <= i < |r.value.socials| ==> r.value.socials[i].order == SocialMediaOrder(r.value.socials[i].name)
  {
    if body.withEducation && body.educations.None? then Err(TypeError)
    else if body.withSocialLinks && body.socialLinks.None? then Err(TypeError)
    else
      var id := MintId(PrefixText(TEAM), env.draw, IdDigits);
      var team := Team(id, body.positionId, body.fullname, body.description, key, url, body.actor, body.actor);
      Ok(Draft(team,
               if body.withEducation then EducationRows(id, body.educations.value, env.educationDraws) else [],
               if body.withSocialLinks then SocialRows(id, body.socialLinks.value, env.socialDraws) else []))
  }

  /** The nested create is one statement: it is rejected as a whole when the
      team id is taken, the position does not exist, or a child batch does
      not fit its table. */
  function InsertDraft(s: State, blobs: set<Key>, d: Draft): (r: Option<State>)
    ensures r.None? <==>
      || d.team.id in s.teams || d.team.positionId !in s.positions
      || !BatchFits(s.educations, KeysOf(d.educations, EducationKey))
      || !BatchFits(s.socials, KeysOf(d.socials, SocialKey))
    ensures r.Some? ==> r.value.teams == s.teams[d.team.id := d.team] && r.value.blobs == blobs && r.value.positions == s.positions
  {
    var eds := InsertBatch(s.educations, d.educations, EducationKey);
    var socs := InsertBatch(s.socials, d.socials, SocialKey);
    if d.team.id in s.teams || d.team.positionId !in s.positions || eds.None? || socs.None? then None
    else Some(State(s.teams[d.team.id := d.team], eds.value, socs.value, s.positions, blobs))
  }

  /** createTeams as the source runs it. The upload precedes the `try`, so
      its failure leaves nothing behind. A TypeError while building the
      argument deletes the photo. The create is returned without `await`, so
      its rejection escapes the `catch` and the photo stays in the bucket. */
  function CreateTeamsAsWritten(s: State, body: TeamInput, file: File, env: Env): (r: Reply<State, Id>)
    requires EnvFits(body, env)
    ensures env.upload.UploadFailed? ==> r == Reply(s, Err(StoreFailure))
    ensures r.result == Err(TypeError) ==> r.state == s.(blobs := s.blobs - {ImageKey(file, env.now)})
    ensures r.result == Err(DbFailure) ==> r.state == s.(blobs := s.blobs + {ImageKey(file, env.now)})
    ensures r.result.Ok? ==> r.result.value in r.state.teams
  {
    var key := ImageKey(file, env.now);
    var up := Upload(s.blobs, key, env.upload);
    if up.result.Err? then Reply(s, Err(StoreFailure))
    else
      match BuildDraft(body, key, up.result.value, env)
      case Err(e) => Reply(s.(blobs := Delete(up.state, key)), Err(e))
      case Ok(d) =>
        match InsertDraft(s, up.state, d)
        case None => Reply(s.(blobs := up.state), Err(DbFailure))
        case Some(t) => Reply(t, Ok(d.team.id))
  }

  /** A team placed under a position that does not exist: the photo is
      uploaded, the create is rejected, and the photo stays. */
  lemma CreateTeamsAsWrittenLeaksPhoto(s: State, body: TeamInput, file: File, env: Env)
    requires EnvFits(body, env)
    requires env.upload.Uploaded? && body.positionId !in s.positions
    requires !body.withEducation && !body.withSocialLinks
    requires ImageKey(file, env.now) !in s.blobs
    ensures CreateTeamsAsWritten(s, body, file, env).result == Err(DbFailure)
    ensures ImageKey(file, env.now) in CreateTeamsAsWritten(s, body, file, env).state.blobs
    ensures CreateTeamsAsWritten(s, body, file, env).state.teams == s.teams
  {}

  /** createTeams with the create awaited inside the `try`: every failure
      after the upload deletes the photo again and writes no row. */
  function CreateTeams(s: State, body: TeamInput, file: File, env: Env): (r: Reply<State, Id>)
    requires EnvFits(body, env)
    ensures env.upload.UploadFailed? ==> r == Reply(s, Err(StoreFailure))
    ensures r.result.Err? && env.upload.Uploaded? ==> r.state == s.(blobs := s.blobs - {ImageKey(file, env.now)})
    ensures (body.withEducation && body.educations.None?) || (body.withSocialLinks && body.socialLinks.None?) ==> r.result.Err?
    ensures r.result.Ok? ==> var id := r.result.value;
      && id == MintId(PrefixText(TEAM), env.draw, IdDigits) && id !in s.teams && id in r.state.teams
      && r.state.teams == s.teams[id := r.state.teams[id]]
      && r.state.teams[id].imageKey == ImageKey(file, env.now) && r.state.teams[id].imageKey in r.state.blobs
      && r.state.teams[id].positionId == body.positionId && body.positionId in s.positions
  {
    var key := ImageKey(file, env.now);
    var up := Upload(s.blobs, key, env.upload);
    if up.result.Err? then Reply(s, Err(StoreFailure))
    else
      var rollback := s.(blobs := Delete(up.state, key));
      match BuildDraft(body, key, up.result.value, env)
      case Err(e) => Reply(rollback, Err(e))
      case Ok(d) =>
        match InsertDraft(s, up.state, d)
        case None => Reply(rollback, Err(DbFailure))
        case Some(t) =>
          assert t.teams == s.teams[d.team.id := d.team] && t.blobs == s.blobs + {key};
          Reply(t, Ok(d.team.id))
  }

  /** A successful create is the upload, the draft and its insert. */
  lemma CreateTeamsOk(s: State, body: TeamInput, file: File, env: Env)
    requires EnvFits(body, env)
    requires CreateTeams(s, body, file, env).result.Ok?
    ensures env.upload.Uploaded?
    ensures BuildDraft(body, ImageKey(file, env.now), env.upload.url, env).Ok?
    ensures var d := BuildDraft(body, ImageKey(file, env.now), env.upload.url, env).value;
      && CreateTeams(s, body, file, env).result.value == d.team.id
      && InsertBatch(s.educations, d.educations, EducationKey).Some?
      && InsertBatch(s.socials, d.socials, SocialKey).Some?
      && CreateTeams(s, body, file, env).state.educations == InsertBatch(s.educations, d.educations, EducationKey).value
      && CreateTeams(s, body, file, env).state.socials == InsertBatch(s.socials, d.socials, SocialKey).value
  {
    var key := ImageKey(file, env.now);
    var up := Upload(s.blobs, key, env.upload);
    assert up.result.Ok?;
    var d := BuildDraft(body, key, up.result.value, env).value;
    assert InsertDraft(s, up.state, d).Some?;
  }

  /** A successful create writes one education row per listed education
      (with its table order) exactly when `with_education` is `"true"`, and
      likewise for social links; the stored child rows stay as they were. */
  lemma CreateTeamsWritesChildren(s: State, body: TeamInput, file: File, env: Env, r: Reply<State, Id>)
    requires EnvFits(body, env)
    requires r == CreateTeams(s, body, file, env) && r.result.Ok?
    ensures body.withEducation && body.educations.Some? ==>
      var rows := EducationRows(r.result.value, body.educations.value, env.educationDraws);
      forall i :: 0 <= i < |rows| ==> rows[i].id in r.state.educations && r.state.educations[rows[i].id] == rows[i]
    ensures body.withSocialLinks && body.socialLinks.Some? ==>
      var rows := SocialRows(r.result.value, body.socialLinks.value, env.socialDraws);
      forall i :: 0 <= i < |rows| ==> rows[i].id in r.state.socials && r.state.socials[rows[i].id] == rows[i]
    ensures !body.withEducation ==> r.state.educations == s.educations
    ensures !body.withSocialLinks ==> r.state.socials == s.socials
    ensures forall e :: e in s.educations ==> e in r.state.educations && r.state.educations[e] == s.educations[e]
    ensures forall e :: e in s.socials ==> e in r.state.socials && r.state.socials[e] == s.socials[e]
  {
    CreateTeamsOk(s, body, file, env);
    var d := BuildDraft(body, ImageKey(file, env.now), env.upload.url, env).value;
    var eds := InsertBatch(s.educations, d.educations, EducationKey).value;
    var socs := InsertBatch(s.socials, d.socials, SocialKey).value;
    assert r.state.educations == eds && r.state.socials == socs;
    if body.withEducation {
      assert d.educations == EducationRows(r.result.value, body.educations.value, env.educationDraws);
      forall i | 0 <= i < |d.educations| ensures d.educations[i].id in eds && eds[d.educations[i].id] == d.educations[i] {
        assert EducationKey(d.educations[i]) == d.educations[i].id;
      }
    } else {
      assert d.educations == [];
      assert eds.Keys == s.educations.Keys;
    }
    if body.withSocialLinks {
      assert d.socials == SocialRows(r.result.value, body.socialLinks.value, env.socialDraws);
      forall i | 0 <= i < |d.socials| ensures d.socials[i].id in socs && socs[d.socials[i].id] == d.socials[i] {
        assert SocialKey(d.socials[i]) == d.socials[i].id;
      }
    } else {
      assert d.socials == [];
      assert socs.Keys == s.socials.Keys;
    }
  }

  /** Every child row the create writes carries its table order, so the
      create keeps OrdersAgree. */
  lemma CreateTeamsKeepsOrders(s: State, body: TeamInput, file: File, env: Env, r: Reply<State, Id>)
    requires EnvFits(body, env) && OrdersAgree(s)
    requires r == CreateTeams(s, body, file, env)
    ensures OrdersAgree(r.state)
  {
    if r.result.Ok? {
      CreateTeamsOk(s, body, file, env);
      var d := BuildDraft(body, ImageKey(file, env.now), env.upload.url, env).value;
      var eds := InsertBatch(s.educations, d.educations, EducationKey).value;
      var socs := InsertBatch(s.socials, d.socials, SocialKey).value;
      assert r.state.educations == eds && r.state.socials == socs;
      InsertBatchKeeps(s.educations, d.educations, EducationKey, (e: Education) => e.order == EducationOrder(e.level));
      InsertBatchKeeps(s.socials, d.socials, SocialKey, (e: Social) => e.order == SocialMediaOrder(e.name));
    } else {
      assert r.state.educations == s.educations && r.state.socials == s.socials;
    }
  }

  // ---------------------------------------------------------------------
  // updateTeams

  datatype EducationPatch = EducationPatch(id: Id, name: Option<string>, level: Option<EducationLevel>)
  datatype SocialPatch = SocialPatch(id: Id, name: Option<SocialMedia>, url: Option<string>)

  datatype TeamUpdate = TeamUpdate(
    id: Id,
    positionId: Option<Id>,
    fullname: Option<string>,
    description: Option<string>,
    educations: Option<seq<EducationPatch>>,
    socialLinks: Option<seq<SocialPatch>>,
    actor: string)

  datatype UpdateEnv = UpdateEnv(now: nat, upload: UploadOutcome, educationDraws: seq<nat>, socialDraws: seq<nat>)

  predicate UpdateEnvFits(body: TeamUpdate, env: UpdateEnv) {
    && AllInRange(env.educationDraws) && AllInRange(env.socialDraws)
    && |env.educationDraws| == |body.educations.GetOr([])|
    && |env.socialDraws| == |body.socialLinks.GetOr([])|
  }

  const EducationPatchKey: EducationPatch -> Id := (p: EducationPatch) => p.id
  const SocialPatchKey: SocialPatch -> Id := (p: SocialPatch) => p.id

  /** The `update` half of the education upsert: an absent level leaves both
      level and order (the table lookup of `undefined` is `undefined`). The
      store only runs it for an item whose `create` half is complete. */
  const PatchEducation: (Education, EducationPatch) -> Education :=
    (e: Education, p: EducationPatch) =>
      e.(name := Keep(p.name, e.name), level := Keep(p.level, e.level),
         order := if p.level.Some? then EducationOrder(p.level.value) else e.order)

  /** An education item carrying every column the insert needs. */
  predicate EducationComplete(p: EducationPatch) {
    p.name.Some? && p.level.Some?
  }

  /** The `create` half: the insert needs a name and a level. */
  function NewEducation(teamId: Id): (EducationPatch, Id) -> Option<Education> {
    (p: EducationPatch, id: Id) =>
      if EducationComplete(p)
      then Some(Education(id, teamId, p.name.value, p.level.value, EducationOrder(p.level.value)))
      else None
  }

  /** The id each listed education gets if its upsert inserts. */
  function FreshEducationIds(env: UpdateEnv): (ids: seq<Id>)
    requires AllInRange(env.educationDraws)
    ensures |ids| == |env.educationDraws| && forall i :: 0 <= i < |ids| ==> ids[i] == EducationId(env.educationDraws[i])
  {
    seq(|env.educationDraws|, i requires 0 <= i < |env.educationDraws| => EducationId(env.educationDraws[i]))
  }

  const PatchSocial: (Social, SocialPatch) -> Social :=
    (e: Social, p: SocialPatch) =>
      e.(name := Keep(p.name, e.name), url := Keep(p.url, e.url),
         order := if p.name.Some? then SocialMediaOrder(p.name.value) else e.order)

  /** A social-link item carrying every column the insert needs. */
  predicate SocialComplete(p: SocialPatch) {
    p.name.Some? && p.url.Some?
  }

  function NewSocial(teamId: Id): (SocialPatch, Id) -> Option<Social> {
    (p: SocialPatch, id: Id) =>
      if SocialComplete(p)
      then Some(Social(id, teamId, p.name.value, p.url.value, SocialMediaOrder(p.name.value)))
      else None
  }

  function FreshSocialIds(env: UpdateEnv): (ids: seq<Id>)
    requires AllInRange(env.socialDraws)
    ensures |ids| == |env.socialDraws| && forall i :: 0 <= i < |ids| ==> ids[i] == SocialId(env.socialDraws[i])
  {
    seq(|env.socialDraws|, i requires 0 <= i < |env.socialDraws| => SocialId(env.socialDraws[i]))
  }

  function UpsertEducations(s: State, body: TeamUpdate, env: UpdateEnv): Upserted<Education>
    requires UpdateEnvFits(body, env)
  {
    UpsertAll(s.educations, body.educations.GetOr([]), EducationPatchKey, PatchEducation, NewEducation(body.id), FreshEducationIds(env))
  }

  function UpsertSocials(s: State, body: TeamUpdate, env: UpdateEnv): Upserted<Social>
    requires UpdateEnvFits(body, env)
  {
    UpsertAll(s.socials, body.socialLinks.GetOr([]), SocialPatchKey, PatchSocial, NewSocial(body.id), FreshSocialIds(env))
  }

  function Patched(t: Team, body: TeamUpdate): (w: Team)
    ensures w.id == t.id && w.imageKey == t.imageKey && w.imageUrl == t.imageUrl && w.createdBy == t.createdBy
    ensures w.positionId == Keep(body.positionId, t.positionId) && w.fullname == Keep(body.fullname, t.fullname)
    ensures w.description == Keep(body.description, t.description) && w.updatedBy == body.actor
  {
    t.(positionId := Keep(body.positionId, t.positionId), fullname := Keep(body.fullname, t.fullname),
       description := Keep(body.description, t.description), updatedBy := body.actor)
  }

  /** Whether the photo swap of an update runs to its end: there is no new
      photo, or it uploads and the old photo's delete resolves. */
  predicate SwapCompletes(s: State, body: TeamUpdate, file: Option<File>, env: UpdateEnv, rejects: set<Key>)
    requires body.id in s.teams
  {
    file.None? || (env.upload.Uploaded? && s.teams[body.id].imageKey !in rejects)
  }

  /** updateTeams. The upserts are lazy Prisma queries that run at
      `Promise.all`, after the photo swap (upload the new photo, then delete
      the old one); a rejected upsert or a rejected team update (an unknown
      position) comes after the swap and after the other upserts. A
      rejected delete of the old photo stops the update before any upsert
      runs, with the new photo already in the bucket. `rejects` holds the
      keys whose delete rejects. */
  function UpdateTeams(s: State, body: TeamUpdate, file: Option<File>, env: UpdateEnv, rejects: set<Key>): (r: Reply<State, Id>)
    requires UpdateEnvFits(body, env)
    ensures body.id !in s.teams ==> r == Reply(s, Err(NotFound))
    ensures body.id in s.teams && file.Some? && env.upload.UploadFailed? ==> r == Reply(s, Err(StoreFailure))
    ensures body.id in s.teams && file.Some? && env.upload.Uploaded? && s.teams[body.id].imageKey in rejects
      ==> r == Reply(s.(blobs := s.blobs + {ImageKey(file.value, env.now)}), Err(StoreFailure))
    ensures r.result.Ok? ==> r.result.value == body.id && body.id in s.teams
    ensures r.state.positions == s.positions
    ensures body.id in s.teams && SwapCompletes(s, body, file, env, rejects) ==>
      r.state.educations == UpsertEducations(s, body, env).rows && r.state.socials == UpsertSocials(s, body, env).rows
    ensures r.result.Ok? ==> r.state.teams.Keys == s.teams.Keys
    ensures r.result.Ok? ==> forall t :: t in s.teams && t != body.id ==> r.state.teams[t] == s.teams[t]
    ensures r.result.Ok? ==> Keep(body.positionId, s.teams[body.id].positionId) in s.positions
    ensures r.result.Ok? && file.None? ==> r.state.teams[body.id] == Patched(s.teams[body.id], body) && r.state.blobs == s.blobs
    ensures r.result.Ok? && file.Some? ==>
      var key := ImageKey(file.value, env.now);
      r.state.teams[body.id] == Patched(s.teams[body.id], body).(imageKey := key, imageUrl := env.upload.url)
      && r.state.blobs == Delete(s.blobs + {key}, s.teams[body.id].imageKey)
    ensures r.result.Err? ==> r.state.teams == s.teams
  {
    if body.id !in s.teams then Reply(s, Err(NotFound))
    else
      var prev := s.teams[body.id];
      var swapped :=
        if file.None? then Reply(s.blobs, Ok(prev))
        else
          var key := ImageKey(file.value, env.now);
          var up := Upload(s.blobs, key, env.upload);
          if up.result.Err? then Reply(s.blobs, Err(StoreFailure))
          else
            var cleared := TryDelete(up.state, prev.imageKey, rejects);
            if cleared.result.Err? then Reply(up.state, Err(StoreFailure))
            else Reply(cleared.state, Ok(prev.(imageKey := key, imageUrl := up.result.value)));
      if swapped.result.Err? then Reply(s.(blobs := swapped.state), Err(StoreFailure))
      else
        var eds := UpsertEducations(s, body, env);
        var socs := UpsertSocials(s, body, env);
        var t := State(s.teams, eds.rows, socs.rows, s.positions, swapped.state);
        if eds.failed || socs.failed || Keep(body.positionId, prev.positionId) !in s.positions then Reply(t, Err(DbFailure))
        else Reply(t.(teams := s.teams[body.id := Patched(swapped.result.value, body)]), Ok(body.id))
  }

  /** Known id with a complete item → that row takes the item's name and
      level (and the level's order); unlisted → untouched, for the education
      list. */
  lemma UpdateTeamsUpsertsEducations(s: State, body: TeamUpdate, file: Option<File>, env: UpdateEnv, rejects: set<Key>, i: int, k: Id)
    requires UpdateEnvFits(body, env) && body.id in s.teams && SwapCompletes(s, body, file, env, rejects)
    requires body.educations.Some?
    ensures var ps := body.educations.value;
      0 <= i < |ps| && ps[i].id in s.educations && EducationComplete(ps[i]) && (forall j :: 0 <= j < |ps| && j != i ==> ps[j].id != ps[i].id) ==>
      UpdateTeams(s, body, file, env, rejects).state.educations[ps[i].id]
        == s.educations[ps[i].id].(name := ps[i].name.value, level := ps[i].level.value, order := EducationOrder(ps[i].level.value))
    ensures var ps := body.educations.value;
      k in s.educations && (forall j :: 0 <= j < |ps| ==> ps[j].id != k) ==>
      UpdateTeams(s, body, file, env, rejects).state.educations[k] == s.educations[k]
  {
    var ps := body.educations.value;
    assert UpdateTeams(s, body, file, env, rejects).state.educations == UpsertEducations(s, body, env).rows;
    if 0 <= i < |ps| && ps[i].id in s.educations && EducationComplete(ps[i]) && (forall j :: 0 <= j < |ps| && j != i ==> ps[j].id != ps[i].id) {
      var ids := FreshEducationIds(env);
      assert NewEducation(body.id)(ps[i], ids[i]).Some?;
      UpdatedRow(s.educations, ps, EducationPatchKey, PatchEducation, NewEducation(body.id), ids, i);
    }
    if k in s.educations && (forall j :: 0 <= j < |ps| ==> ps[j].id != k) {
      UntouchedRows(s.educations, ps, EducationPatchKey, PatchEducation, NewEducation(body.id), FreshEducationIds(env), k);
    }
  }

  /** Known id with a complete item → that row takes the item's platform
      (and its order) and url; unlisted → untouched, for the social-link
      list. */
  lemma UpdateTeamsUpsertsSocials(s: State, body: TeamUpdate, file: Option<File>, env: UpdateEnv, rejects: set<Key>, i: int, k: Id)
    requires UpdateEnvFits(body, env) && body.id in s.teams && SwapCompletes(s, body, file, env, rejects)
    requires body.socialLinks.Some?
    ensures var ps := body.socialLinks.value;
      0 <= i < |ps| && ps[i].id in s.socials && SocialComplete(ps[i]) && (forall j :: 0 <= j < |ps| && j != i ==> ps[j].id != ps[i].id) ==>
      UpdateTeams(s, body, file, env, rejects).state.socials[ps[i].id]
        == s.socials[ps[i].id].(name := ps[i].name.value, url := ps[i].url.value, order := SocialMediaOrder(ps[i].name.value))
    ensures var ps := body.socialLinks.value;
      k in s.socials && (forall j :: 0 <= j < |ps| ==> ps[j].id != k) ==>
      UpdateTeams(s, body, file, env, rejects).state.socials[k] == s.socials[k]
  {
    var ps := body.socialLinks.value;
    assert UpdateTeams(s, body, file, env, rejects).state.socials == UpsertSocials(s, body, env).rows;
    if 0 <= i < |ps| && ps[i].id in s.socials && SocialComplete(ps[i]) && (forall j :: 0 <= j < |ps| && j != i ==> ps[j].id != ps[i].id) {
      var ids := FreshSocialIds(env);
      assert NewSocial(body.id)(ps[i], ids[i]).Some?;
      UpdatedRow(s.socials, ps, SocialPatchKey, PatchSocial, NewSocial(body.id), ids, i);
    }
    if k in s.socials && (forall j :: 0 <= j < |ps| ==> ps[j].id != k) {
      UntouchedRows(s.socials, ps, SocialPatchKey, PatchSocial, NewSocial(body.id), FreshSocialIds(env), k);
    }
  }

  /** An education item missing a column of its insert is rejected by the
      store even when it names a stored row, so the whole update fails and
      the team row is unchanged. */
  lemma UpdateTeamsIncompleteEducationFails(s: State, body: TeamUpdate, file: Option<File>, env: UpdateEnv, rejects: set<Key>, i: int)
    requires UpdateEnvFits(body, env) && body.id in s.teams && SwapCompletes(s, body, file, env, rejects)
    ensures body.educations.Some? && 0 <= i < |body.educations.value| && !EducationComplete(body.educations.value[i])
      ==> UpdateTeams(s, body, file, env, rejects).result == Err(DbFailure)
          && UpdateTeams(s, body, file, env, rejects).state.teams == s.teams
  {
    if body.educations.Some? && 0 <= i < |body.educations.value| && !EducationComplete(body.educations.value[i]) {
      var ids := FreshEducationIds(env);
      assert NewEducation(body.id)(body.educations.value[i], ids[i]).None?;
      assert UpsertEducations(s, body, env).failed;
    }
  }

  /** The same for a social-link item missing its platform or url. */
  lemma UpdateTeamsIncompleteSocialFails(s: State, body: TeamUpdate, file: Option<File>, env: UpdateEnv, rejects: set<Key>, i: int)
    requires UpdateEnvFits(body, env) && body.id in s.teams && SwapCompletes(s, body, file, env, rejects)
    ensures body.socialLinks.Some? && 0 <= i < |body.socialLinks.value| && !SocialComplete(body.socialLinks.value[i])
      ==> UpdateTeams(s, body, file, env, rejects).result == Err(DbFailure)
          && UpdateTeams(s, body, file, env, rejects).state.teams == s.teams
  {
    if body.socialLinks.Some? && 0 <= i < |body.socialLinks.value| && !SocialComplete(body.socialLinks.value[i]) {
      var ids := FreshSocialIds(env);
      assert NewSocial(body.id)(body.socialLinks.value[i], ids[i]).None?;
      assert UpsertSocials(s, body, env).failed;
    }
  }

  /** A new education row belongs to the updated team, is keyed by its own
      id, and that id starts with `undefined`. */
  lemma UpdateTeamsNewEducations(s: State, body: TeamUpdate, file: Option<File>, env: UpdateEnv, rejects: set<Key>, k: Id)
    requires UpdateEnvFits(body, env) && body.id in s.teams && SwapCompletes(s, body, file, env, rejects)
    requires k in UpdateTeams(s, body, file, env, rejects).state.educations && k !in s.educations
    ensures UpdateTeams(s, body, file, env, rejects).state.educations[k].teamId == body.id
    ensures |k| >= 9 && k[..9] == "undefined"
  {
    var ps := body.educations.GetOr([]);
    var newIds := FreshEducationIds(env);
    var rows := UpsertEducations(s, body, env).rows;
    assert UpdateTeams(s, body, file, env, rejects).state.educations == rows;
    NewEducationRow(s.educations, ps, body.id, newIds, k);
    var i :| 0 <= i < |newIds| && k == newIds[i];
    EducationIdIsUndefined(env.educationDraws[i]);
  }

  /** `PREFIX` has no `EDUCATION` entry, so education ids start with `undefined`. */
  lemma EducationIdIsUndefined(draw: nat)
    requires InDigitRange(draw, IdDigits)
    ensures |EducationId(draw)| >= 9 && EducationId(draw)[..9] == "undefined"
  {
  }

  lemma NewEducationRow(m: map<Id, Education>, ps: seq<EducationPatch>, teamId: Id, newIds: seq<Id>, k: Id)
    requires |newIds| == |ps|
    requires k in UpsertAll(m, ps, EducationPatchKey, PatchEducation, NewEducation(teamId), newIds).rows && k !in m
    ensures UpsertAll(m, ps, EducationPatchKey, PatchEducation, NewEducation(teamId), newIds).rows[k].teamId == teamId
    ensures k in newIds
  {
    NewRows(m, ps, EducationPatchKey, PatchEducation, NewEducation(teamId), newIds, k);
    KeepsInvariant(m, ps, EducationPatchKey, PatchEducation, NewEducation(teamId), newIds,
                   (k: Id, e: Education) => k in m || e.teamId == teamId);
  }

  /** Updates and inserts both write the table order, so the update keeps
      OrdersAgree. */
  lemma UpdateTeamsKeepsOrders(s: State, body: TeamUpdate, file: Option<File>, env: UpdateEnv, rejects: set<Key>)
    requires UpdateEnvFits(body, env) && OrdersAgree(s)
    ensures OrdersAgree(UpdateTeams(s, body, file, env, rejects).state)
  {
    var t := UpdateTeams(s, body, file, env, rejects).state;
    if body.id in s.teams && SwapCompletes(s, body, file, env, rejects) {
      KeepsInvariant(s.educations, body.educations.GetOr([]), EducationPatchKey, PatchEducation, NewEducation(body.id), FreshEducationIds(env), (k: Id, e: Education) => e.order == EducationOrder(e.level));
      KeepsInvariant(s.socials, body.socialLinks.GetOr([]), SocialPatchKey, PatchSocial, NewSocial(body.id), FreshSocialIds(env), (k: Id, e: Social) => e.order == SocialMediaOrder(e.name));
    } else if body.id in s.teams && env.upload.UploadFailed? {
      assert t == s;
    } else if body.id in s.teams {
      assert t == s.(blobs := s.blobs + {ImageKey(file.value, env.now)});
    }
  }

  /** With a new photo, a rejected upsert comes after the old photo was
      deleted: the team row still names the deleted key. */
  lemma UpdateTeamsRejectedUpsertDangles(s: State, body: TeamUpdate, file: File, env: UpdateEnv, rejects: set<Key>)
    requires UpdateEnvFits(body, env) && body.id in s.teams && env.upload.Uploaded?
    requires s.teams[body.id].imageKey !in rejects
    requires UpsertEducations(s, body, env).failed
    requires ImageKey(file, env.now) != s.teams[body.id].imageKey
    ensures UpdateTeams(s, body, Some(file), env, rejects).result == Err(DbFailure)
    ensures UpdateTeams(s, body, Some(file), env, rejects).state.teams[body.id].imageKey !in UpdateTeams(s, body, Some(file), env, rejects).state.blobs
  {}

  // ---------------------------------------------------------------------
  // deletes

  /** deleteTeam: the photo, then the row with its child rows; a rejected
      delete of the photo changes nothing. */
  function DeleteTeam(s: State, id: Id, rejects: set<Key>): (r: Reply<State, Id>)
    ensures id !in s.teams ==> r == Reply(s, Err(NotFound))
    ensures id in s.teams && s.teams[id].imageKey in rejects ==> r == Reply(s, Err(StoreFailure))
    ensures id in s.teams && s.teams[id].imageKey !in rejects
      ==> && r.result == Ok(id) && r.state.teams == s.teams - {id}
          && r.state.blobs == s.blobs - {s.teams[id].imageKey} && r.state.positions == s.positions
          && (forall e :: e in r.state.educations <==> e in s.educations && s.educations[e].teamId != id)
          && (forall e :: e in r.state.socials <==> e in s.socials && s.socials[e].teamId != id)
    ensures forall e :: e in r.state.educations ==> r.state.educations[e] == s.educations[e]
    ensures forall e :: e in r.state.socials ==> r.state.socials[e] == s.socials[e]
  {
    if id !in s.teams then Reply(s, Err(NotFound))
    else
      var cleared := TryDelete(s.blobs, s.teams[id].imageKey, rejects);
      if cleared.result.Err? then Reply(s, Err(StoreFailure))
      else
        Reply(State(s.teams - {id},
                    map e | e in s.educations && s.educations[e].teamId != id :: s.educations[e],
                    map e | e in s.socials && s.socials[e].teamId != id :: s.socials[e],
                    s.positions, cleared.state), Ok(id))
  }

  lemma DeleteTeamPreservesConsistency(s: State, id: Id, rejects: set<Key>)
    requires Consistent(s) && KeysExclusive(s)
    ensures Consistent(DeleteTeam(s, id, rejects).state) && KeysExclusive(DeleteTeam(s, id, rejects).state)
  {
    if id in s.teams && s.teams[id].imageKey !in rejects {
      var t := DeleteTeam(s, id, rejects).state;
      forall u | u in t.teams ensures t.teams[u].imageKey in t.blobs {
        assert s.teams[u].imageKey != s.teams[id].imageKey;
      }
    }
  }

  /** deleteEducation / deleteSocial as written: the guard counts the whole
      table, so it raises NotFound only when the table is empty; an unknown
      id in a non-empty table reaches `delete`, which Prisma rejects. */
  function DeleteChildAsWritten<T>(m: map<Id, T>, id: Id): (r: Result<map<Id, T>>)
    ensures |m| == 0 ==> r == Err(NotFound)
    ensures |m| > 0 && id !in m ==> r == Err(DbFailure)
    ensures id in m ==> r == Ok(m - {id})
  {
    if |m| == 0 then Err(NotFound)
    else if id !in m then Err(DbFailure)
    else Ok(m - {id})
  }

  /** The guard the NotFound message describes: a count of that one id. */
  function DeleteChild<T>(m: map<Id, T>, id: Id): (r: Result<map<Id, T>>)
    ensures id !in m <==> r == Err(NotFound)
    ensures r.Ok? ==> r.value.Keys == m.Keys - {id} && forall k :: k in r.value ==> r.value[k] == m[k]
  {
    if id !in m then Err(NotFound) else Ok(m - {id})
  }

  /** The two guards agree on every stored id and on an empty table, and
      disagree exactly on an unknown id in a non-empty table. */
  lemma ChildGuardsDiffer<T>(m: map<Id, T>, id: Id)
    ensures DeleteChildAsWritten(m, id) == DeleteChild(m, id) <==> id in m || |m| == 0
    ensures |m| > 0 && id !in m ==> DeleteChildAsWritten(m, id) == Err(DbFailure) && DeleteChild(m, id) == Err(NotFound)
  {
    if |m| == 0 { assert id !in m; }
  }

  /** deleteEducation as written: the guard counts every education, so an
      unknown id is NotFound only while the table is empty, and otherwise
      reaches `education.delete`, which rejects it. */
  function DeleteEducation(s: State, id: Id): (r: Reply<State, Id>)
    ensures |s.educations| == 0 ==> r == Reply(s, Err(NotFound))
    ensures |s.educations| > 0 && id !in s.educations ==> r == Reply(s, Err(DbFailure))
    ensures id in s.educations ==> r == Reply(s.(educations := s.educations - {id}), Ok(id))
  {
    match DeleteChildAsWritten(s.educations, id)
    case Err(e) => Reply(s, Err(e))
    case Ok(m) => Reply(s.(educations := m), Ok(id))
  }

  /** deleteSocial as written, with the same whole-table guard. */
  function DeleteSocial(s: State, id: Id): (r: Reply<State, Id>)
    ensures |s.socials| == 0 ==> r == Reply(s, Err(NotFound))
    ensures |s.socials| > 0 && id !in s.socials ==> r == Reply(s, Err(DbFailure))
    ensures id in s.socials ==> r == Reply(s.(socials := s.socials - {id}), Ok(id))
  {
    match DeleteChildAsWritten(s.socials, id)
    case Err(e) => Reply(s, Err(e))
    case Ok(m) => Reply(s.(socials := m), Ok(id))
  }

  /** deleteEducation with the per-id guard its NotFound message describes. */
  function DeleteEducationCorrected(s: State, id: Id): (r: Reply<State, Id>)
    ensures id !in s.educations ==> r == Reply(s, Err(NotFound))
    ensures id in s.educations ==> r == Reply(s.(educations := s.educations - {id}), Ok(id))
  {
    match DeleteChild(s.educations, id)
    case Err(e) => Reply(s, Err(e))
    case Ok(m) => Reply(s.(educations := m), Ok(id))
  }

  /** deleteSocial with the per-id guard. */
  function DeleteSocialCorrected(s: State, id: Id): (r: Reply<State, Id>)
    ensures id !in s.socials ==> r == Reply(s, Err(NotFound))
    ensures id in s.socials ==> r == Reply(s.(socials := s.socials - {id}), Ok(id))
  {
    match DeleteChild(s.socials, id)
    case Err(e) => Reply(s, Err(e))
    case Ok(m) => Reply(s.(socials := m), Ok(id))
  }

  /** The deletes as written and as corrected give the same reply exactly
      when the id is stored or its table is empty; an unknown id next to
      other rows is a database error as written and NotFound as corrected. */
  lemma DeleteEducationDiffers(s: State, id: Id)
    ensures DeleteEducation(s, id) == DeleteEducationCorrected(s, id) <==> id in s.educations || |s.educations| == 0
    ensures |s.educations| > 0 && id !in s.educations ==>
      DeleteEducation(s, id).result == Err(DbFailure) && DeleteEducationCorrected(s, id).result == Err(NotFound)
  {
    ChildGuardsDiffer(s.educations, id);
  }
}

=== FILE: text.dfy ===
/** Character-level building blocks that the JavaScript runtime provides to
    the string utilities: ASCII case mapping, the `\s` whitespace class,
    `trim`, `split` on one character, `join`, `includes`, and the decimal
    rendering of a number inside a template literal. */
module Text {

  predicate IsAsciiUpper(c: char) { 'A' <= c <= 'Z' }
  predicate IsAsciiLower(c: char) { 'a' <= c <= 'z' }
  predicate IsDigit(c: char) { '0' <= c <= '9' }

  /** The ECMAScript white-space and line-terminator characters, which is
      the set both `\s` and `String.prototype.trim` use. */
  predicate IsSpace(c: char) {
    || c == ' ' || c == '\t' || c == '\n' || c == '\r'
    || c == '\U{000B}' || c == '\U{000C}'
    || c == '\U{00A0}' || c == '\U{1680}'
    || ('\U{2000}' <= c <= '\U{200A}')
    || c == '\U{2028}' || c == '\U{2029}' || c == '\U{202F}'
    || c == '\U{205F}' || c == '\U{3000}' || c == '\U{FEFF}'
  }

  function ToLowerChar(c: char): (d: char)
    ensures IsAsciiUpper(c) ==> IsAsciiLower(d)
    ensures !IsAsciiUpper(c) ==> d == c
  {
    if IsAsciiUpper(c) then (c as int + 32) as char else c
  }

  function ToUpperChar(c: char): (d: char)
    ensures IsAsciiLower(c) ==> IsAsciiUpper(d)
    ensures !IsAsciiLower(c) ==> d == c
  {
    if IsAsciiLower(c) then (c as int - 32) as char else c
  }

  lemma UpperIdempotent(c: char)
    ensures ToUpperChar(ToUpperChar(c)) == ToUpperChar(c)
  {}

  /** `toLowerCase`, ASCII letters only. */
  function ToLower(s: string): (r: string)
    ensures |r| == |s|
    ensures forall i :: 0 <= i < |s| ==> r[i] == ToLowerChar(s[i])
  {
    seq(|s|, i requires 0 <= i < |s| => ToLowerChar(s[i]))
  }

  // ---------------------------------------------------------------------
  // trim

  /** Drops the leading run of white space. */
  function TrimStart(s: string): (r: string)
    ensures |r| <= |s|
    ensures r == s[|s| - |r|..]
    ensures |s| > 0 && IsSpace(s[0]) ==> |r| < |s|
    ensures |r| > 0 ==> !IsSpace(r[0])
    ensures forall i :: 0 <= i < |s| - |r| ==> IsSpace(s[i])
  {
    if |s| == 0 || !IsSpace(s[0]) then s else TrimStart(s[1..])
  }

  /** Drops the trailing run of white space. */
  function TrimEnd(s: string): (r: string)
    ensures |r| <= |s|
    ensures r == s[..|r|]
    ensures |r| > 0 ==> !IsSpace(r[|r| - 1])
    ensures forall i :: |r| <= i < |s| ==> IsSpace(s[i])
  {
    if |s| == 0 || !IsSpace(s[|s| - 1]) then s else TrimEnd(s[..|s| - 1])
  }

  /** `String.prototype.trim`. */
  function Trim(s: string): (r: string)
    ensures |r| <= |s|
    ensures |r| > 0 ==> !IsSpace(r[0]) && !IsSpace(r[|r| - 1])
  {
    TrimEnd(TrimStart(s))
  }

  /** Drops the leading run of non-space characters (one word). */
  function DropWord(s: string): (r: string)
    ensures |r| <= |s|
    ensures |s| > 0 && !IsSpace(s[0]) ==> |r| < |s|
    ensures r == s[|s| - |r|..]
    ensures |r| > 0 ==> IsSpace(r[0])
  {
    if |s| == 0 || IsSpace(s[0]) then s else DropWord(s[1..])
  }

  // ---------------------------------------------------------------------
  // split / join on one separator character

  /** `s.split(sep)` for a one-character separator: always at least one
      part, `""` splits to `[""]`, and no part contains the separator. */
  function Split(s: string, sep: char): (parts: seq<string>)
    ensures |parts| >= 1
    ensures forall k :: 0 <= k < |parts| ==> sep !in parts[k]
    decreases |s|
  {
    if |s| == 0 then [""]
    else
      var rest := Split(s[1..], sep);
      if s[0] == sep then [""] + rest
      else [[s[0]] + rest[0]] + rest[1..]
  }

  /** `parts.join(sep)` for a one-character separator. */
  function Join(parts: seq<string>, sep: char): string
    requires |parts| >= 1
  {
    if |parts| == 1 then parts[0] else parts[0] + [sep] + Join(parts[1..], sep)
  }

  /** `parts.join('')`. */
  function Concat(parts: seq<string>): string {
    if |parts| == 0 then "" else parts[0] + Concat(parts[1..])
  }

  lemma {:induction false} JoinSplit(s: string, sep: char)
    ensures Join(Split(s, sep), sep) == s
    decreases |s|
  {
    if |s| > 0 {
      JoinSplit(s[1..], sep);
      var rest := Split(s[1..], sep);
      if s[0] == sep {
        assert Split(s, sep)[1..] == rest;
        assert s == [sep] + s[1..];
      } else {
        var parts := Split(s, sep);
        assert parts[1..] == rest[1..];
        if |rest| == 1 {
          assert s == [s[0]] + s[1..];
        } else {
          assert Join(rest, sep) == rest[0] + [sep] + Join(rest[1..], sep);
          assert s == [s[0]] + s[1..];
        }
      }
    }
  }

  /** Splitting a separator-free word followed by more text. */
  lemma {:induction false} SplitWordThen(w: string, t: string, sep: char)
    requires sep !in w
    ensures Split(w + [sep] + t, sep) == [w] + Split(t, sep)
    decreases |w|
  {
    if |w| == 0 {
      assert w + [sep] + t == [sep] + t;
      assert ([sep] + t)[1..] == t;
    } else {
      SplitWordThen(w[1..], t, sep);
      assert (w + [sep] + t)[1..] == w[1..] + [sep] + t;
      assert [w[0]] + w[1..] == w;
    }
  }

  lemma {:induction false} SplitWord(w: string, sep: char)
    requires sep !in w
    ensures Split(w, sep) == [w]
    decreases |w|
  {
    if |w| > 0 {
      SplitWord(w[1..], sep);
      assert [w[0]] + w[1..] == w;
    }
  }

  /** The other round trip: separator-free parts survive join then split. */
  lemma {:induction false} SplitJoin(parts: seq<string>, sep: char)
    requires |parts| >= 1
    requires forall k :: 0 <= k < |parts| ==> sep !in parts[k]
    ensures Split(Join(parts, sep), sep) == parts
    decreases |parts|
  {
    if |parts| == 1 {
      SplitWord(parts[0], sep);
    } else {
      SplitJoin(parts[1..], sep);
      SplitWordThen(parts[0], Join(parts[1..], sep), sep);
      assert [parts[0]] + parts[1..] == parts;
    }
  }

  lemma {:induction false} JoinLength(parts: seq<string>, sep: char)
    requires |parts| >= 1
    ensures |Join(parts, sep)| == |Concat(parts)| + |parts| - 1
    decreases |parts|
  {
    if |parts| > 1 {
      JoinLength(parts[1..], sep);
    }
  }

  // ---------------------------------------------------------------------
  // substring search (`includes`, Prisma `contains`)

  predicate IsPrefix(p: string, s: string) {
    |p| <= |s| && s[..|p|] == p
  }

  /** `needle` occurs in `hay` as a contiguous, case-sensitive substring. */
  predicate Contains(hay: string, needle: string)
    decreases |hay|
  {
    IsPrefix(needle, hay) || (|hay| > 0 && Contains(hay[1..], needle))
  }

  // ---------------------------------------------------------------------
  // decimal rendering

  function DigitChar(d: nat): (c: char)
    requires d < 10
    ensures IsDigit(c)
  {
    ('0' as int + d) as char
  }

  function DigitValue(c: char): (d: nat)
    requires IsDigit(c)
    ensures d < 10
  {
    c as int - '0' as int
  }

  /** Template-literal rendering of a non-negative integer. */
  function NatToString(n: nat): (s: string)
    ensures |s| >= 1
    ensures forall i :: 0 <= i < |s| ==> IsDigit(s[i])
    decreases n
  {
    if n < 10 then [DigitChar(n)] else NatToString(n / 10) + [DigitChar(n % 10)]
  }

  /** Reads a string of decimal digits back as a number. */
  function DecimalValue(s: string): nat
    requires forall i :: 0 <= i < |s| ==> IsDigit(s[i])
  {
    if |s| == 0 then 0 else DecimalValue(s[..|s| - 1]) * 10 + DigitValue(s[|s| - 1])
  }

  lemma {:induction false} DecimalRoundTrip(n: nat)
    ensures DecimalValue(NatToString(n)) == n
    decreases n
  {
    var s := NatToString(n);
    if n >= 10 {
      DecimalRoundTrip(n / 10);
      assert s[..|s| - 1] == NatToString(n / 10);
    }
  }

  lemma NatToStringInjective(a: nat, b: nat)
    requires NatToString(a) == NatToString(b)
    ensures a == b
  {
    DecimalRoundTrip(a);
    DecimalRoundTrip(b);
  }

  function Pow10(k: nat): (p: nat)
    ensures p >= 1
  {
    if k == 0 then 1 else 10 * Pow10(k - 1)
  }

  /** A number with k digits renders as exactly k characters. */
  lemma {:induction false} NatToStringLength(n: nat, k: nat)
    requires k >= 1
    requires Pow10(k - 1) <= n < Pow10(k) || (k == 1 && n < 10)
    ensures |NatToString(n)| == k
    decreases k
  {
    if k > 1 {
      assert n >= 10;
      NatToStringLength(n / 10, k - 1);
    }
  }
}

=== FILE: upsert.dfy ===
/** The per-item upsert the update services run over a list of child rows
    (subpillars, educations, social links): an item whose `create` lacks a
    required column is rejected, an item whose id is a stored row updates
    that row, any other item creates a row under a freshly minted id, and
    rows no item names are left alone. The upserts are started together
    and awaited with `Promise.all`; the model runs them in list order, every
    one of them taking effect, and reports whether any was rejected. */
module Upsert {
  import opened Common

  datatype Upserted<T> = Upserted(rows: map<Id, T>, failed: bool)

  /** One upsert. `create` is None when the item lacks a column the insert
      needs. The store validates the whole upsert, `create` included, before
      it looks the row up, so such an item is rejected even when it names a
      stored row. A minted id that is already taken is a primary-key
      rejection. */
  function Step<P, T>(m: map<Id, T>, p: P, key: P -> Id, update: (T, P) -> T, create: (P, Id) -> Option<T>, id: Id): (r: Upserted<T>)
    ensures create(p, id).None? ==> r.failed && r.rows == m
    ensures create(p, id).Some? && key(p) in m ==> !r.failed && r.rows == m[key(p) := update(m[key(p)], p)]
    ensures create(p, id).Some? && key(p) !in m && id in m ==> r.failed && r.rows == m
    ensures create(p, id).Some? && key(p) !in m && id !in m ==> !r.failed && r.rows == m[id := create(p, id).value]
  {
    match create(p, id)
    case None => Upserted(m, true)
    case Some(t) =>
      if key(p) in m then Upserted(m[key(p) := update(m[key(p)], p)], false)
      else if id in m then Upserted(m, true)
      else Upserted(m[id := t], false)
  }

  /** Every item upserted in order, `newIds[i]` being the id item i gets if it is inserted. */
  function UpsertAll<P, T>(m: map<Id, T>, ps: seq<P>, key: P -> Id, update: (T, P) -> T, create: (P, Id) -> Option<T>, newIds: seq<Id>): (r: Upserted<T>)
    requires |newIds| == |ps|
    ensures forall k :: k in m ==> k in r.rows
    ensures r.failed ==> exists i :: 0 <= i < |ps| && (create(ps[i], newIds[i]).None? || key(ps[i]) !in m)
    ensures (exists i :: 0 <= i < |ps| && create(ps[i], newIds[i]).None?) ==> r.failed
    ensures (forall i :: 0 <= i < |ps| ==> key(ps[i]) in m && create(ps[i], newIds[i]).Some?) ==> !r.failed && r.rows.Keys == m.Keys
    decreases |ps|
  {
    if |ps| == 0 then Upserted(m, false)
    else
      var first := Step(m, ps[0], key, update, create, newIds[0]);
      var rest := UpsertAll(first.rows, ps[1..], key, update, create, newIds[1..]);
      assert forall i :: 1 <= i < |ps| ==> ps[i] == ps[1..][i - 1] && newIds[i] == newIds[1..][i - 1];
      Upserted(rest.rows, first.failed || rest.failed)
  }

  /** A row no item names comes out as it went in. */
  lemma {:induction false} UntouchedRows<P, T>(m: map<Id, T>, ps: seq<P>, key: P -> Id, update: (T, P) -> T, create: (P, Id) -> Option<T>, newIds: seq<Id>, k: Id)
    requires |newIds| == |ps|
    requires k in m && forall i :: 0 <= i < |ps| ==> key(ps[i]) != k
    ensures UpsertAll(m, ps, key, update, create, newIds).rows[k] == m[k]
    decreases |ps|
  {
    if |ps| > 0 {
      var first := Step(m, ps[0], key, update, create, newIds[0]);
      assert key(ps[0]) != k;
      assert first.rows[k] == m[k];
      assert forall i :: 0 <= i < |ps[1..]| ==> key(ps[1..][i]) == key(ps[i + 1]);
      UntouchedRows(first.rows, ps[1..], key, update, create, newIds[1..], k);
    }
  }

  /** An item naming a stored row, and the only item naming it, updates that
      row when it carries every column of the insert, and leaves it as it
      was otherwise. */
  lemma {:induction false} UpdatedRow<P, T>(m: map<Id, T>, ps: seq<P>, key: P -> Id, update: (T, P) -> T, create: (P, Id) -> Option<T>, newIds: seq<Id>, i: int)
    requires |newIds| == |ps|
    requires 0 <= i < |ps| && key(ps[i]) in m
    requires forall j :: 0 <= j < |ps| && j != i ==> key(ps[j]) != key(ps[i])
    ensures key(ps[i]) in UpsertAll(m, ps, key, update, create, newIds).rows
    ensures create(ps[i], newIds[i]).Some? ==>
      UpsertAll(m, ps, key, update, create, newIds).rows[key(ps[i])] == update(m[key(ps[i])], ps[i])
    ensures create(ps[i], newIds[i]).None? ==>
      UpsertAll(m, ps, key, update, create, newIds).rows[key(ps[i])] == m[key(ps[i])]
    decreases |ps|
  {
    var first := Step(m, ps[0], key, update, create, newIds[0]);
    assert forall j :: 0 <= j < |ps[1..]| ==> key(ps[1..][j]) == key(ps[j + 1]);
    if i == 0 {
      UntouchedRows(first.rows, ps[1..], key, update, create, newIds[1..], key(ps[0]));
    } else {
      assert key(ps[0]) != key(ps[i]);
      assert first.rows[key(ps[i])] == m[key(ps[i])];
      assert ps[1..][i - 1] == ps[i] && newIds[1..][i - 1] == newIds[i];
      UpdatedRow(first.rows, ps[1..], key, update, create, newIds[1..], i - 1);
    }
  }

  /** A row that was not stored before comes from an item that named no
      stored row, under that item's minted id; when no item names it, it is
      exactly what the insert of that item wrote. */
  lemma {:induction false} NewRows<P, T>(m: map<Id, T>, ps: seq<P>, key: P -> Id, update: (T, P) -> T, create: (P, Id) -> Option<T>, newIds: seq<Id>, k: Id)
    requires |newIds| == |ps|
    requires k in UpsertAll(m, ps, key, update, create, newIds).rows && k !in m
    ensures exists i :: 0 <= i < |ps| && key(ps[i]) !in m && k == newIds[i]
    ensures (forall i :: 0 <= i < |ps| ==> key(ps[i]) != k) ==>
      exists i :: 0 <= i < |ps| && create(ps[i], newIds[i]) == Some(UpsertAll(m, ps, key, update, create, newIds).rows[k])
    decreases |ps|
  {
    var first := Step(m, ps[0], key, update, create, newIds[0]);
    var r := UpsertAll(m, ps, key, update, create, newIds);
    assert forall j :: 0 <= j < |ps[1..]| ==> ps[1..][j] == ps[j + 1] && newIds[1..][j] == newIds[j + 1];
    if k in first.rows {
      assert key(ps[0]) !in m && k == newIds[0];
      if forall i :: 0 <= i < |ps| ==> key(ps[i]) != k {
        UntouchedRows(first.rows, ps[1..], key, update, create, newIds[1..], k);
        assert create(ps[0], newIds[0]) == Some(r.rows[k]);
      }
    } else {
      NewRows(first.rows, ps[1..], key, update, create, newIds[1..], k);
      var j :| 0 <= j < |ps[1..]| && key(ps[1..][j]) !in first.rows && k == newIds[1..][j];
      assert key(ps[j + 1]) !in m && k == newIds[j + 1];
    }
  }

  /** A property of (key, row) that every update keeps and every insert
      establishes holds of all rows afterwards. */
  lemma {:induction false} KeepsInvariant<P, T>(m: map<Id, T>, ps: seq<P>, key: P -> Id, update: (T, P) -> T, create: (P, Id) -> Option<T>, newIds: seq<Id>, inv: (Id, T) -> bool)
    requires |newIds| == |ps|
    requires forall k :: k in m ==> inv(k, m[k])
    requires forall k, t, p :: inv(k, t) ==> inv(k, update(t, p))
    requires forall p, id :: create(p, id).Some? ==> inv(id, create(p, id).value)
    ensures forall k :: k in UpsertAll(m, ps, key, update, create, newIds).rows ==> inv(k, UpsertAll(m, ps, key, update, create, newIds).rows[k])
    decreases |ps|
  {
    if |ps| > 0 {
      var first := Step(m, ps[0], key, update, create, newIds[0]);
      assert forall k :: k in first.rows ==> inv(k, first.rows[k]);
      KeepsInvariant(first.rows, ps[1..], key, update, create, newIds[1..], inv);
    }
  }
}

=== FILE: volunteers.dfy ===
/** The volunteer openings and their applicants
    (src/volunteers/volunteers.service.ts): the public and admin listings,
    the partial update, the delete that first clears every applicant's
    files, the application upload with its compensating delete, and the
    approval toggle. */
module Volunteers {
  import opened Common
  import opened Text
  import opened Constants
  import opened StringUtil
  import opened Listing
  import opened Blobs

  datatype Volunteer = Volunteer(
    id: Id,
    title: string,
    slug: string,
    requirements: string,
    responsibilities: Option<string>,
    pillarId: Option<Id>,
    subPillarId: Option<Id>,
    isActive: bool,
    createdBy: string,
    updatedBy: string)

  datatype Applicant = Applicant(
    id: Id,
    volunteerId: Id,
    fullname: string,
    email: string,
    institution: string,
    level: EducationLevel,
    studyProgram: string,
    reason: string,
    cvKey: Key,
    cvUrl: string,
    followKey: Key,
    followUrl: string,
    isApproved: bool,
    approvedBy: Option<string>)

  datatype State = State(vols: map<Id, Volunteer>, appls: map<Id, Applicant>, blobs: set<Key>)

  const PageSize: nat := 8
  const ApplicantPrefix: string := "JPSVOLAPPL"
  const ApplicantDigits: nat := 6
  const CvFolder: string := "vol_cvs"
  const ProofFolder: string := "vol_proofs"

  /** Every applicant belongs to a stored opening and both of its files are
      in the bucket. */
  predicate Consistent(s: State) {
    forall a :: a in s.appls ==>
      s.appls[a].volunteerId in s.vols && s.appls[a].cvKey in s.blobs && s.appls[a].followKey in s.blobs
  }

  /** No file is shared between two applicants. */
  predicate KeysExclusive(s: State) {
    forall a, b :: a in s.appls && b in s.appls && a != b ==>
      s.appls[a].cvKey != s.appls[b].cvKey && s.appls[a].cvKey != s.appls[b].followKey
      && s.appls[a].followKey != s.appls[b].cvKey && s.appls[a].followKey != s.appls[b].followKey
  }

  // ---------------------------------------------------------------------
  // getPublicVols

  predicate PublicMatches(v: Volunteer, pillars: map<Id, Node>, subpillars: map<Id, Node>, filter: Option<string>) {
    v.isActive && SentinelFilter(v.title, v.pillarId, v.subPillarId, pillars, subpillars, filter)
  }

  function PublicWhere(pillars: map<Id, Node>, subpillars: map<Id, Node>, filter: Option<string>): Volunteer -> bool {
    (v: Volunteer) => PublicMatches(v, pillars, subpillars, filter)
  }

  datatype PublicItem = PublicItem(id: Id, slug: string, title: string, pillar: string, subpillar: string)

  function RenderPublic(pillars: map<Id, Node>, subpillars: map<Id, Node>): Volunteer -> PublicItem {
    (v: Volunteer) => PublicItem(v.id, v.slug, v.title, DisplayName(v.pillarId, pillars), DisplayName(v.subPillarId, subpillars))
  }

  /** `rows` is the volunteer table in the order the query's `orderBy` yields. */
  function GetPublicVols(rows: seq<Volunteer>, pillars: map<Id, Node>, subpillars: map<Id, Node>, query: Query): (r: Result<Page<PublicItem>>)
    ensures Listed(r, rows, PublicWhere(pillars, subpillars, query.filter), query, PageSize, RenderPublic(pillars, subpillars))
  {
    ListMap(rows, PublicWhere(pillars, subpillars, query.filter), query, PageSize, RenderPublic(pillars, subpillars))
  }

  /** Without a filter (or with a sort-only one) the public total counts
      exactly the active openings. */
  lemma PublicUnfilteredCountsActive(rows: seq<Volunteer>, pillars: map<Id, Node>, subpillars: map<Id, Node>, query: Query)
    requires query.filter.None? || query.filter.value == "" || IsSortFilter(query.filter.value)
    ensures GetPublicVols(rows, pillars, subpillars, query).Ok? ==> GetPublicVols(rows, pillars, subpillars, query).value.total == |Filter((v: Volunteer) => v.isActive, rows)|
  {
    forall v | v in rows
      ensures PublicWhere(pillars, subpillars, query.filter)(v) == ((v: Volunteer) => v.isActive)(v)
    {
      if query.filter.Some? {
        SortFiltersIgnored(v.title, v.pillarId, v.subPillarId, pillars, subpillars, query.filter.value);
      }
    }
    FilterExt(PublicWhere(pillars, subpillars, query.filter), (v: Volunteer) => v.isActive, rows);
  }

  // ---------------------------------------------------------------------
  // getVols

  function AdminWhere(q: Option<string>): Volunteer -> bool {
    (v: Volunteer) => FieldContains(v.title, q)
  }

  /** The applicants of one opening. */
  function ApplicantsOf(appls: map<Id, Applicant>, vid: Id): (r: set<Id>)
    ensures forall a :: a in r <==> a in appls && appls[a].volunteerId == vid
  {
    set a | a in appls && appls[a].volunteerId == vid
  }

  datatype AdminItem = AdminItem(id: Id, slug: string, title: string, pillar: Option<Ref>, subpillar: Option<Ref>, totalApplicants: nat)

  function RenderAdmin(appls: map<Id, Applicant>, pillars: map<Id, Node>, subpillars: map<Id, Node>): Volunteer -> AdminItem {
    (v: Volunteer) => AdminItem(v.id, v.slug, v.title, RefOf(v.pillarId, pillars), RefOf(v.subPillarId, subpillars), |ApplicantsOf(appls, v.id)|)
  }

  /** The admin listing: title search only, inactive openings included,
      each item with its number of applicants. */
  function GetVols(rows: seq<Volunteer>, appls: map<Id, Applicant>, pillars: map<Id, Node>, subpillars: map<Id, Node>, query: Query): (r: Result<Page<AdminItem>>)
    ensures Listed(r, rows, AdminWhere(query.q), query, PageSize, RenderAdmin(appls, pillars, subpillars))
  {
    ListMap(rows, AdminWhere(query.q), query, PageSize, RenderAdmin(appls, pillars, subpillars))
  }

  /** An absent `q` leaves the condition empty: every opening, active or not, is counted. */
  lemma AdminUnfilteredCountsAll(rows: seq<Volunteer>, appls: map<Id, Applicant>, pillars: map<Id, Node>, subpillars: map<Id, Node>, query: Query)
    requires query.q.None?
    ensures GetVols(rows, appls, pillars, subpillars, query).Ok? ==> GetVols(rows, appls, pillars, subpillars, query).value.total == |rows|
  {
    FilterAll(AdminWhere(query.q), rows);
  }

  // ---------------------------------------------------------------------
  // updateVol

  datatype VolUpdate = VolUpdate(
    id: Id,
    pillarId: Option<Id>,
    subPillarId: Option<Id>,
    title: Option<string>,
    requirements: Option<string>,
    responsibilities: Option<string>,
    isActive: Option<bool>,
    actor: string)

  /** The `data` of the update: absent fields keep their column, the slug
      follows a truthy title only. */
  function Patched(v: Volunteer, body: VolUpdate): (w: Volunteer)
    ensures w.id == v.id && w.createdBy == v.createdBy && w.updatedBy == body.actor
    ensures w.title == Keep(body.title, v.title)
    ensures Truthy(body.title) ==> w.slug == Slug(body.title.value)
    ensures !Truthy(body.title) ==> w.slug == v.slug
    ensures w.requirements == Keep(body.requirements, v.requirements)
    ensures w.responsibilities == (if body.responsibilities.Some? then body.responsibilities else v.responsibilities)
    ensures w.pillarId == (if body.pillarId.Some? then body.pillarId else v.pillarId)
    ensures w.subPillarId == (if body.subPillarId.Some? then body.subPillarId else v.subPillarId)
    ensures w.isActive == Keep(body.isActive, v.isActive)
  {
    v.(title := Keep(body.title, v.title),
       slug := if Truthy(body.title) then Slug(body.title.value) else v.slug,
       requirements := Keep(body.requirements, v.requirements),
       responsibilities := if body.responsibilities.Some? then body.responsibilities else v.responsibilities,
       pillarId := if body.pillarId.Some? then body.pillarId else v.pillarId,
       subPillarId := if body.subPillarId.Some? then body.subPillarId else v.subPillarId,
       isActive := Keep(body.isActive, v.isActive),
       updatedBy := body.actor)
  }

  function UpdateVol(s: State, body: VolUpdate): (r: Reply<State, Id>)
    ensures body.id !in s.vols ==> r == Reply(s, Err(NotFound))
    ensures body.id in s.vols ==> r.result == Ok(body.id)
    ensures body.id in s.vols ==> r.state.vols == s.vols[body.id := Patched(s.vols[body.id], body)]
    ensures r.state.appls == s.appls && r.state.blobs == s.blobs
  {
    if body.id !in s.vols then Reply(s, Err(NotFound))
    else Reply(s.(vols := s.vols[body.id := Patched(s.vols[body.id], body)]), Ok(body.id))
  }

  /** Sending the same update twice has the effect of sending it once. */
  lemma UpdateVolIdempotent(s: State, body: VolUpdate)
    ensures UpdateVol(UpdateVol(s, body).state, body) == UpdateVol(s, body)
  {
    if body.id in s.vols {
      var v := s.vols[body.id];
      var t := UpdateVol(s, body).state;
      assert Patched(Patched(v, body), body) == Patched(v, body);
      assert t.vols[body.id := Patched(t.vols[body.id], body)] == t.vols;
    }
  }

  /** An update that names no field only records who touched the row. */
  lemma UpdateVolEmptyTouchesOnlyUpdater(s: State, id: Id, actor: string)
    requires id in s.vols
    ensures UpdateVol(s, VolUpdate(id, None, None, None, None, None, None, actor)).state
         == s.(vols := s.vols[id := s.vols[id].(updatedBy := actor)])
  {}

  // ---------------------------------------------------------------------
  // deleteVol

  /** Every file key held by the applicants of one opening. */
  function FilesOf(appls: map<Id, Applicant>, vid: Id): (r: set<Key>)
    ensures forall a :: a in appls && appls[a].volunteerId == vid ==> appls[a].cvKey in r && appls[a].followKey in r
    ensures forall k :: k in r ==> exists a :: a in appls && appls[a].volunteerId == vid && (k == appls[a].cvKey || k == appls[a].followKey)
  {
    (set a | a in appls && appls[a].volunteerId == vid :: appls[a].cvKey)
    + (set a | a in appls && appls[a].volunteerId == vid :: appls[a].followKey)
  }

  /** `order` is the order in which the `volappl` relation lists the
      applicants of opening `vid`: each of them, and nothing else. */
  ghost predicate ListsApplicants(appls: map<Id, Applicant>, vid: Id, order: seq<Id>) {
    forall a :: a in order <==> a in appls && appls[a].volunteerId == vid
  }

  /** The two files of each listed applicant, one `Promise.all` per applicant. */
  function FileBatches(appls: map<Id, Applicant>, order: seq<Id>): (r: seq<set<Key>>)
    requires forall i :: 0 <= i < |order| ==> order[i] in appls
    ensures |r| == |order|
    ensures forall i :: 0 <= i < |order| ==> r[i] == {appls[order[i]].cvKey, appls[order[i]].followKey}
  {
    seq(|order|, i requires 0 <= i < |order| => {appls[order[i]].cvKey, appls[order[i]].followKey})
  }

  /** What the loop over `FileBatches` leaves in the bucket, in terms of the
      opening's applicants: it resolves exactly when none of their files
      rejects, and then every one of their files is gone. */
  lemma {:induction false} FileBatchesCleared(blobs: set<Key>, appls: map<Id, Applicant>, id: Id, order: seq<Id>, rejects: set<Key>)
    requires ListsApplicants(appls, id, order)
    ensures var c := DeleteBatches(blobs, FileBatches(appls, order), rejects);
      && (c.result.Ok? <==> FilesOf(appls, id) * rejects == {})
      && (c.result.Ok? ==> forall a :: a in appls && appls[a].volunteerId == id ==>
            appls[a].cvKey !in c.state && appls[a].followKey !in c.state)
      && (forall k :: k in blobs && (k !in FilesOf(appls, id) || k in rejects) ==> k in c.state)
      && (forall i :: 0 <= i < FirstRejected(FileBatches(appls, order), rejects) ==>
            appls[order[i]].cvKey !in c.state && appls[order[i]].followKey !in c.state)
  {
    var batches := FileBatches(appls, order);
    var c := DeleteBatches(blobs, batches, rejects);
    var j := FirstRejected(batches, rejects);
    forall i | 0 <= i < j
      ensures appls[order[i]].cvKey !in c.state && appls[order[i]].followKey !in c.state
    {
      assert appls[order[i]].cvKey in batches[i] && appls[order[i]].followKey in batches[i];
    }
    forall k | k in blobs && (k !in FilesOf(appls, id) || k in rejects)
      ensures k in c.state
    {
      if k !in rejects {
        forall i | 0 <= i <= j && i < |batches| ensures k !in batches[i] {
          assert order[i] in order;
        }
      }
    }
    if c.result.Ok? {
      forall a | a in appls && appls[a].volunteerId == id
        ensures appls[a].cvKey !in c.state && appls[a].followKey !in c.state
        ensures appls[a].cvKey !in rejects && appls[a].followKey !in rejects
      {
        var i :| 0 <= i < |order| && order[i] == a;
        assert appls[a].cvKey !in batches[i] * rejects && appls[a].followKey !in batches[i] * rejects;
      }
      forall k | k in FilesOf(appls, id) ensures k !in rejects {
        var a :| a in appls && appls[a].volunteerId == id && (k == appls[a].cvKey || k == appls[a].followKey);
      }
    } else {
      var k :| k in batches[j] * rejects;
      assert order[j] in order;
      assert k in FilesOf(appls, id) * rejects;
    }
  }

  /** The applicants that do not belong to opening `vid`. */
  function Survivors(appls: map<Id, Applicant>, vid: Id): (r: map<Id, Applicant>)
    ensures forall a :: a in appls && appls[a].volunteerId != vid ==> a in r && r[a] == appls[a]
    ensures forall a :: a in r ==> a in appls && appls[a].volunteerId != vid
  {
    map a | a in appls && appls[a].volunteerId != vid :: appls[a]
  }

  /** The applicants' files are deleted one applicant at a time, both files of
      an applicant together; only when every delete resolves is the opening
      deleted, together with its applicants. A rejected delete ends the loop:
      the rows stay, while the files of the applicants already visited are
      gone. */
  function DeleteVol(s: State, id: Id, order: seq<Id>, rejects: set<Key>): (r: Reply<State, Id>)
    requires ListsApplicants(s.appls, id, order)
    ensures id !in s.vols ==> r == Reply(s, Err(NotFound))
    ensures id in s.vols ==> (r.result.Ok? <==> FilesOf(s.appls, id) * rejects == {})
    ensures id in s.vols && r.result.Ok?
      ==> && r.result == Ok(id)
          && r.state.vols == s.vols - {id}
          && (forall a :: a in s.appls && s.appls[a].volunteerId == id ==>
                a !in r.state.appls && s.appls[a].cvKey !in r.state.blobs && s.appls[a].followKey !in r.state.blobs)
          && (forall a :: a in s.appls && s.appls[a].volunteerId != id ==>
                a in r.state.appls && r.state.appls[a] == s.appls[a])
    ensures id in s.vols && r.result.Err?
      ==> && r.result == Err(StoreFailure)
          && r.state.vols == s.vols && r.state.appls == s.appls
          && (var j := FirstRejected(FileBatches(s.appls, order), rejects);
              forall i :: 0 <= i < j ==>
                s.appls[order[i]].cvKey !in r.state.blobs && s.appls[order[i]].followKey !in r.state.blobs)
    ensures r.state.appls.Keys <= s.appls.Keys
    ensures r.state.blobs <= s.blobs
    ensures forall k :: k in s.blobs && (k !in FilesOf(s.appls, id) || k in rejects) ==> k in r.state.blobs
  {
    if id !in s.vols then Reply(s, Err(NotFound))
    else
      var cleared := DeleteBatches(s.blobs, FileBatches(s.appls, order), rejects);
      FileBatchesCleared(s.blobs, s.appls, id, order, rejects);
      if cleared.result.Err? then Reply(s.(blobs := cleared.state), Err(StoreFailure))
      else Reply(State(s.vols - {id}, Survivors(s.appls, id), cleared.state), Ok(id))
  }

  /** Dropping applicants never makes two of them share a file. */
  lemma SubsetKeepsExclusive(s: State, t: State)
    requires KeysExclusive(s)
    requires forall a :: a in t.appls ==> a in s.appls && t.appls[a] == s.appls[a]
    ensures KeysExclusive(t)
  {}

  /** The files of an applicant of another opening are not among `FilesOf(id)`. */
  lemma OthersFilesOutside(s: State, id: Id, b: Id)
    requires KeysExclusive(s)
    requires b in s.appls && s.appls[b].volunteerId != id
    ensures s.appls[b].cvKey !in FilesOf(s.appls, id) && s.appls[b].followKey !in FilesOf(s.appls, id)
  {
    forall a | a in s.appls && s.appls[a].volunteerId == id
      ensures s.appls[b].cvKey != s.appls[a].cvKey && s.appls[b].cvKey != s.appls[a].followKey
      ensures s.appls[b].followKey != s.appls[a].cvKey && s.appls[b].followKey != s.appls[a].followKey
    {
      assert a != b;
    }
  }

  /** A delete that ends in `Ok` or `NotFound` keeps the store consistent:
      the surviving applicants still point at stored openings and still own
      their files. File ownership stays exclusive on every path. */
  lemma DeleteVolPreservesConsistency(s: State, id: Id, order: seq<Id>, rejects: set<Key>)
    requires Consistent(s) && KeysExclusive(s)
    requires ListsApplicants(s.appls, id, order)
    ensures DeleteVol(s, id, order, rejects).result != Err(StoreFailure) ==> Consistent(DeleteVol(s, id, order, rejects).state)
    ensures KeysExclusive(DeleteVol(s, id, order, rejects).state)
  {
    var t := DeleteVol(s, id, order, rejects);
    SubsetKeepsExclusive(s, t.state);
    if id in s.vols && t.result.Ok? {
      forall b | b in t.state.appls
        ensures t.state.appls[b].volunteerId in t.state.vols
        ensures t.state.appls[b].cvKey in t.state.blobs && t.state.appls[b].followKey in t.state.blobs
      {
        OthersFilesOutside(s, id, b);
      }
    }
  }

  /** The loop is not atomic. With two applicants, a rejected delete of the
      second one's CV leaves the first applicant's row pointing at files that
      are already gone. */
  lemma DeleteVolRejectedLeavesDangling(s: State, id: Id, a1: Id, a2: Id)
    requires Consistent(s) && KeysExclusive(s)
    requires id in s.vols && a1 != a2
    requires ListsApplicants(s.appls, id, [a1, a2])
    ensures DeleteVol(s, id, [a1, a2], {s.appls[a2].cvKey}).result == Err(StoreFailure)
    ensures !Consistent(DeleteVol(s, id, [a1, a2], {s.appls[a2].cvKey}).state)
  {
    var rejects := {s.appls[a2].cvKey};
    var batches := FileBatches(s.appls, [a1, a2]);
    assert a1 in [a1, a2] && a2 in [a1, a2];
    assert batches[0] * rejects == {};
    assert s.appls[a2].cvKey in batches[1] * rejects;
    assert FirstRejected(batches, rejects) == 1 by {
      assert FirstRejected(batches[1..], rejects) == 0 by {
        assert batches[1..][0] == batches[1];
      }
    }
    var t := DeleteVol(s, id, [a1, a2], rejects).state;
    assert a1 in t.appls && t.appls[a1].cvKey !in t.blobs;
  }

  // ---------------------------------------------------------------------
  // createVolAppl

  datatype ApplInput = ApplInput(
    volunteerId: Id,
    fullname: string,
    email: string,
    institution: string,
    level: EducationLevel,
    studyProgram: string,
    reason: string)

  /** What the runtime supplies: the two `Date.now()` readings, the outcome
      of each upload and the random draw for the applicant id. */
  datatype ApplEnv = ApplEnv(cvTime: nat, followTime: nat, cvUpload: UploadOutcome, followUpload: UploadOutcome, draw: nat)

  function CvKey(cv: File, env: ApplEnv): Key {
    ObjectKey(CvFolder, env.cvTime, cv.name)
  }

  function FollowKey(follow: File, env: ApplEnv): Key {
    ObjectKey(ProofFolder, env.followTime, follow.name)
  }

  /** Both uploads run (`Promise.all` starts both before either settles). */
  function UploadBoth(blobs: set<Key>, cvKey: Key, followKey: Key, env: ApplEnv): (r: set<Key>)
    ensures r <= blobs + {cvKey, followKey}
    ensures blobs <= r
    ensures env.cvUpload.Uploaded? ==> cvKey in r
    ensures env.followUpload.Uploaded? ==> followKey in r
  {
    Upload(Upload(blobs, cvKey, env.cvUpload).state, followKey, env.followUpload).state
  }

  /** The insert: it is rejected when the opening does not exist (foreign
      key) or the minted id is taken (primary key). */
  function InsertApplicant(s: State, blobs: set<Key>, body: ApplInput, cvKey: Key, followKey: Key, env: ApplEnv): (r: Option<State>)
    requires InDigitRange(env.draw, ApplicantDigits)
    requires env.cvUpload.Uploaded? && env.followUpload.Uploaded?
    ensures r.None? <==> body.volunteerId !in s.vols || MintId(ApplicantPrefix, env.draw, ApplicantDigits) in s.appls
    ensures r.Some? ==> r.value.vols == s.vols && r.value.blobs == blobs
    ensures r.Some? ==> r.value.appls == s.appls[MintId(ApplicantPrefix, env.draw, ApplicantDigits) :=
      Applicant(MintId(ApplicantPrefix, env.draw, ApplicantDigits), body.volunteerId, body.fullname, body.email,
                body.institution, body.level, body.studyProgram, body.reason,
                cvKey, env.cvUpload.url, followKey, env.followUpload.url, false, None)]
  {
    var id := MintId(ApplicantPrefix, env.draw, ApplicantDigits);
    if body.volunteerId !in s.vols || id in s.appls then None
    else
      var a := Applicant(id, body.volunteerId, body.fullname, body.email, body.institution, body.level,
                         body.studyProgram, body.reason, cvKey, env.cvUpload.url, followKey, env.followUpload.url, false, None);
      Some(State(s.vols, s.appls[id := a], blobs))
  }

  /** createVolAppl as the source runs it. A missing file throws before the
      `try`. A failed upload runs the compensating deletes. The insert is
      returned without `await`, so its rejection settles after the `catch`
      has been left and the two uploaded files stay in the bucket. */
  function CreateVolApplAsWritten(s: State, body: ApplInput, cv: Option<File>, follow: Option<File>, env: ApplEnv): (r: Reply<State, Id>)
    requires InDigitRange(env.draw, ApplicantDigits)
    ensures cv.None? || follow.None? ==> r == Reply(s, Err(TypeError))
    ensures r.result == Err(StoreFailure) ==>
      && cv.Some? && follow.Some?
      && r.state.vols == s.vols && r.state.appls == s.appls
      && CvKey(cv.value, env) !in r.state.blobs && FollowKey(follow.value, env) !in r.state.blobs
    ensures r.result == Err(DbFailure) ==>
      && cv.Some? && follow.Some?
      && r.state == s.(blobs := s.blobs + {CvKey(cv.value, env), FollowKey(follow.value, env)})
    ensures r.result.Ok? ==> r.result.value in r.state.appls
  {
    if cv.None? || follow.None? then Reply(s, Err(TypeError))
    else
      var cvKey := CvKey(cv.value, env);
      var followKey := FollowKey(follow.value, env);
      var uploaded := UploadBoth(s.blobs, cvKey, followKey, env);
      if env.cvUpload.UploadFailed? || env.followUpload.UploadFailed? then
        Reply(s.(blobs := DeleteAll(uploaded, {cvKey, followKey})), Err(StoreFailure))
      else
        match InsertApplicant(s, uploaded, body, cvKey, followKey, env)
        case None => Reply(s.(blobs := uploaded), Err(DbFailure))
        case Some(t) => Reply(t, Ok(MintId(ApplicantPrefix, env.draw, ApplicantDigits)))
  }

  /** An application for an opening that does not exist: both uploads
      succeed, the insert is rejected, and the two files remain in the bucket
      with no applicant row pointing at them. */
  lemma CreateVolApplAsWrittenLeaksFiles(s: State, body: ApplInput, cv: File, follow: File, env: ApplEnv)
    requires InDigitRange(env.draw, ApplicantDigits)
    requires env.cvUpload.Uploaded? && env.followUpload.Uploaded?
    requires body.volunteerId !in s.vols
    ensures CreateVolApplAsWritten(s, body, Some(cv), Some(follow), env).result == Err(DbFailure)
    ensures CvKey(cv, env) in CreateVolApplAsWritten(s, body, Some(cv), Some(follow), env).state.blobs
    ensures FollowKey(follow, env) in CreateVolApplAsWritten(s, body, Some(cv), Some(follow), env).state.blobs
    ensures CreateVolApplAsWritten(s, body, Some(cv), Some(follow), env).state.appls == s.appls
  {}

  /** createVolAppl with the insert awaited inside the `try`, which is what
      the compensating `catch` is written for: whichever step fails, the
      uploaded files are deleted again and no row is added. */
  function CreateVolAppl(s: State, body: ApplInput, cv: Option<File>, follow: Option<File>, env: ApplEnv): (r: Reply<State, Id>)
    requires InDigitRange(env.draw, ApplicantDigits)
    ensures cv.None? || follow.None? ==> r == Reply(s, Err(TypeError))
    ensures r.result.Err? && cv.Some? && follow.Some? ==>
      r.state == s.(blobs := s.blobs - {CvKey(cv.value, env), FollowKey(follow.value, env)})
    ensures r.result.Err? ==> r.state.blobs <= s.blobs && r.state.appls == s.appls
    ensures r.result.Ok? ==> cv.Some? && follow.Some? && r.result.value !in s.appls && r.result.value in r.state.appls
    ensures r.result.Ok? ==> var a := r.state.appls[r.result.value];
      a.volunteerId == body.volunteerId && a.volunteerId in s.vols && !a.isApproved
      && a.cvKey == CvKey(cv.value, env) && a.followKey == FollowKey(follow.value, env)
      && a.cvKey in r.state.blobs && a.followKey in r.state.blobs
    ensures r.result.Ok? ==> r.state.vols == s.vols && s.blobs <= r.state.blobs
    ensures r.result.Ok? ==> forall a :: a in s.appls ==> a in r.state.appls && r.state.appls[a] == s.appls[a]
  {
    if cv.None? || follow.None? then Reply(s, Err(TypeError))
    else
      var cvKey := CvKey(cv.value, env);
      var followKey := FollowKey(follow.value, env);
      var uploaded := UploadBoth(s.blobs, cvKey, followKey, env);
      var rollback := s.(blobs := DeleteAll(uploaded, {cvKey, followKey}));
      assert DeleteAll(uploaded, {cvKey, followKey}) == s.blobs - {cvKey, followKey};
      if env.cvUpload.UploadFailed? || env.followUpload.UploadFailed? then
        Reply(rollback, Err(StoreFailure))
      else
        match InsertApplicant(s, uploaded, body, cvKey, followKey, env)
        case None => Reply(rollback, Err(DbFailure))
        case Some(t) => Reply(t, Ok(MintId(ApplicantPrefix, env.draw, ApplicantDigits)))
  }

  /** A successful application keeps the store consistent when its two fresh
      keys are new to the bucket. */
  lemma CreateVolApplPreservesConsistency(s: State, body: ApplInput, cv: File, follow: File, env: ApplEnv)
    requires InDigitRange(env.draw, ApplicantDigits)
    requires Consistent(s) && KeysExclusive(s)
    requires CvKey(cv, env) !in s.blobs && FollowKey(follow, env) !in s.blobs
    requires CvKey(cv, env) != FollowKey(follow, env)
    ensures Consistent(CreateVolAppl(s, body, Some(cv), Some(follow), env).state)
    ensures KeysExclusive(CreateVolAppl(s, body, Some(cv), Some(follow), env).state)
  {
    var r := CreateVolAppl(s, body, Some(cv), Some(follow), env);
    if r.result.Err? {
      assert r.state.appls == s.appls;
      forall a | a in r.state.appls
        ensures r.state.appls[a].cvKey in r.state.blobs && r.state.appls[a].followKey in r.state.blobs
      {
        assert s.appls[a].cvKey in s.blobs && s.appls[a].followKey in s.blobs;
      }
    } else {
      var id := r.result.value;
      forall a | a in s.appls
        ensures s.appls[a].cvKey != CvKey(cv, env) && s.appls[a].followKey != FollowKey(follow, env)
        ensures s.appls[a].cvKey != FollowKey(follow, env) && s.appls[a].followKey != CvKey(cv, env)
      {
        assert s.appls[a].cvKey in s.blobs && s.appls[a].followKey in s.blobs;
      }
    }
  }

  // ---------------------------------------------------------------------
  // updateVolAppl

  /** Flips the approval flag and records who flipped it. */
  function UpdateVolAppl(s: State, applId: Id, actor: string): (r: Reply<State, Id>)
    ensures applId !in s.appls ==> r == Reply(s, Err(NotFound))
    ensures applId in s.appls ==> r.result == Ok(applId)
    ensures applId in s.appls ==> applId in r.state.appls
    ensures applId in s.appls ==> r.state.appls[applId].isApproved == !s.appls[applId].isApproved
    ensures applId in s.appls ==> r.state.appls[applId].approvedBy == Some(actor)
    ensures applId in s.appls ==>
      r.state.appls[applId] == s.appls[applId].(isApproved := !s.appls[applId].isApproved, approvedBy := Some(actor))
    ensures r.state.vols == s.vols && r.state.blobs == s.blobs && r.state.appls.Keys == s.appls.Keys
    ensures forall a :: a in s.appls && a != applId ==> r.state.appls[a] == s.appls[a]
  {
    if applId !in s.appls then Reply(s, Err(NotFound))
    else
      var a := s.appls[applId];
      Reply(s.(appls := s.appls[applId := a.(isApproved := !a.isApproved, approvedBy := Some(actor))]), Ok(applId))
  }

  /** Toggling twice restores the approval flag; only the approver differs. */
  lemma ToggleTwiceRestores(s: State, applId: Id, actor1: string, actor2: string)
    requires applId in s.appls
    ensures UpdateVolAppl(UpdateVolAppl(s, applId, actor1).state, applId, actor2).state
         == s.(appls := s.appls[applId := s.appls[applId].(approvedBy := Some(actor2))])
  {}
}
